=== FILE: README.md ===
# Reservite booking core in Dafny

Reservite is a hotel-booking system. A React client talks to three Spring services: reservations, payments, and hotels with their rooms. A fourth Spring service holds users. This project models the logic those pieces carry. It proves what that logic guarantees.

- **Stay arithmetic** (`Stay`, `Calendar`):
  - the three night counts: the client's millisecond ceiling, date-fns `differenceInDays`, and Java `ChronoUnit.DAYS.between`;
  - the stay price;
  - the booking form's date validation and its submit guards;
  - the ISO `yyyy-MM-dd` text and its string order.
- **Hotel page and listing** (`HotelDetail`, `HotelCard`, `HotelList`):
  - the client-side room-availability test;
  - booking checks and the room-id fix-up;
  - card images and description truncation;
  - the city and rating filters and the rating sort.
- **Reservation service** (`ReservationEntity`, `ReservationService`, `ReservationController`):
  - the JPA entity hooks;
  - the request record's validator and the DTO aliases;
  - create, cancel, confirm-payment and lookup over an in-memory store;
  - the controller's pre-checks and status codes.
- **Payment service** (`PaymentEntity`, `PaymentRequest`, `PaymentService`):
  - entity defaults and the redacting `toString`;
  - `processPayment` with its ordered checks, card masking and simulated outcome;
  - lookups and refunds.
- **Client pages** (`PaymentPage`, `ReservationDialog`, `ReservationConfirmation`, `RegisterPage`, `MyReservations`):
  - the card, expiry and CVV formatters;
  - the payment flow;
  - the dialog's prefill and merge;
  - the confirmation fallbacks;
  - registration checks;
  - the reservation-list normalisation.
- **Hotel service** (`HotelCatalogue`): CRUD over hotel and room maps, in both the controller and the service implementation.
- **Users and session** (`UserService`, `AuthStorage`, `AuthContext`):
  - registration and login;
  - the browser's `localStorage` session kept by `authService` and `jwtUtils`;
  - the React authentication context.

## How the system is represented

- **Shared modules.**
  - `Wrappers`: `Option` for Java `null` / JS `undefined`, and `Result` for a call that may throw.
  - `JsValues`: JavaScript values with truthiness, `||`, `==`, `===`, property access, `String()` and `Number()`.
  - `Text`: the regular-expression whitespace class, digits, trimming, splitting, decimal text, and Java's rendering of a `null` in string concatenation.
  - `Seqs`: `filter` and its laws.
- **Dates and time.**
  - A date is a day number since 0000-01-01 in the proleptic Gregorian calendar.
  - A JavaScript timestamp is an integer count of milliseconds.
  - A date the client reads with `new Date(text)` is the pair of its text and the timestamp it denotes. None stands for `NaN`.
  - "Now" and `System.currentTimeMillis()` are parameters.
- **Numbers.**
  - Prices, amounts and ratings are real numbers.
  - Ids and counts are unbounded integers. No Java `Long` overflow is reachable through the modelled operations.
- **Remote calls become parameters.**
  - The services' remote calls: the Feign user, hotel and room lookups, the room-availability update, and the payment gateway's random draw.
  - The client's server replies and `fetch` results: a reply is the body of a successful answer or the `response` of the axios error.
  - Foreign functions: `JSON.stringify`, `JSON.parse`, `btoa`, `atob`, the password encoder and the user's full name.
- **Stores.**
  - Repositories are maps keyed by id, with the next identity value.
  - The user table is the sequence of its rows in insertion order.

## Where the code and its description differ

The model follows the code in each case:

- **Cancel deletes.** Cancelling a reservation deletes the record (`ReservationService.java:187`). No status becomes CANCELLED, although the client filters on that status.
- **No overlap check.** The reservation service performs no overlap check, so two identical bookings both succeed (`ReservationService.DoubleBooking`).
- **Confirm from any status.** `confirmPayment` confirms a record in any status.
- **Failed payments block retries.** A FAILED payment blocks every later payment for the same reservation (`PaymentService.FailedBlocksRetry`).
- **Strict interval test.** At `HotelDetail.jsx:141` a comment describes an intersection test with `<=`. The code at line 142 uses strict comparisons, so back-to-back stays never conflict (`HotelDetail.BackToBack`).

## Model

| member | source | states |
|---|---|---|
| Stay.CeilNights | reservation-service/reservite-frontend/src/pages/HotelDetail.jsx:165-171 | never negative; 0 exactly when checkout is not after check-in; otherwise the ceiling of the elapsed days |
| Stay.CalculatePrice | reservation-service/reservite-frontend/src/services/reservationService.js:30-34 | 0 whenever checkout is not after check-in; never negative for a non-negative nightly price |
| Stay.CalculatePriceWholeDays | reservation-service/reservite-frontend/src/services/reservationService.js:31-34 | a stay of exactly n ≥ 1 whole days costs n times the nightly price |
| Stay.CalculatePricePartialDay | reservation-service/reservite-frontend/src/services/reservationService.js:33 | a positive partial day is charged as a whole night |
| Stay.FormNights | reservation-service/reservite-frontend/src/components/ReservationForm.jsx:40-47 | 0 when a date is missing or checkout ≤ check-in, else the day difference |
| Stay.NightCountsAgree | reservation-service/src/main/java/com/reservite/reservationservice/service/ReservationService.java:113 | on whole days the client's ceiling, date-fns' truncation and `DAYS.between` agree; the two clamped client counts agree with each other |
| Stay.FormTotalPrice | reservation-service/reservite-frontend/src/components/ReservationForm.jsx:50-53 | nights times the room price; 0 without a room or a price |
| Stay.FormPriceAgrees | reservation-service/reservite-frontend/src/components/ReservationForm.jsx:50-53 | on the days the form picks, its total equals the price the client reservation service quotes for the same stay |
| Stay.ValidateDates | reservation-service/reservite-frontend/src/components/ReservationForm.jsx:56-95 | missing dates, then a past check-in, then a checkout not after check-in, then over 30 nights; accepted iff both dates exist, check-in ≥ today and 1–30 nights; the "too short" branch is unreachable |
| Stay.FormSubmit | reservation-service/reservite-frontend/src/components/ReservationForm.jsx:109-136 | unauthenticated goes to login first; invalid dates report their error; a reservation is created iff authenticated, the dates validate and a room is selected, and it carries those dates and room |
| Calendar.DayNumberOrder | reservation-service/src/main/java/com/reservite/reservationservice/service/ReservationService.java:68-69 | the day number orders dates as the calendar does and is injective, so `isBefore`/`equals` on dates is comparison of day numbers |
| Calendar.IsoOrder | reservation-service/reservite-frontend/src/pages/HotelDetail.jsx:178 | the string order of two `yyyy-MM-dd` texts is the order of their dates, and equal texts mean equal dates |
| HotelDetail.HotelReservations | reservation-service/reservite-frontend/src/pages/HotelDetail.jsx:90 | a non-array answer gives []; otherwise exactly the reservations of this hotel whose status is not CANCELLED |
| HotelDetail.OverlapIsSharedInstant | reservation-service/reservite-frontend/src/pages/HotelDetail.jsx:142 | for proper stays the strict test holds iff the two half-open stays share an instant |
| HotelDetail.FirstConflict | reservation-service/reservite-frontend/src/pages/HotelDetail.jsx:131-143 | a found reservation is in the list and conflicts; none is found iff no reservation conflicts |
| HotelDetail.IsRoomAvailable | reservation-service/reservite-frontend/src/pages/HotelDetail.jsx:120-146 | `available === false` is never available; with a date missing every other room is; otherwise available iff no reservation for the room overlaps |
| HotelDetail.AvailabilityMonotone | reservation-service/reservite-frontend/src/pages/HotelDetail.jsx:131-145 | adding reservations can only turn available into unavailable |
| HotelDetail.IsoOverlap | reservation-service/reservite-frontend/src/pages/HotelDetail.jsx:127-142 | on picker dates the timestamp test is the day-number test |
| HotelDetail.TimestampOrder | reservation-service/reservite-frontend/src/pages/HotelDetail.jsx:127-128 | timestamps of picker dates are ordered as the dates |
| HotelDetail.BackToBack | reservation-service/reservite-frontend/src/pages/HotelDetail.jsx:142 | a stay starting the day another ends, or ending the day another starts, does not conflict |
| HotelDetail.UnlabelledReservationBlocks | reservation-service/reservite-frontend/src/pages/HotelDetail.jsx:134-135 | a reservation with neither `roomId` nor `room_id` matches every room lacking `roomId` |
| HotelDetail.TextIdMatches | reservation-service/reservite-frontend/src/pages/HotelDetail.jsx:135 | a room id sent as decimal text loosely equals the numeric id it spells |
| HotelDetail.DetailNights | reservation-service/reservite-frontend/src/pages/HotelDetail.jsx:165-171 | 0 when a date text is empty or does not parse; otherwise 0 exactly when checkout is not after check-in, and else the least whole number of days covering the elapsed time |
| HotelDetail.DetailNightsDays | reservation-service/reservite-frontend/src/pages/HotelDetail.jsx:165-171 | for picker dates, the day difference when positive, else 0 |
| HotelDetail.DetailNightsMidnight | reservation-service/reservite-frontend/src/pages/HotelDetail.jsx:165-171 | for dates entered at midnight of two days, the page's night count is the booking form's count for those days |
| HotelDetail.DetailTotalPrice | reservation-service/reservite-frontend/src/pages/HotelDetail.jsx:156-163 | 0 without a selected room, else the page's nights times the room price |
| HotelDetail.HandleBooking | reservation-service/reservite-frontend/src/pages/HotelDetail.jsx:173-184 | the dialog opens iff a room is selected, both dates are set and check-in is before checkout in string order; a missing room or date is reported first |
| HotelDetail.HandleBookingDates | reservation-service/reservite-frontend/src/pages/HotelDetail.jsx:178 | on picker dates the dialog opens iff check-in is before checkout on the calendar |
| HotelDetail.FindRoomNumber | reservation-service/reservite-frontend/src/pages/HotelDetail.jsx:207 | the first index with that room number, or −1 iff there is none |
| HotelDetail.ResolveRoomId | reservation-service/reservite-frontend/src/pages/HotelDetail.jsx:201-212 | `roomId \|\| id` when it is neither text nor above 100, or when no listed room has the selected number; otherwise the position, counted from 1, of the first listed room with that number |
| HotelDetail.ResolveSelectedRoom | reservation-service/reservite-frontend/src/pages/HotelDetail.jsx:203-211 | with distinct room numbers, a number-like id of the room at position k resolves to k + 1 |
| HotelDetail.HandleReservationSubmit | reservation-service/reservite-frontend/src/pages/HotelDetail.jsx:214-243 | stops iff the user has no id; otherwise the payload carries that user, the page's hotel, the resolved room, the dates, the room's type and price, each of the five dialog fields, the page's night count and a total equal to nights times the price |
| HotelDetail.SubmitAmounts | reservation-service/reservite-frontend/src/pages/HotelDetail.jsx:221-237 | for dates entered at midnight, the nights and total handed to payment are the booking form's night count and total for the same days |
| HotelCard.JsRem | reservation-service/reservite-frontend/src/components/HotelCard.jsx:32 | JavaScript's `%`: Euclidean for non-negative ids, non-positive with the magnitude of `(-a) % b` for negative ones |
| HotelCard.HotelImage | reservation-service/reservite-frontend/src/components/HotelCard.jsx:12-33 | nothing after an image error; the hotel's own URL when set; otherwise fallback `id % 4` for a non-negative id; a negative id reads `undefined` unless it is a multiple of 4 (`-0` picks the first) |
| HotelCard.CardImage | reservation-service/reservite-frontend/src/components/HotelCard.jsx:12-35 | any picture shown is the hotel's own or one of the four card fallbacks |
| HotelCard.BannerImage | reservation-service/reservite-frontend/src/pages/HotelDetail.jsx:252-263 | nothing without a hotel; any picture shown is the hotel's own or a banner fallback |
| HotelCard.FallbackRotates | reservation-service/reservite-frontend/src/components/HotelCard.jsx:24-32 | hotels without a picture whose ids differ by a multiple of 4 show the same fallback |
| HotelCard.CardDescription | reservation-service/reservite-frontend/src/components/HotelCard.jsx:109-115 | the default text when missing or empty; unchanged up to 100 characters; else the first 100 + "..." |
| HotelCard.DescriptionShown | reservation-service/reservite-frontend/src/components/HotelCard.jsx:109-115 | a shown description starts with the first 100 characters given, and truncating it again changes nothing |
| HotelList.RatingOf | reservation-service/reservite-frontend/src/pages/Hotels.jsx:40 | `rating \|\| 0`: the rating, or 0 when missing |
| HotelList.SortByRating | reservation-service/reservite-frontend/src/pages/Hotels.jsx:50-53 | a permutation of its input, with ratings non-increasing |
| HotelList.SortStable | reservation-service/reservite-frontend/src/pages/Hotels.jsx:50-53 | the hotels of each rating keep their relative order |
| HotelList.HandleFilterChange | reservation-service/reservite-frontend/src/pages/Hotels.jsx:28-63 | the same hotels as the filters keep; sorted by rating when asked; otherwise the filtered list in loaded order; with no active filter and no sort, the input itself |
| HotelList.FilterMeaning | reservation-service/reservite-frontend/src/pages/Hotels.jsx:32-41 | a hotel is shown iff it was loaded and passes each active filter: the city filter only for non-blank text, with an untrimmed case-insensitive substring match and a hotel without a city dropped; the rating filter only when minRating > 0 |
| HotelList.OnePass | reservation-service/reservite-frontend/src/pages/Hotels.jsx:32-41 | with both filters active and no sort, the two filters in sequence are one filter by their conjunction |
| HotelList.SortKeepsTies | reservation-service/reservite-frontend/src/pages/Hotels.jsx:50-53 | after the sort, each rating's hotels appear in their filtered order |
| ReservationEntity.NewReservation | reservation-service/src/main/java/com/reservite/reservationservice/entity/Reservation.java:63 | a fresh entity has status PENDING and no other field |
| ReservationEntity.OnCreate | reservation-service/src/main/java/com/reservite/reservationservice/entity/Reservation.java:73-80 | both timestamps become now; a null status becomes PENDING and a set one is kept; nothing else changes |
| ReservationEntity.OnUpdate | reservation-service/src/main/java/com/reservite/reservationservice/entity/Reservation.java:82-85 | only `updatedAt` changes |
| ReservationEntity.NumberOfNights | reservation-service/src/main/java/com/reservite/reservationservice/entity/Reservation.java:92-97 | 0 when a date is null, else checkout − check-in in days, possibly negative |
| ReservationEntity.CalculateTotalPrice | reservation-service/src/main/java/com/reservite/reservationservice/entity/Reservation.java:102-104 | the total becomes nights × price; no other field changes |
| ReservationEntity.MakeRequest | reservation-service/src/main/java/com/reservite/reservationservice/dto/ReservationRequest.java:24-40 | each message is reported exactly when its own check fails and every earlier one passed (user id, hotel id, check-in, checkout, date order); success iff all pass, and a built request has positive ids, checkout after check-in and the given room id |
| ReservationEntity.RequestRoundTrip | reservation-service/src/main/java/com/reservite/reservationservice/dto/ReservationRequest.java:24-40 | every request the constructor accepts is rebuilt from its own components |
| ReservationEntity.SetCheckInDate | reservation-service/src/main/java/com/reservite/reservationservice/dto/ReservationDTO.java:42-44 | the alias writes `checkIn` and nothing else |
| ReservationEntity.SetCheckOutDate | reservation-service/src/main/java/com/reservite/reservationservice/dto/ReservationDTO.java:50-52 | the alias writes `checkOut` and nothing else |
| ReservationEntity.UserName | reservation-service/src/main/java/com/reservite/reservationservice/dto/ReservationDTO.java:54-58 | null iff either name is null, else first + " " + last |
| ReservationEntity.DateAliases | reservation-service/src/main/java/com/reservite/reservationservice/dto/ReservationDTO.java:38-62 | setting through an alias reads back through the property and the alias alike, leaves the other date alone, and the e-mail alias always reads the `email` property |
| ReservationService.PricePerNight | reservation-service/src/main/java/com/reservite/reservationservice/service/ReservationService.java:74-110 | 100.0 without a room id or without a price; the room's price otherwise; a 404 or other Feign failure throws its own error |
| ReservationService.Persist | reservation-service/src/main/java/com/reservite/reservationservice/service/ReservationService.java:133 | refused iff the user, hotel or room id is null (non-nullable columns); otherwise `onCreate` runs and the record is stored under the next id, touching no other record |
| ReservationService.Create | reservation-service/src/main/java/com/reservite/reservationservice/service/ReservationService.java:34-150 | user, then hotel, then dates, then room price are checked in this order, and the first failure is the result with nothing saved (a room-price failure is returned as it is); it succeeds exactly when all four pass and the user, hotel and room ids are non-null, whatever the room's flag update answered, else the save is rejected; on success exactly one new PENDING record carries the DTO's ids, dates and contact fields and the total `DAYS.between × price`, and the room's flag is cleared only when that remote update succeeded |
| ReservationService.GetById | reservation-service/src/main/java/com/reservite/reservationservice/service/ReservationService.java:156-159 | the stored record, or not-found iff the id is absent |
| ReservationService.Cancel | reservation-service/src/main/java/com/reservite/reservationservice/service/ReservationService.java:169-188 | an unknown id throws; a known one is removed from the store, no status is written, the other records are untouched, and the room is marked available again only when that remote update succeeded |
| ReservationService.ConfirmPayment | reservation-service/src/main/java/com/reservite/reservationservice/service/ReservationService.java:200-226 | an unknown id throws; a CONFIRMED record is left as is; any other record, whatever its status, becomes CONFIRMED and nothing else changes |
| ReservationService.ConfirmIdempotent | reservation-service/src/main/java/com/reservite/reservationservice/service/ReservationService.java:210-214 | confirming twice equals confirming once |
| ReservationService.NoOverlapCheck | reservation-service/src/main/java/com/reservite/reservationservice/service/ReservationService.java:85-86 | whether a creation succeeds never depends on the reservations already stored |
| ReservationService.DoubleBooking | reservation-service/src/main/java/com/reservite/reservationservice/service/ReservationService.java:117-133 | the same room booked twice for the same nights yields two records |
| ReservationController.CreateEndpoint | reservation-service/src/main/java/com/reservite/reservationservice/controller/ReservationController.java:25-66 | a null room id gives 400 first, then a null date gives 400, neither calling the service; with both present, 201 exactly when the service's creation succeeds, a service date error gives 400 and any other failure 500 whose message is the fixed prefix followed by the exception's message; 201 carries `id == reservationId ==` the saved id and its status |
| ReservationController.UnknownUserAnswer | reservation-service/src/main/java/com/reservite/reservationservice/controller/ReservationController.java:59-64 | an unknown user is answered 500 with "Erreur lors de la création de la réservation: Utilisateur non trouvé : " and the user id, with nothing saved |
| ReservationController.GetByIdEndpoint | reservation-service/src/main/java/com/reservite/reservationservice/controller/ReservationController.java:78-91 | 200 with the record, or 404 iff it is absent |
| ReservationController.CancelEndpoint | reservation-service/src/main/java/com/reservite/reservationservice/controller/ReservationController.java:103-119 | 200 once the record is gone; an unknown id gives 500, not 404 |
| ReservationController.ConfirmEndpoint | reservation-service/src/main/java/com/reservite/reservationservice/controller/ReservationController.java:130-153 | 200 on success; 404 iff the id is unknown |
| PaymentEntity.TransactionId | payment-service/src/main/java/com/reservite/paymentservice/entity/Payment.java:85 | "TXN-" followed by decimal digits |
| PaymentEntity.OnCreate | payment-service/src/main/java/com/reservite/paymentservice/entity/Payment.java:77-87 | timestamps set; a null status becomes PENDING and a set one is kept; a null transaction id becomes a TXN- id and a set one is kept; amount, reservation id and method unchanged |
| PaymentEntity.OnUpdate | payment-service/src/main/java/com/reservite/paymentservice/entity/Payment.java:89-92 | only `updatedAt` changes |
| PaymentRequest.ToStringShows | payment-service/src/main/java/com/reservite/paymentservice/dto/CreatePaymentRequest.java:37-45 | the text contains the reservation id, the amount, the method and the holder |
| PaymentRequest.ToStringRedacts | payment-service/src/main/java/com/reservite/paymentservice/dto/CreatePaymentRequest.java:37-45 | the text is the same whatever the card number, CVV and expiry |
| PaymentService.Mask | payment-service/src/main/java/com/reservite/paymentservice/service/PaymentService.java:44-48 | a card of ≥ 4 characters is stored as "**** **** **** " + its last 4, and otherwise not at all |
| PaymentService.MaskForgets | payment-service/src/main/java/com/reservite/paymentservice/service/PaymentService.java:44-48 | two cards with the same last 4 characters are stored alike, so the full number is never persisted |
| PaymentService.Simulate | payment-service/src/main/java/com/reservite/paymentservice/service/PaymentService.java:88-107 | false for a card under 13 characters or a CVV not of length 3; otherwise the gateway's draw |
| PaymentService.SimulateChoice | payment-service/src/main/java/com/reservite/paymentservice/service/PaymentService.java:88-107 | for a well-formed card both outcomes are possible |
| PaymentService.Draft | payment-service/src/main/java/com/reservite/paymentservice/service/PaymentService.java:38-63 | method defaults to CREDIT_CARD; the card is masked; the status is COMPLETED or FAILED as the draw says |
| PaymentService.Insert | payment-service/src/main/java/com/reservite/paymentservice/service/PaymentService.java:65 | the save takes the next id and runs `onCreate`; it is refused, as a duplicate, exactly when a stored row already carries the transaction id the payment ends up with |
| PaymentService.ProcessPayment | payment-service/src/main/java/com/reservite/paymentservice/service/PaymentService.java:19-66 | a null or non-positive amount, then a null reservation id, then an existing payment for the reservation are refused, leaving the store unchanged; once those pass it is saved exactly when no row carries its generated transaction id; the saved payment is COMPLETED or FAILED and carries the request's reservation, amount, holder, expiry, method or CREDIT_CARD, and masked card |
| PaymentService.FirstPaymentSaved | payment-service/src/main/java/com/reservite/paymentservice/service/PaymentService.java:19-66 | a valid first payment of an empty table is saved under id 0 with the transaction id of its creation, whatever the draw |
| PaymentService.ProcessPaymentValid | payment-service/src/main/java/com/reservite/paymentservice/service/PaymentService.java:32-35 | processing keeps at most one payment per reservation and the other table guarantees |
| PaymentService.ProcessedPaymentFound | payment-service/src/main/java/com/reservite/paymentservice/service/PaymentService.java:32-35 | after processing, the new payment is the only row of its reservation, so the lookup by reservation finds it |
| PaymentService.FailedBlocksRetry | payment-service/src/main/java/com/reservite/paymentservice/service/PaymentService.java:32-35 | once a reservation has any payment, even a FAILED one, every later payment for it is refused |
| PaymentService.GetPaymentById | payment-service/src/main/java/com/reservite/paymentservice/service/PaymentService.java:71-74 | the stored payment, or not-found iff absent |
| PaymentService.GetPaymentByReservationId | payment-service/src/main/java/com/reservite/paymentservice/service/PaymentService.java:79-82 | a payment of that reservation from the table, or not-found iff there is none; in a valid table it is that reservation's one row |
| PaymentService.Refund | payment-service/src/main/java/com/reservite/paymentservice/service/PaymentService.java:112-123 | unknown ids are not found; a non-COMPLETED payment is refused and unchanged; a COMPLETED one becomes REFUNDED with nothing else changed |
| PaymentService.RefundValid | payment-service/src/main/java/com/reservite/paymentservice/service/PaymentService.java:112-123 | refunding keeps the table guarantees, and a second refund is refused |
| PaymentPage.GroupStrip | reservation-service/reservite-frontend/src/pages/PaymentPage.jsx:50 | the `(\d{4})` → `'$1 '` replacement only inserts whitespace: removing it gives back the input |
| PaymentPage.GroupLength | reservation-service/reservite-frontend/src/pages/PaymentPage.jsx:50 | grouping n digits adds one space per full group of four, and a full last group ends in a space |
| PaymentPage.CardStrip | reservation-service/reservite-frontend/src/pages/PaymentPage.jsx:50 | removing the whitespace from the formatted card gives the whitespace-stripped input |
| PaymentPage.CardIdempotent | reservation-service/reservite-frontend/src/pages/PaymentPage.jsx:50 | formatting a formatted card number changes nothing |
| PaymentPage.CardLengthBound | reservation-service/reservite-frontend/src/pages/PaymentPage.jsx:50-51 | for digits, the formatted card has at most 19 characters iff it has at most 16 digits |
| PaymentPage.FormatExpiry | reservation-service/reservite-frontend/src/pages/PaymentPage.jsx:55-59 | at most 5 characters; its digits are the first four of the input's digits; with ≥ 2 digits, `dd/dd` |
| PaymentPage.FormatCvv | reservation-service/reservite-frontend/src/pages/PaymentPage.jsx:64-66 | the first three of the input's digits, or all of them when there are fewer |
| PaymentPage.CvvIdempotent | reservation-service/reservite-frontend/src/pages/PaymentPage.jsx:64-66 | formatting the CVV field twice equals formatting it once |
| PaymentPage.FormatField | reservation-service/reservite-frontend/src/pages/PaymentPage.jsx:44-66 | None (no update) exactly when a formatted card exceeds 19 characters; the expiry's `> 5` guard never fires |
| PaymentPage.InputChange | reservation-service/reservite-frontend/src/pages/PaymentPage.jsx:68 | only the named field changes |
| PaymentPage.CardFieldAccepted | reservation-service/reservite-frontend/src/pages/PaymentPage.jsx:49-52 | a digits-only card is stored iff it has at most 16 digits |
| PaymentPage.YearShort | reservation-service/reservite-frontend/src/pages/PaymentPage.jsx:353 | a four-character year is shortened to its last two characters |
| PaymentPage.SelectMonth | reservation-service/reservite-frontend/src/pages/PaymentPage.jsx:331-335 | only the expiry field changes |
| PaymentPage.SelectYear | reservation-service/reservite-frontend/src/pages/PaymentPage.jsx:351-355 | only the expiry field changes |
| PaymentPage.SelectMonthKeepsYear | reservation-service/reservite-frontend/src/pages/PaymentPage.jsx:331-335 | the chosen month reads back and the year part is kept |
| PaymentPage.SelectYearKeepsMonth | reservation-service/reservite-frontend/src/pages/PaymentPage.jsx:351-355 | the month part is kept, and the last two characters of a four-character year are stored |
| PaymentPage.ReservationRequestOf | reservation-service/reservite-frontend/src/pages/PaymentPage.jsx:97-109 | the eleven booking fields copied from the page's data |
| PaymentPage.HandlePayment | reservation-service/reservite-frontend/src/pages/PaymentPage.jsx:38-177 | no data returns to the hotels; the reservation is created before any check; the payment is sent iff the reply's `id \|\| reservationId` is a nonzero number and the amount is positive, and it carries those two numbers; the success page or the approval redirect (to a truthy URL) comes only after the payment was sent and accepted; a failed creation shows the server's message and a missing id its own error |
| PaymentPage.StringIdPaid | reservation-service/reservite-frontend/src/pages/PaymentPage.jsx:117-150 | a reply with a decimal-text id is paid under that number |
| ReservationDialog.FirstOf | reservation-service/reservite-frontend/src/components/ReservationDialog.jsx:36-39 | `a \|\| b \|\| ''` on two user fields |
| ReservationDialog.Prefill | reservation-service/reservite-frontend/src/components/ReservationDialog.jsx:32-42 | nothing without a user; otherwise first name, last name, email and phone from their fallback chains, with specialRequests and other keys kept |
| ReservationDialog.HandleChange | reservation-service/reservite-frontend/src/components/ReservationDialog.jsx:44-49 | only the named field changes |
| ReservationDialog.PrefillIdempotent | reservation-service/reservite-frontend/src/components/ReservationDialog.jsx:32-42 | running the effect twice equals running it once |
| ReservationDialog.ReopenDiscardsEdit | reservation-service/reservite-frontend/src/components/ReservationDialog.jsx:42 | reopening for a logged-in user discards an edit to a prefilled field |
| ReservationDialog.Submitted | reservation-service/reservite-frontend/src/components/ReservationDialog.jsx:57-60 | every key of either object; on a collision the booking data wins |
| ReservationDialog.BookingDataWins | reservation-service/reservite-frontend/src/components/ReservationDialog.jsx:57-60 | a contact field in the booking data overrides the prefilled one |
| ReservationDialog.SubmitError | reservation-service/reservite-frontend/src/components/ReservationDialog.jsx:63 | the error's message, or the default text |
| ReservationConfirmation.InitialReservation | reservation-service/reservite-frontend/src/pages/ReservationConfirmation.jsx:30-31 | `state.reservation.reservation` when truthy, else `state.reservation` when truthy, else null |
| ReservationConfirmation.ReservationShown | reservation-service/reservite-frontend/src/pages/ReservationConfirmation.jsx:30-31 | a reservation is shown iff the state holds a truthy one at either level |
| ReservationConfirmation.Pick | reservation-service/reservite-frontend/src/pages/ReservationConfirmation.jsx:82-85 | the reservation's value if truthy, else the user's if truthy, else the fallback |
| ReservationConfirmation.Display | reservation-service/reservite-frontend/src/pages/ReservationConfirmation.jsx:81-86 | each field is the reservation's value when truthy, else the session user's, else 'Client', '', '' or 'Non renseigné'; the phone falls back to the user's phoneNumber |
| ReservationConfirmation.DisplayNeverBlank | reservation-service/reservite-frontend/src/pages/ReservationConfirmation.jsx:82-85 | first name and phone are never blank |
| ReservationConfirmation.SafeDate | reservation-service/reservite-frontend/src/pages/ReservationConfirmation.jsx:38-46 | now for empty text or an invalid date, else the parsed time |
| RegisterPage.Payload | reservation-service/reservite-frontend/src/pages/Register.jsx:53 | the form without `confirmPassword`, every other field unchanged |
| RegisterPage.Submit | reservation-service/reservite-frontend/src/pages/Register.jsx:35-56 | a mismatch is reported first, then a password under 6 characters; `register` is called iff the passwords match and have ≥ 6 characters |
| RegisterPage.PayloadFields | reservation-service/reservite-frontend/src/pages/Register.jsx:53 | username, email and password are sent as typed, the confirmation never |
| RegisterPage.ShortPasswordRefused | reservation-service/reservite-frontend/src/pages/Register.jsx:45-48 | a matching password under 6 characters is refused whatever the other fields |
| RegisterPage.Answer | reservation-service/reservite-frontend/src/pages/Register.jsx:56-66 | home iff the reply came back with a truthy `success`; a reply with a falsy `success` shows its `error`; a thrown error or a nullish reply shows the failure message |
| RegisterPage.RegisterAnswer | reservation-service/reservite-frontend/src/pages/Register.jsx:56-66 | after the context's `register`, the page goes home exactly when registration and the login both succeeded, else shows the context's error, which for a refused registration is the server message or "Échec de l'inscription" |
| MyReservations.ReservationList | reservation-service/reservite-frontend/src/pages/MyReservations.jsx:47 | the answer if it is an array, else its `content` when that is an array, else [] when `content` is falsy; None (a thrown error) for a null answer or a truthy `content` that is not an array |
| MyReservations.Dedupe | reservation-service/reservite-frontend/src/pages/MyReservations.jsx:51 | distinct values, exactly those of the input, never more of them, starting with the first value |
| MyReservations.HotelIds | reservation-service/reservite-frontend/src/pages/MyReservations.jsx:51 | one hotel id per entry, None on a null entry |
| MyReservations.HotelsToFetch | reservation-service/reservite-frontend/src/pages/MyReservations.jsx:51 | the ids fetched are distinct and, as a set, the list's hotel ids |
| MyReservations.HotelsMap | reservation-service/reservite-frontend/src/pages/MyReservations.jsx:52-59 | a key (the id's text) exactly for the ids whose fetch returned truthy data, holding that data |
| MyReservations.LoadData | reservation-service/reservite-frontend/src/pages/MyReservations.jsx:39-67 | nothing iff there is no user; loaded iff the call succeeds and the list and its hotel ids can be read, and then with the list and its distinct hotel ids; a failure shows the error and keeps the list value set before it, if any |
| MyReservations.ChipColor | reservation-service/reservite-frontend/src/pages/MyReservations.jsx:220 | 'error' iff the status is 'CANCELLED' |
| MyReservations.ChipLabel | reservation-service/reservite-frontend/src/pages/MyReservations.jsx:219 | the status, or 'Confirmé' when it is falsy |
| MyReservations.MissingStatusLooksConfirmed | reservation-service/reservite-frontend/src/pages/MyReservations.jsx:219-220 | a reservation without a status is labelled 'Confirmé' and coloured success |
| HotelCatalogue.SaveHotel | hotel-service/src/main/java/com/reservite/hotelservice/controller/HotelController.java:44 | a hotel without an id is stored under the next id; one with an id is stored there |
| HotelCatalogue.SaveRoom | hotel-service/src/main/java/com/reservite/hotelservice/controller/HotelController.java:133 | as `SaveHotel`, for rooms |
| HotelCatalogue.GetHotel | hotel-service/src/main/java/com/reservite/hotelservice/controller/HotelController.java:34-39 | 404 iff the id is absent, else the stored hotel |
| HotelCatalogue.CreateHotel | hotel-service/src/main/java/com/reservite/hotelservice/controller/HotelController.java:42-46 | the body is saved and returned with 200 |
| HotelCatalogue.CopyFive | hotel-service/src/main/java/com/reservite/hotelservice/controller/HotelController.java:54-58 | name, address, city, country and rating from the details; the other fields from the existing hotel |
| HotelCatalogue.UpdateHotel | hotel-service/src/main/java/com/reservite/hotelservice/controller/HotelController.java:49-63 | 404 and no change for an unknown id; else only those five fields of that hotel change |
| HotelCatalogue.DeleteHotel | hotel-service/src/main/java/com/reservite/hotelservice/controller/HotelController.java:66-73 | 204 and the key removed iff it existed, else 404 and no change |
| HotelCatalogue.RoomsOf | hotel-service/src/main/java/com/reservite/hotelservice/controller/HotelController.java:80 | exactly the stored rooms that refer to the hotel |
| HotelCatalogue.GetHotelRooms | hotel-service/src/main/java/com/reservite/hotelservice/controller/HotelController.java:76-83 | the hotel's rooms, or 404 iff the hotel is absent |
| HotelCatalogue.GetAvailableRooms | hotel-service/src/main/java/com/reservite/hotelservice/controller/HotelController.java:86-94 | exactly the hotel's rooms with `available = true`, or 404 |
| HotelCatalogue.UpdateRoomAvailability | hotel-service/src/main/java/com/reservite/hotelservice/controller/HotelController.java:97-111 | the room is found by its id alone; only its flag changes; 404 iff it is absent |
| HotelCatalogue.GetRoom | hotel-service/src/main/java/com/reservite/hotelservice/controller/HotelController.java:114-122 | the room by its id alone, or 404 |
| HotelCatalogue.RoomEndpointsIgnoreHotel | hotel-service/src/main/java/com/reservite/hotelservice/controller/HotelController.java:97-122 | the room endpoints answer the same whatever hotel the path names |
| HotelCatalogue.CreateRoom | hotel-service/src/main/java/com/reservite/hotelservice/controller/HotelController.java:125-137 | 404 and no change without the hotel; else the room is attached to it and saved |
| HotelCatalogue.DeleteRoom | hotel-service/src/main/java/com/reservite/hotelservice/controller/HotelController.java:140-150 | 204 and the key removed iff it existed, else 404 |
| HotelCatalogue.CreatedRoomListed | hotel-service/src/main/java/com/reservite/hotelservice/controller/HotelController.java:125-137 | a room created under a hotel is among that hotel's rooms |
| HotelCatalogue.DtoRoundTrip | hotel-service/src/main/java/com/reservite/hotelservice/service/HotelServiceImpl.java:74-92 | DTO → entity → DTO loses only the id |
| HotelCatalogue.EntityRoundTrip | hotel-service/src/main/java/com/reservite/hotelservice/service/HotelServiceImpl.java:74-92 | entity → DTO → entity loses the id and the email, phone, location and description, nothing else |
| HotelCatalogue.DtoForgets | hotel-service/src/main/java/com/reservite/hotelservice/service/HotelServiceImpl.java:74-83 | two entities have the same DTO iff they agree on the six public fields |
| HotelCatalogue.GetAllHotels | hotel-service/src/main/java/com/reservite/hotelservice/service/HotelServiceImpl.java:20-25 | one DTO per row, in the same order |
| HotelCatalogue.ServiceGetHotel | hotel-service/src/main/java/com/reservite/hotelservice/service/HotelServiceImpl.java:28-32 | null iff the id is absent, else its DTO |
| HotelCatalogue.ServiceCreateHotel | hotel-service/src/main/java/com/reservite/hotelservice/service/HotelServiceImpl.java:35-39 | the hotel is always inserted under a fresh id |
| HotelCatalogue.CreateIgnoresId | hotel-service/src/main/java/com/reservite/hotelservice/service/HotelServiceImpl.java:85-92 | DTOs differing only in their id create the same hotel |
| HotelCatalogue.ServiceCreateValid | hotel-service/src/main/java/com/reservite/hotelservice/service/HotelServiceImpl.java:35-39 | creating keeps the store's keys consistent and never overwrites a hotel |
| HotelCatalogue.ServiceUpdateHotel | hotel-service/src/main/java/com/reservite/hotelservice/service/HotelServiceImpl.java:42-54 | null and no change for an unknown id; else only the five fields change |
| HotelCatalogue.UpdatesAgree | hotel-service/src/main/java/com/reservite/hotelservice/service/HotelServiceImpl.java:42-54 | the service's update and the controller's change the store alike, and repeating an update changes nothing |
| HotelCatalogue.ServiceDeleteHotel | hotel-service/src/main/java/com/reservite/hotelservice/service/HotelServiceImpl.java:57-63 | true iff the key existed; the key is absent afterwards |
| HotelCatalogue.ServiceDeleteRoom | hotel-service/src/main/java/com/reservite/hotelservice/service/HotelServiceImpl.java:66-72 | true iff the key existed; the key is absent afterwards |
| HotelCatalogue.DeleteThenGet | hotel-service/src/main/java/com/reservite/hotelservice/service/HotelServiceImpl.java:57-63 | after a delete the hotel is not found, and a second delete reports false |
| UserService.FindByEmail | user-service/src/main/java/com/reservite/userservice/service/UserService.java:66 | the first row with the email, or None iff there is none |
| UserService.Token | user-service/src/main/java/com/reservite/userservice/service/UserService.java:45 | the token begins with "token-" + id + "-" and continues |
| UserService.UserMapHidesSecrets | user-service/src/main/java/com/reservite/userservice/service/UserService.java:86-92 | the user map never depends on the password, role or active flag, has no password or role key, and holds phoneNumber iff it is the login reply |
| UserService.Register | user-service/src/main/java/com/reservite/userservice/service/UserService.java:23-61 | an email in use is refused iff present, nothing saved; else one row is appended with the encoded password, role USER and active, and the reply has the message, a `token-<id>-` token and the user map without phone |
| UserService.RegisterValid | user-service/src/main/java/com/reservite/userservice/service/UserService.java:27-41 | registration preserves email uniqueness and the id of every row |
| UserService.Login | user-service/src/main/java/com/reservite/userservice/service/UserService.java:63-97 | an unknown email is refused; a disabled account is reported only after the password matched; success iff the email is found, the password matches and the account is active, with the user map including phone |
| UserService.LoginHidesCause | user-service/src/main/java/com/reservite/userservice/service/UserService.java:66-71 | an unknown email and a wrong password give the same error and message |
| UserService.RegisterThenLogin | user-service/src/main/java/com/reservite/userservice/service/UserService.java:23-97 | a newly registered user can log in with the same credentials, under the id registration returned |
| UserService.GetUserById | user-service/src/main/java/com/reservite/userservice/service/UserService.java:99-102 | the row of that id, or "Utilisateur non trouvé" iff there is none |
| UserService.GetUserByIdFinds | user-service/src/main/java/com/reservite/userservice/service/UserService.java:99-102 | in a valid table every row is found by its own id |
| UserService.GetUserByEmail | user-service/src/main/java/com/reservite/userservice/service/UserService.java:104-107 | a row with that email iff one exists, else not found |
| AuthStorage.NormalizeUser | reservation-service/reservite-frontend/src/services/authService.js:48-55 | the six user fields, each from the top level of the reply or else from its `user` |
| AuthStorage.OnError | reservation-service/reservite-frontend/src/services/authService.js:27-36 | a 401 removes both keys; any other error leaves the storage as it was |
| AuthStorage.Receive | reservation-service/reservite-frontend/src/services/authService.js:39-91 | the token is stored iff the reply has one (else kept); the normalised user is stored iff the reply has `user` or `email` (else kept); other keys untouched; failures go through the interceptor |
| AuthStorage.GetCurrentUser | reservation-service/reservite-frontend/src/services/authService.js:93-101 | null when the entry is absent, empty or unparsable, else the parsed value |
| AuthStorage.ReceiveRestoresUser | reservation-service/reservite-frontend/src/services/authService.js:47-56 | the user stored from a reply reads back as the normalised user, field for field |
| AuthStorage.Logout | reservation-service/reservite-frontend/src/services/authService.js:113-116 | both keys go and every other key stays |
| AuthStorage.LogoutSignsOut | reservation-service/reservite-frontend/src/services/authService.js:107-116 | after logout `isAuthenticated` is false and there is no current user |
| AuthStorage.AuthHeader | reservation-service/reservite-frontend/src/services/authService.js:13-24 | a Bearer header iff a non-empty token is stored |
| AuthStorage.SaveToken | reservation-service/reservite-frontend/src/utils/jwt.js:3-5 | `getToken` then returns the saved token; other keys unchanged |
| AuthStorage.RemoveToken | reservation-service/reservite-frontend/src/utils/jwt.js:11-13 | `getToken` then returns null; other keys unchanged |
| AuthStorage.TokenUtilities | reservation-service/reservite-frontend/src/utils/jwt.js:3-26 | saving signs in iff the token is non-empty; removing signs out; the service's check implies the utility's |
| AuthStorage.UrlToStd | reservation-service/reservite-frontend/src/utils/jwt.js:32 | same length; '-' becomes '+', '_' becomes '/', every other character kept |
| AuthStorage.AlphabetsCorrespond | reservation-service/reservite-frontend/src/utils/jwt.js:32 | the mapping takes the base64url alphabet (section 5 of RFC 4648) onto the base64 alphabet (section 4) and is undone by the reverse mapping |
| AuthStorage.DecodeToken | reservation-service/reservite-frontend/src/utils/jwt.js:28-43 | null without a '.'-separated second part or when decoding fails |
| AuthStorage.DecodeTokenPayload | reservation-service/reservite-frontend/src/utils/jwt.js:31-39 | of a three-part token, the middle part is decoded |
| AuthContext.ErrorText | reservation-service/reservite-frontend/src/context/AuthContext.jsx:42 | the server's message when truthy, else the default text |
| AuthContext.Mount | reservation-service/reservite-frontend/src/context/AuthContext.jsx:11-18 | the stored user when truthy, else null; loading ends |
| AuthContext.Login | reservation-service/reservite-frontend/src/context/AuthContext.jsx:20-45 | a failed call keeps the user and answers with the message or 'Échec de la connexion'; otherwise the user becomes the stored one, and a truthy user's token is replaced by the client-built one |
| AuthContext.LoginSignsIn | reservation-service/reservite-frontend/src/context/AuthContext.jsx:24-38 | a reply naming the user sets the normalised user, stores the client token over the server's, and authenticates |
| AuthContext.LoginKeepsStoredUser | reservation-service/reservite-frontend/src/context/AuthContext.jsx:26-29 | a reply naming no user signs in whoever storage still holds |
| AuthContext.FailedLoginKeepsUser | reservation-service/reservite-frontend/src/context/AuthContext.jsx:39-45 | a failed login keeps the user; a 401 still clears storage, any other failure changes nothing |
| AuthContext.Register | reservation-service/reservite-frontend/src/context/AuthContext.jsx:47-60 | a failed registration answers with the message or "Échec de l'inscription"; a successful one is the following login |
| AuthContext.OutcomeValue | reservation-service/reservite-frontend/src/context/AuthContext.jsx:38-44 | the resolved object is never nullish, its `success` is truthy exactly for a success, and it holds the user or the error |
| AuthContext.RegisterNeedsLogin | reservation-service/reservite-frontend/src/context/AuthContext.jsx:47-60 | registration succeeds only if both the registration and the login succeed |
| AuthContext.Logout | reservation-service/reservite-frontend/src/context/AuthContext.jsx:62-65 | the user becomes null, both keys go, and nobody is authenticated |
| AuthContext.LogoutThenMount | reservation-service/reservite-frontend/src/context/AuthContext.jsx:62-65 | a fresh mount after logout finds no user |

## Left out

- Logging, rendering, routing, loading spinners and the 1-second and 2-second delays have no effect on the modelled state.
- Network clients become reply parameters: Feign, axios instances and the PayPal REST client. The services' controllers that only map exceptions to status codes are not modelled (`PaymentController`, `UserController`).
- `@Transactional` and the gap between the client's availability test and the backend create are concurrency concerns and are not modelled.
- Floating point: prices, amounts and ratings are exact reals, and no IEEE rounding or `NaN` price is modelled.
- Java's textual rendering of a `Double` is a parameter (`amountText`).
- `new Date(text)` is a parameter: its time zone handling and its parsing of non-ISO text are not modelled. Picker dates are read as UTC midnight.
- JavaScript numbers in the client are integers. `NaN` appears only as the `None` of `Number()`.
- `parseInt` reads decimal digits only; hexadecimal and other radix prefixes are not modelled.
- An object's conversion to a primitive in `==` is not modelled; an object is never loosely equal to a primitive.
- Arrays and objects compare by content, where JavaScript compares their identity (this affects `new Set` on objects).
- An object spread copies only the fields of an object; the spread of a string or an array is not modelled.
- `toLowerCase` maps ASCII letters only.
- A character is a Unicode scalar value, where JavaScript and Java count UTF-16 code units, so a character outside the Basic Multilingual Plane counts once instead of twice and compares by its scalar value. Text within that plane is not affected.
- RegisterPage.Submit: the six-character minimum counts scalar values, so a password of three characters outside the Basic Multilingual Plane is refused here although `length` is 6 in the browser.
- HotelCard.CardDescription: the 100-character cut counts scalar values, so a description with characters outside the Basic Multilingual Plane is cut later than the browser cuts it.
- Text.LexLess: for characters outside the Basic Multilingual Plane compared with characters from U+E000 to U+FFFF, scalar order differs from JavaScript's code-unit order. The picker dates it compares are ASCII.
- The text of a thrown `TypeError` is not modelled; only the fact that one was thrown.
- `getAll`, `getReservationsByUserId` and `getByUser` are plain repository reads and are not modelled.
- `hotelService.getAllHotels` in the controller is the same call as the service's and has no separate member.
- Hotel.java, Room.java and User.java are not part of this model. Their fields are inferred from the setters and DTOs the core uses.
- Deleting a hotel does not model a JPA cascade to its rooms.
- A JPA `save` of a body whose id names no stored row is modelled as an insert under that id.
- The getters and setters of the entities and DTOs are record updates, except where a member above states their frame.
- `UserService.Register`: a `null` password is not modelled, because the encoder that would reject it is outside the model. The request's fields come from the reads of `UserService.java`; the request DTO is not part of this model.
- `UserService.Login`: `matches` is modelled as equality with the encoded password. A salted encoder is not modelled.
- `MyReservations.handleCancel` and the navigation after it are not modelled.
- The month and year option lists of the payment page and the ten-year window they show are not modelled.
- `PaymentPage.HandlePayment`: the amount is the booking's `totalPrice` as a number; a fractional text price is not modelled.
- `AuthStorage.GetCurrentUser`: `JSON.parse` is a parameter. The round trip of the stored user is a hypothesis (`RoundTrips`) stated where it is used.
- `AuthStorage.DecodeToken`: `atob`, the percent decoding and `JSON.parse` together are one parameter.

=== FILE: auth_context.dfy ===
/** `AuthProvider`: the signed-in user held in React state next to the
    session storage. A login or register is one step from the state before it,
    given the user-service replies; `fakeToken` is `btoa(JSON.stringify(…))`,
    None where `btoa` throws. */
module AuthContext {
  import opened Wrappers
  import opened JsValues
  import opened AuthStorage

  datatype Ctx = Ctx(user: JsVal, storage: Storage, loading: bool)

  datatype Outcome = Succeeded(user: JsVal) | Failed(error: JsVal)

  /** The object `login` and `register` resolve to: `{ success: true, user }`
      or `{ success: false, error }`. It is never nullish, its `success` is
      truthy exactly for a success, and it carries the user or the error. */
  function OutcomeValue(o: Outcome): (v: JsVal)
    ensures !Nullish(v)
    ensures Truthy(Field(v, "success")) <==> o.Succeeded?
    ensures o.Succeeded? ==> Field(v, "user") == o.user
    ensures o.Failed? ==> Field(v, "error") == o.error
  {
    match o
    case Succeeded(u) => Obj(map["success" := Bool(true), "user" := u])
    case Failed(e) => Obj(map["success" := Bool(false), "error" := e])
  }

  const LoginFailedText: string := "Échec de la connexion"
  const RegisterFailedText: string := "Échec de l'inscription"

  /** `error.response?.data?.message || fallback`. */
  function ErrorText(response: JsVal, fallback: string): (e: JsVal)
    ensures fallback != "" ==> Truthy(e)
    ensures Truthy(OptProp(OptProp(response, "data"), "message")) ==> e == OptProp(OptProp(response, "data"), "message")
    ensures !Truthy(OptProp(OptProp(response, "data"), "message")) ==> e == Str(fallback)
  {
    Or(OptProp(OptProp(response, "data"), "message"), Str(fallback))
  }

  /** The mount effect: the stored user when it reads as truthy, then loading
      is over. */
  function Mount(st: Storage, json: Json): (c: Ctx)
    ensures !c.loading && c.storage == st
    ensures Truthy(c.user) <==> Truthy(GetCurrentUser(st, json))
    ensures Truthy(c.user) ==> c.user == GetCurrentUser(st, json)
    ensures !Truthy(c.user) ==> c.user == Null
  {
    var saved := GetCurrentUser(st, json);
    Ctx(if Truthy(saved) then saved else Null, st, false)
  }

  /** The claims of the client-built token. */
  function Claims(u: JsVal): JsVal
    requires !Nullish(u)
  {
    Obj(map["userId" := Field(u, "id"), "email" := Field(u, "email")])
  }

  /** `login`: after `authService.login`, the user becomes whatever storage now
      holds; when that is truthy the stored token is replaced by the client-built
      one. A failed call leaves the user as it was and answers with the server's
      message or the default one; a `btoa` failure is reported the same way,
      after the user has been set. */
  function Login(c: Ctx, reply: Result<JsVal, JsVal>, json: Json, fakeToken: JsVal -> Option<string>): (r: (Ctx, Outcome))
    ensures r.0.loading == c.loading
    ensures Receive(c.storage, reply, json).Failure? ==>
      var (st, response) := Receive(c.storage, reply, json).error;
      r == (c.(storage := st), Failed(ErrorText(response, LoginFailedText)))
    ensures Receive(c.storage, reply, json).Success? ==>
      var st := Receive(c.storage, reply, json).value.0;
      var u := GetCurrentUser(st, json);
      && r.0.user == u
      && (!Truthy(u) ==> r == (c.(user := u, storage := st), Succeeded(u)))
      && (Truthy(u) && fakeToken(Claims(u)).Some? ==>
            r == (c.(user := u, storage := SaveToken(st, fakeToken(Claims(u)).value)), Succeeded(u)))
      && (Truthy(u) && fakeToken(Claims(u)).None? ==>
            r == (c.(user := u, storage := st), Failed(Str(LoginFailedText))))
  {
    match Receive(c.storage, reply, json)
    case Failure((st, response)) => (c.(storage := st), Failed(ErrorText(response, LoginFailedText)))
    case Success((st, _)) =>
      var u := GetCurrentUser(st, json);
      if !Truthy(u) then (c.(user := u, storage := st), Succeeded(u))
      else
        match fakeToken(Claims(u))
        case None => (c.(user := u, storage := st), Failed(ErrorText(Undef, LoginFailedText)))
        case Some(t) => (c.(user := u, storage := SaveToken(st, t)), Succeeded(u))
  }

  /** `isAuthenticated`: a truthy user and a non-empty stored token. */
  predicate IsAuthenticated(c: Ctx) {
    Truthy(c.user) && JwtIsAuthenticated(c.storage)
  }

  /** A reply that names the user signs in: the user is the normalised one, the
      session's token is the client-built one rather than the server's, and the
      context counts as authenticated. */
  lemma LoginSignsIn(c: Ctx, reply: Result<JsVal, JsVal>, json: Json, fakeToken: JsVal -> Option<string>, key: string)
    requires reply.Success? && !Nullish(reply.value)
    requires Truthy(Field(reply.value, "user")) || Truthy(Field(reply.value, "email"))
    requires RoundTrips(json, NormalizeUser(reply.value))
    requires fakeToken(Claims(DropUndefined(NormalizeUser(reply.value)))).Some?
    requires fakeToken(Claims(DropUndefined(NormalizeUser(reply.value)))).value != ""
    ensures var (c2, o) := Login(c, reply, json, fakeToken);
      var u := DropUndefined(NormalizeUser(reply.value));
      && o == Succeeded(u) && c2.user == u
      && Field(c2.user, key) == Field(NormalizeUser(reply.value), key)
      && GetItem(c2.storage, TokenKey) == fakeToken(Claims(u))
      && IsAuthenticated(c2)
  {
    ReceiveRestoresUser(c.storage, reply, json, key);
  }

  /** A reply that names no user leaves the user stored by an earlier session in
      place, and `login` then signs that user in. */
  lemma LoginKeepsStoredUser(c: Ctx, reply: Result<JsVal, JsVal>, json: Json, fakeToken: JsVal -> Option<string>)
    requires reply.Success? && !Nullish(reply.value)
    requires !Truthy(Field(reply.value, "user")) && !Truthy(Field(reply.value, "email"))
    ensures Login(c, reply, json, fakeToken).0.user == GetCurrentUser(c.storage, json)
  {
    var st := Receive(c.storage, reply, json).value.0;
    assert GetItem(st, UserKey) == GetItem(c.storage, UserKey);
  }

  /** A failed call keeps the user in state; a 401 still clears the storage. */
  lemma FailedLoginKeepsUser(c: Ctx, response: JsVal, json: Json, fakeToken: JsVal -> Option<string>)
    ensures var (c2, o) := Login(c, Failure(response), json, fakeToken);
      && c2.user == c.user
      && o == Failed(ErrorText(response, LoginFailedText))
      && (OptProp(response, "status") == Num(401) ==> !AuthStorage.IsAuthenticated(c2.storage))
      && (OptProp(response, "status") != Num(401) ==> c2 == c)
  {
  }

  /** `register`: a successful `authService.register` is followed by a `login`
      with the same email and password, whose reply is `loginReply`; a failed
      one answers with the server's message or the default one and keeps the
      user. */
  function Register(c: Ctx, reply: Result<JsVal, JsVal>, loginReply: Result<JsVal, JsVal>, json: Json,
                    fakeToken: JsVal -> Option<string>): (r: (Ctx, Outcome))
    ensures Receive(c.storage, reply, json).Failure? ==>
      var (st, response) := Receive(c.storage, reply, json).error;
      r == (c.(storage := st), Failed(ErrorText(response, RegisterFailedText)))
    ensures Receive(c.storage, reply, json).Success? ==>
      r == Login(c.(storage := Receive(c.storage, reply, json).value.0), loginReply, json, fakeToken)
  {
    match Receive(c.storage, reply, json)
    case Failure((st, response)) => (c.(storage := st), Failed(ErrorText(response, RegisterFailedText)))
    case Success((st, _)) => Login(c.(storage := st), loginReply, json, fakeToken)
  }

  /** Registration succeeds only if the registration call and the login that
      follows it both succeed, and its user is then the login's. (Both calls
      can succeed and the registration still fail, when `btoa` throws.) */
  lemma RegisterNeedsLogin(c: Ctx, reply: Result<JsVal, JsVal>, loginReply: Result<JsVal, JsVal>, json: Json,
                           fakeToken: JsVal -> Option<string>)
    ensures var (c2, o) := Register(c, reply, loginReply, json, fakeToken);
      o.Succeeded? ==>
        && Receive(c.storage, reply, json).Success?
        && Receive(Receive(c.storage, reply, json).value.0, loginReply, json).Success?
        && o.user == c2.user
  {
  }

  /** `logout`: the session entries and the user go. */
  function Logout(c: Ctx): (r: Ctx)
    ensures r.user == Null && r.storage == AuthStorage.Logout(c.storage) && r.loading == c.loading
    ensures !IsAuthenticated(r)
  {
    Ctx(Null, AuthStorage.Logout(c.storage), c.loading)
  }

  /** A fresh mount after logout finds nobody signed in. */
  lemma LogoutThenMount(c: Ctx, json: Json)
    ensures Mount(Logout(c).storage, json).user == Null
    ensures !IsAuthenticated(Mount(Logout(c).storage, json))
  {
  }
}

=== FILE: auth_storage.dfy ===
/** The browser's session storage as `authService` and `jwtUtils` keep it: a
    `localStorage` of strings under the keys `token` and `user`. The user-service
    replies are parameters (the body of a 2xx answer, or the `response` of an
    axios error, `undefined` when there was none), and so are `JSON.stringify`
    and `JSON.parse`. */
module AuthStorage {
  import opened Wrappers
  import opened Text
  import opened JsValues

  type Storage = map<string, string>

  const TokenKey: string := "token"
  const UserKey: string := "user"

  /** `localStorage.getItem(key)`: None is `null`. */
  function GetItem(st: Storage, key: string): Option<string> {
    if key in st then Some(st[key]) else None
  }

  /** A stored entry read as a condition (`if (token)`): present and non-empty. */
  predicate Filled(st: Storage, key: string) {
    key in st && st[key] != ""
  }

  /** `JSON.stringify` and `JSON.parse`; `parse` gives None where it throws. */
  datatype Json = Json(stringify: JsVal -> string, parse: string -> Option<JsVal>)

  /** What `JSON.stringify` keeps of an object: the fields whose value is not
      `undefined`. */
  function DropUndefined(v: JsVal): (r: JsVal)
    ensures v.Obj? ==> r.Obj? && r.fields.Keys == set k | k in v.fields && !v.fields[k].Undef?
    ensures !v.Obj? ==> r == v
  {
    if v.Obj? then Obj(map k | k in v.fields && !v.fields[k].Undef? :: v.fields[k]) else v
  }

  /** Reading a field cannot tell an `undefined` field from a missing one. */
  lemma DropUndefinedInvisible(v: JsVal, key: string)
    requires !Nullish(v)
    ensures Field(DropUndefined(v), key) == Field(v, key)
  {
  }

  /** `v` survives a trip through JSON text: its text is not empty, and parsing
      it gives back `v` without its `undefined` fields. */
  predicate RoundTrips(json: Json, v: JsVal) {
    json.stringify(v) != "" && json.parse(json.stringify(v)) == Some(DropUndefined(v))
  }

  const UserFields: set<string> := {"email", "username", "id", "firstName", "lastName", "phoneNumber"}

  /** The normalised user: each field from the top level of the reply, or else
      from its `user` object. */
  function NormalizeUser(data: JsVal): (u: JsVal)
    requires !Nullish(data)
    ensures u.Obj? && u.fields.Keys == UserFields
    ensures forall k | k in UserFields :: u.fields[k] == Or(Field(data, k), OptProp(Field(data, "user"), k))
  {
    Obj(map k | k in UserFields :: Or(Field(data, k), OptProp(Field(data, "user"), k)))
  }

  /** The response interceptor: a 401 drops the session, any other error leaves
      the storage alone. */
  function OnError(st: Storage, response: JsVal): (r: Storage)
    ensures OptProp(response, "status") == Num(401) ==> TokenKey !in r && UserKey !in r
    ensures OptProp(response, "status") != Num(401) ==> r == st
    ensures r - {TokenKey, UserKey} == st - {TokenKey, UserKey}
  {
    if OptProp(response, "status") == Num(401) then st - {TokenKey, UserKey} else st
  }

  /** The storage writes after a successful `login` or `register` reply. */
  function StoreSession(st: Storage, data: JsVal, json: Json): Storage
    requires !Nullish(data)
  {
    var token := Field(data, "token");
    var st1 := if Truthy(token) then st[TokenKey := ToJsString(token)] else st;
    if Truthy(Field(data, "user")) || Truthy(Field(data, "email")) then
      st1[UserKey := json.stringify(NormalizeUser(data))]
    else st1
  }

  /** `authService.login` and `authService.register` (the same code): on a reply
      whose body carries a token, the token is stored, and without one the stored
      token is kept; when the body has a `user` or an `email`, the normalised
      user is stored as JSON, and otherwise the stored user is kept. A `null`
      body fails with no response. A failed call goes through the interceptor.
      No other key is touched. */
  function Receive(st: Storage, reply: Result<JsVal, JsVal>, json: Json): (r: Result<(Storage, JsVal), (Storage, JsVal)>)
    ensures reply.Failure? ==> r == Failure((OnError(st, reply.error), reply.error))
    ensures reply.Success? && Nullish(reply.value) ==> r == Failure((st, Undef))
    ensures r.Success? <==> reply.Success? && !Nullish(reply.value)
    ensures r.Success? ==> r.value.1 == reply.value
    ensures reply.Success? && !Nullish(reply.value) ==>
      var (st2, data) := (r.value.0, reply.value);
      var token := Field(data, "token");
      && (Truthy(token) ==> GetItem(st2, TokenKey) == Some(ToJsString(token)))
      && (!Truthy(token) ==> GetItem(st2, TokenKey) == GetItem(st, TokenKey))
      && (Truthy(Field(data, "user")) || Truthy(Field(data, "email")) ==>
            GetItem(st2, UserKey) == Some(json.stringify(NormalizeUser(data))))
      && (!Truthy(Field(data, "user")) && !Truthy(Field(data, "email")) ==>
            GetItem(st2, UserKey) == GetItem(st, UserKey))
    ensures var st2 := if r.Success? then r.value.0 else r.error.0;
      st2 - {TokenKey, UserKey} == st - {TokenKey, UserKey}
  {
    if reply.Failure? then Failure((OnError(st, reply.error), reply.error))
    else if Nullish(reply.value) then Failure((st, Undef))
    else Success((StoreSession(st, reply.value, json), reply.value))
  }

  /** `authService.getCurrentUser`: `null` when no user is stored, when the
      entry is empty, or when it does not parse. */
  function GetCurrentUser(st: Storage, json: Json): (r: JsVal)
    ensures !Filled(st, UserKey) ==> r == Null
    ensures Filled(st, UserKey) && json.parse(st[UserKey]).None? ==> r == Null
    ensures Filled(st, UserKey) && json.parse(st[UserKey]).Some? ==> r == json.parse(st[UserKey]).value
  {
    if !Filled(st, UserKey) then Null
    else json.parse(st[UserKey]).GetOr(Null)
  }

  /** After a reply that names the user, the stored user reads back as the
      normalised user, field for field. */
  lemma ReceiveRestoresUser(st: Storage, reply: Result<JsVal, JsVal>, json: Json, key: string)
    requires reply.Success? && !Nullish(reply.value)
    requires Truthy(Field(reply.value, "user")) || Truthy(Field(reply.value, "email"))
    requires RoundTrips(json, NormalizeUser(reply.value))
    ensures var u := GetCurrentUser(Receive(st, reply, json).value.0, json);
      && u == DropUndefined(NormalizeUser(reply.value))
      && Field(u, key) == Field(NormalizeUser(reply.value), key)
  {
    DropUndefinedInvisible(NormalizeUser(reply.value), key);
  }

  /** `authService.isAuthenticated`: a non-empty token and a non-empty user. */
  predicate IsAuthenticated(st: Storage) {
    Filled(st, TokenKey) && Filled(st, UserKey)
  }

  /** `authService.logout`: both entries go, nothing else changes, and the
      session reads as signed out. */
  function Logout(st: Storage): (r: Storage)
    ensures TokenKey !in r && UserKey !in r
    ensures forall k | k in st && k != TokenKey && k != UserKey :: k in r && r[k] == st[k]
    ensures r.Keys <= st.Keys
  {
    st - {TokenKey, UserKey}
  }

  lemma LogoutSignsOut(st: Storage, json: Json)
    ensures !IsAuthenticated(Logout(st))
    ensures GetCurrentUser(Logout(st), json) == Null
    ensures Logout(Logout(st)) == Logout(st)
  {
  }

  /** The request interceptor: the `Authorization` header, set only when a
      non-empty token is stored. */
  function AuthHeader(st: Storage): (h: Option<string>)
    ensures h.Some? <==> Filled(st, TokenKey)
    ensures h.Some? ==> h.value == "Bearer " + st[TokenKey]
  {
    if Filled(st, TokenKey) then Some("Bearer " + st[TokenKey]) else None
  }

  /** `jwtUtils.saveToken`. */
  function SaveToken(st: Storage, token: string): (r: Storage)
    ensures GetItem(r, TokenKey) == Some(token)
    ensures r - {TokenKey} == st - {TokenKey}
  {
    st[TokenKey := token]
  }

  /** `jwtUtils.removeToken`. */
  function RemoveToken(st: Storage): (r: Storage)
    ensures GetItem(r, TokenKey) == None
    ensures r - {TokenKey} == st - {TokenKey}
  {
    st - {TokenKey}
  }

  /** `jwtUtils.isAuthenticated`: a non-empty token, whatever it holds. */
  predicate JwtIsAuthenticated(st: Storage) {
    GetItem(st, TokenKey).Some? && GetItem(st, TokenKey).value != ""
  }

  /** Saving a token signs in exactly when the token is not empty; removing it
      signs out; and the service's test implies the token utility's. */
  lemma TokenUtilities(st: Storage, token: string)
    ensures JwtIsAuthenticated(SaveToken(st, token)) <==> token != ""
    ensures !JwtIsAuthenticated(RemoveToken(st))
    ensures IsAuthenticated(st) ==> JwtIsAuthenticated(st)
    ensures GetItem(RemoveToken(SaveToken(st, token)), TokenKey) == None
  {
  }

  /** Base64url to base64: `-` becomes `+` and `_` becomes `/` (the alphabets of
      sections 5 and 4 of RFC 4648). */
  function UrlCharToStd(c: char): char {
    if c == '-' then '+' else if c == '_' then '/' else c
  }

  function StdCharToUrl(c: char): char {
    if c == '+' then '-' else if c == '/' then '_' else c
  }

  predicate IsAlnum(c: char) {
    ('A' <= c <= 'Z') || ('a' <= c <= 'z') || ('0' <= c <= '9')
  }

  predicate IsUrlAlphabet(s: string) {
    forall i | 0 <= i < |s| :: IsAlnum(s[i]) || s[i] == '-' || s[i] == '_'
  }

  predicate IsStdAlphabet(s: string) {
    forall i | 0 <= i < |s| :: IsAlnum(s[i]) || s[i] == '+' || s[i] == '/'
  }

  /** `s.replace(/-/g, '+').replace(/_/g, '/')`. */
  function UrlToStd(s: string): (r: string)
    ensures |r| == |s|
    ensures forall i | 0 <= i < |s| :: r[i] == UrlCharToStd(s[i])
  {
    seq(|s|, i requires 0 <= i < |s| => UrlCharToStd(s[i]))
  }

  function StdToUrl(s: string): (r: string)
    ensures |r| == |s|
    ensures forall i | 0 <= i < |s| :: r[i] == StdCharToUrl(s[i])
  {
    seq(|s|, i requires 0 <= i < |s| => StdCharToUrl(s[i]))
  }

  /** The mapping takes base64url text to base64 text and back. */
  lemma AlphabetsCorrespond(s: string)
    ensures IsUrlAlphabet(s) ==> IsStdAlphabet(UrlToStd(s)) && StdToUrl(UrlToStd(s)) == s
    ensures IsStdAlphabet(s) ==> IsUrlAlphabet(StdToUrl(s)) && UrlToStd(StdToUrl(s)) == s
  {
  }

  /** `jwtUtils.decodeToken`: the payload segment, after the second `.`-separated
      part is mapped back to base64, is decoded by `decode` (`atob`, the percent
      decoding and `JSON.parse`; None where any of them throws). Without a second
      part, and wherever decoding fails, the result is `null`. */
  function DecodeToken(token: string, decode: string -> Option<JsVal>): (r: JsVal)
    ensures '.' !in token ==> r == Null
    ensures '.' in token && decode(UrlToStd(Segment(token, '.', 1).value)).None? ==> r == Null
  {
    SecondSegmentExists(token, '.');
    match Segment(token, '.', 1)
    case None => Null
    case Some(payload) => decode(UrlToStd(payload)).GetOr(Null)
  }

  /** On a three-part token the payload decoded is the middle part. */
  lemma DecodeTokenPayload(header: string, payload: string, signature: string, decode: string -> Option<JsVal>)
    requires '.' !in header && '.' !in payload && '.' !in signature
    ensures DecodeToken(header + "." + payload + "." + signature, decode) == decode(UrlToStd(payload)).GetOr(Null)
  {
    var rest := payload + "." + signature;
    var t := header + "." + rest;
    assert t == header + "." + payload + "." + signature;
    SplitPair(payload, signature, '.');
    assert t[|header|] == '.';
    assert t[..|header|] == header;
    assert FirstIndex(t, '.') == |header|;
    assert t[|header| + 1..] == rest;
    assert Split(t, '.') == [header, payload, signature];
  }
}

=== FILE: calendar.dfy ===
/** Calendar dates of the proleptic Gregorian calendar, their day numbers and
    their ISO `yyyy-MM-dd` text. The day number of a date is the count of days
    since 0000-01-01; `java.time.LocalDate` differences and the client's
    `yyyy-MM-dd` strings are both read through it. */
module Calendar {
  import opened Text

  datatype Date = Date(year: nat, month: nat, day: nat)

  predicate IsLeap(y: nat) {
    y % 4 == 0 && (y % 100 != 0 || y % 400 == 0)
  }

  function YearLength(y: nat): nat {
    if IsLeap(y) then 366 else 365
  }

  function MonthLength(y: nat, m: nat): (n: nat)
    requires 1 <= m <= 12
    ensures 28 <= n <= 31
  {
    if m == 2 then (if IsLeap(y) then 29 else 28)
    else if m == 4 || m == 6 || m == 9 || m == 11 then 30
    else 31
  }

  /** A date that `yyyy-MM-dd` can write: a four-digit year and a real day of
      a real month. */
  predicate Valid(dt: Date) {
    dt.year <= 9999 && 1 <= dt.month <= 12 && 1 <= dt.day <= MonthLength(dt.year, dt.month)
  }

  function DaysBeforeYear(y: nat): nat {
    if y == 0 then 0 else DaysBeforeYear(y - 1) + YearLength(y - 1)
  }

  function DaysBeforeMonth(y: nat, m: nat): nat
    requires 1 <= m <= 12
  {
    if m == 1 then 0 else DaysBeforeMonth(y, m - 1) + MonthLength(y, m - 1)
  }

  function DayNumber(dt: Date): int
    requires Valid(dt)
  {
    DaysBeforeYear(dt.year) + DaysBeforeMonth(dt.year, dt.month) + dt.day - 1
  }

  /** The chronological order of dates: by year, then month, then day. */
  predicate Before(a: Date, b: Date) {
    a.year < b.year
    || (a.year == b.year && a.month < b.month)
    || (a.year == b.year && a.month == b.month && a.day < b.day)
  }

  lemma {:induction false} DaysBeforeYearMonotone(y: nat, z: nat)
    requires y <= z
    ensures DaysBeforeYear(y) + (if y < z then YearLength(y) else 0) <= DaysBeforeYear(z)
    decreases z - y
  {
    if y < z {
      DaysBeforeYearMonotone(y + 1, z);
    }
  }

  lemma {:induction false} DaysBeforeMonthMonotone(y: nat, m: nat, n: nat)
    requires 1 <= m <= n <= 12
    ensures DaysBeforeMonth(y, m) + (if m < n then MonthLength(y, m) else 0) <= DaysBeforeMonth(y, n)
    decreases n - m
  {
    if m < n {
      DaysBeforeMonthMonotone(y, m + 1, n);
    }
  }

  lemma {:induction false} DaysBeforeMonthInYear(y: nat, m: nat)
    requires 1 <= m <= 12
    ensures DaysBeforeMonth(y, m) + MonthLength(y, m) <= YearLength(y)
    decreases 12 - m
  {
    if m < 12 {
      DaysBeforeMonthInYear(y, m + 1);
    } else {
      var leap := if IsLeap(y) then 1 else 0;
      assert DaysBeforeMonth(y, 2) == 31;
      assert DaysBeforeMonth(y, 3) == 59 + leap;
      assert DaysBeforeMonth(y, 4) == 90 + leap;
      assert DaysBeforeMonth(y, 5) == 120 + leap;
      assert DaysBeforeMonth(y, 6) == 151 + leap;
      assert DaysBeforeMonth(y, 7) == 181 + leap;
      assert DaysBeforeMonth(y, 8) == 212 + leap;
      assert DaysBeforeMonth(y, 9) == 243 + leap;
      assert DaysBeforeMonth(y, 10) == 273 + leap;
      assert DaysBeforeMonth(y, 11) == 304 + leap;
    }
  }

  /** Day numbers follow the calendar: one date comes before another exactly
      when its day number is smaller, so the day number is a faithful encoding. */
  lemma DayNumberOrder(a: Date, b: Date)
    requires Valid(a) && Valid(b)
    ensures DayNumber(a) < DayNumber(b) <==> Before(a, b)
    ensures DayNumber(a) == DayNumber(b) <==> a == b
  {
    forall a: Date, b: Date | Valid(a) && Valid(b) && Before(a, b)
      ensures DayNumber(a) < DayNumber(b)
    {
      DayNumberBefore(a, b);
    }
  }

  lemma DayNumberBefore(a: Date, b: Date)
    requires Valid(a) && Valid(b) && Before(a, b)
    ensures DayNumber(a) < DayNumber(b)
  {
    if a.year < b.year {
      DaysBeforeMonthInYear(a.year, a.month);
      DaysBeforeYearMonotone(a.year, b.year);
    } else if a.month < b.month {
      DaysBeforeMonthMonotone(a.year, a.month, b.month);
    }
  }

  /** The `yyyy-MM-dd` text of a date (`format(d, 'yyyy-MM-dd')`). */
  function Iso(dt: Date): (s: string)
    ensures |s| == 10
  {
    Pad(dt.year, 4) + (['-'] + (Pad(dt.month, 2) + (['-'] + Pad(dt.day, 2))))
  }

  /** Comparing two ISO texts as JavaScript strings is comparing the dates they
      write, and equal texts write equal dates. */
  lemma IsoOrder(a: Date, b: Date)
    requires Valid(a) && Valid(b)
    ensures LexLess(Iso(a), Iso(b)) <==> DayNumber(a) < DayNumber(b)
    ensures Iso(a) == Iso(b) <==> a == b
  {
    var da, db := Pad(a.day, 2), Pad(b.day, 2);
    var ma, mb := Pad(a.month, 2) + (['-'] + da), Pad(b.month, 2) + (['-'] + db);
    var ya, yb := ['-'] + ma, ['-'] + mb;
    PadOrder(a.year, b.year, 4);
    PadOrder(a.month, b.month, 2);
    PadOrder(a.day, b.day, 2);
    LexLessConcat(Pad(a.year, 4), Pad(b.year, 4), ya, yb);
    LexLessConcat(['-'], ['-'], ma, mb);
    LexLessConcat(Pad(a.month, 2), Pad(b.month, 2), ['-'] + da, ['-'] + db);
    LexLessConcat(['-'], ['-'], da, db);
    DayNumberOrder(a, b);
    if Iso(a) == Iso(b) {
      assert Iso(a)[..4] == Pad(a.year, 4) && Iso(b)[..4] == Pad(b.year, 4);
      assert Iso(a)[5..7] == Pad(a.month, 2) && Iso(b)[5..7] == Pad(b.month, 2);
      assert Iso(a)[8..] == da && Iso(b)[8..] == db;
    }
  }
}

=== FILE: hotel_card.dfy ===
/** The hotel as the browser client lists it, and what `HotelCard` (and the
    banner of `HotelDetail`) derive from it: the picture to show and the
    shortened description. */
module HotelCard {
  import opened Wrappers

  /** A hotel of the `/api/hotels` listing. A missing field is None; numbers
      are never `NaN` here. */
  datatype ClientHotel = ClientHotel(
    id: int,
    name: string,
    city: Option<string>,
    rating: Option<real>,
    description: Option<string>,
    imageUrl: Option<string>)

  /** `a % b` in JavaScript: the remainder of the division truncated toward
      zero, so it takes the sign of `a`. */
  function JsRem(a: int, b: int): (r: int)
    requires b > 0
    ensures a >= 0 ==> r == a % b
    ensures a < 0 ==> -b < r <= 0 && -r == (-a) % b
  {
    if a >= 0 then a % b else -((-a) % b)
  }

  /** A text field is truthy when it is present and not empty. */
  predicate Given(s: Option<string>) {
    s.Some? && s.value != ""
  }

  const CardFallbacks: seq<string> := [
    "https://images.unsplash.com/photo-1566073771259-6a8506099945?w=800&h=600&fit=crop",
    "https://images.unsplash.com/photo-1445019980597-93fa8acb246c?w=800&h=600&fit=crop",
    "https://images.unsplash.com/photo-1542314831-068cd1dbfeeb?w=800&h=600&fit=crop",
    "https://images.unsplash.com/photo-1571896349842-33c89424de2d?w=800&h=600&fit=crop"
  ]

  const BannerFallbacks: seq<string> := [
    "https://images.unsplash.com/photo-1566073771259-6a8506099945?w=1200&h=400&fit=crop",
    "https://images.unsplash.com/photo-1445019980597-93fa8acb246c?w=1200&h=400&fit=crop",
    "https://images.unsplash.com/photo-1542314831-068cd1dbfeeb?w=1200&h=400&fit=crop",
    "https://images.unsplash.com/photo-1571896349842-33c89424de2d?w=1200&h=400&fit=crop"
  ]

  /** `getHotelImage`: nothing once the picture failed to load, the hotel's own
      picture when it has one, else one of the stock pictures chosen by the id.
      None is `null` or the `undefined` a negative id reads from the array. */
  function HotelImage(imageError: bool, hotel: ClientHotel, fallbacks: seq<string>): (r: Option<string>)
    requires |fallbacks| == 4
    ensures imageError ==> r.None?
    ensures !imageError && Given(hotel.imageUrl) ==> r == hotel.imageUrl
    ensures !imageError && !Given(hotel.imageUrl) && hotel.id >= 0 ==>
      r == Some(fallbacks[hotel.id % 4])
    ensures !imageError && !Given(hotel.imageUrl) && hotel.id < 0 ==>
      (r.None? <==> hotel.id % 4 != 0)
    ensures !imageError && !Given(hotel.imageUrl) && hotel.id < 0 && hotel.id % 4 == 0 ==>
      r == Some(fallbacks[0])
  {
    if imageError then None
    else if Given(hotel.imageUrl) then hotel.imageUrl
    else
      var k := JsRem(hotel.id, 4);
      if 0 <= k < 4 then Some(fallbacks[k]) else None
  }

  /** The picture of the hotel card. */
  function CardImage(imageError: bool, hotel: ClientHotel): (r: Option<string>)
    ensures r.Some? ==> r == hotel.imageUrl || r.value in CardFallbacks
  {
    HotelImage(imageError, hotel, CardFallbacks)
  }

  /** The banner of the hotel page, which also shows nothing while the hotel
      has not loaded. */
  function BannerImage(imageError: bool, hotel: Option<ClientHotel>): (r: Option<string>)
    ensures hotel.None? ==> r.None?
    ensures r.Some? ==> r == hotel.value.imageUrl || r.value in BannerFallbacks
  {
    if hotel.None? then None else HotelImage(imageError, hotel.value, BannerFallbacks)
  }

  /** Hotels without a picture whose ids differ by a multiple of four show the
      same stock picture. */
  lemma FallbackRotates(imageError: bool, a: ClientHotel, k: nat, fallbacks: seq<string>)
    requires |fallbacks| == 4
    requires !Given(a.imageUrl) && a.id >= 0
    ensures HotelImage(imageError, a, fallbacks) == HotelImage(imageError, a.(id := a.id + 4 * k), fallbacks)
  {
  }

  const DefaultDescription: string := "Un hébergement de qualité pour votre séjour."

  /** The description on the card: at most the first 100 characters followed by
      `...` when it is longer; a stock sentence when there is none. */
  function CardDescription(description: Option<string>): (r: string)
    ensures !Given(description) ==> r == DefaultDescription
    ensures Given(description) && |description.value| <= 100 ==> r == description.value
    ensures Given(description) && |description.value| > 100 ==>
      |r| == 103 && r[..100] == description.value[..100] && r[100..] == "..."
  {
    if !Given(description) then DefaultDescription
    else if |description.value| > 100 then description.value[..100] + "..."
    else description.value
  }

  /** A shown description starts with the first 100 characters of the one
      given (all of them when it is shorter), and showing the shown text again
      changes nothing. */
  lemma DescriptionShown(description: Option<string>)
    requires Given(description)
    ensures var s := description.value; var n := if |s| < 100 then |s| else 100;
      |CardDescription(description)| >= n && CardDescription(description)[..n] == s[..n]
    ensures CardDescription(Some(CardDescription(description))) == CardDescription(description)
  {
  }
}

=== FILE: hotel_catalogue.dfy ===
/** The hotel service: hotels and rooms kept in two maps keyed by id, the
    CRUD endpoints of `HotelController` over them, and `HotelServiceImpl` with
    its DTO conversions. A room refers to its hotel by id. */
module HotelCatalogue {
  import opened Wrappers

  datatype Hotel = Hotel(
    id: Option<int>,
    name: Option<string>,
    address: Option<string>,
    city: Option<string>,
    country: Option<string>,
    rating: Option<real>,
    email: Option<string>,
    phone: Option<string>,
    location: Option<string>,
    description: Option<string>)

  datatype Room = Room(
    id: Option<int>,
    hotelId: Option<int>,
    roomNumber: Option<string>,
    roomType: Option<string>,
    price: Option<real>,
    capacity: Option<int>,
    available: bool)

  datatype HotelDto = HotelDto(
    id: Option<int>,
    name: Option<string>,
    address: Option<string>,
    city: Option<string>,
    country: Option<string>,
    rating: Option<real>)

  datatype Catalogue = Catalogue(hotels: map<int, Hotel>, rooms: map<int, Room>, nextHotelId: int, nextRoomId: int)

  /** Every row is stored under its own id, below the next identity value. */
  predicate ValidCatalogue(c: Catalogue) {
    && (forall k | k in c.hotels :: c.hotels[k].id == Some(k) && k < c.nextHotelId)
    && (forall k | k in c.rooms :: c.rooms[k].id == Some(k) && k < c.nextRoomId)
  }

  /** The answer of an endpoint: 200 with a body, 204, or 404. */
  datatype Response<+T> = Ok(body: T) | NoContent | NotFound {
    function Code(): int {
      match this
      case Ok(_) => 200
      case NoContent => 204
      case NotFound => 404
    }
  }

  /** `hotelRepository.save`: a hotel without an id gets the next one; a hotel
      with an id is written under it. */
  function SaveHotel(c: Catalogue, h: Hotel): (r: (Catalogue, Hotel))
    ensures h.id.None? ==> r.1 == h.(id := Some(c.nextHotelId)) && r.0.nextHotelId == c.nextHotelId + 1
    ensures h.id.Some? ==> r.1 == h && r.0.nextHotelId == c.nextHotelId
    ensures r.1.id.Some? && r.0.hotels == c.hotels[r.1.id.value := r.1] && r.0.rooms == c.rooms
  {
    if h.id.None? then
      var saved := h.(id := Some(c.nextHotelId));
      (c.(hotels := c.hotels[c.nextHotelId := saved], nextHotelId := c.nextHotelId + 1), saved)
    else (c.(hotels := c.hotels[h.id.value := h]), h)
  }

  function SaveRoom(c: Catalogue, rm: Room): (r: (Catalogue, Room))
    ensures rm.id.None? ==> r.1 == rm.(id := Some(c.nextRoomId)) && r.0.nextRoomId == c.nextRoomId + 1
    ensures rm.id.Some? ==> r.1 == rm && r.0.nextRoomId == c.nextRoomId
    ensures r.1.id.Some? && r.0.rooms == c.rooms[r.1.id.value := r.1] && r.0.hotels == c.hotels
  {
    if rm.id.None? then
      var saved := rm.(id := Some(c.nextRoomId));
      (c.(rooms := c.rooms[c.nextRoomId := saved], nextRoomId := c.nextRoomId + 1), saved)
    else (c.(rooms := c.rooms[rm.id.value := rm]), rm)
  }

  /** GET /api/hotels/{id}: the stored hotel, or 404 exactly when there is none. */
  function GetHotel(c: Catalogue, id: int): (r: Response<Hotel>)
    ensures r == NotFound <==> id !in c.hotels
    ensures r.Ok? ==> id in c.hotels && r.body == c.hotels[id]
    ensures !r.NoContent?
  {
    if id in c.hotels then Ok(c.hotels[id]) else NotFound
  }

  /** POST /api/hotels: the body is saved as it is. */
  function CreateHotel(c: Catalogue, h: Hotel): (r: (Catalogue, Response<Hotel>))
    ensures r.1.Ok? && r.1.body.id.Some? && r.1.body.(id := h.id) == h
    ensures r.0.hotels == c.hotels[r.1.body.id.value := r.1.body]
  {
    var (c2, saved) := SaveHotel(c, h);
    (c2, Ok(saved))
  }

  /** The five fields an update copies: name, address, city, country, rating. */
  function CopyFive(existing: Hotel, name: Option<string>, address: Option<string>, city: Option<string>,
                    country: Option<string>, rating: Option<real>): (h: Hotel)
    ensures h.name == name && h.address == address && h.city == city && h.country == country && h.rating == rating
    ensures h.(name := existing.name, address := existing.address, city := existing.city,
               country := existing.country, rating := existing.rating) == existing
  {
    existing.(name := name, address := address, city := city, country := country, rating := rating)
  }

  /** PUT /api/hotels/{id}: an unknown id is 404 and changes nothing; a known
      one gets the body's five fields, keeps every other field — its id among
      them — and leaves every other hotel and every room alone. */
  function UpdateHotel(c: Catalogue, id: int, details: Hotel): (r: (Catalogue, Response<Hotel>))
    ensures id !in c.hotels ==> r == (c, NotFound)
    ensures id in c.hotels ==>
      && r.1 == Ok(CopyFive(c.hotels[id], details.name, details.address, details.city, details.country, details.rating))
      && r.0 == c.(hotels := c.hotels[id := r.1.body])
  {
    if id !in c.hotels then (c, NotFound)
    else
      var existing := c.hotels[id];
      var updated := CopyFive(existing, details.name, details.address, details.city, details.country, details.rating);
      (c.(hotels := c.hotels[id := updated]), Ok(updated))
  }

  /** DELETE /api/hotels/{id}: 204 and the key removed exactly when it existed,
      else 404 and nothing changes. */
  function DeleteHotel(c: Catalogue, id: int): (r: (Catalogue, Response<()>))
    ensures r.1 == NoContent <==> id in c.hotels
    ensures r.1 != NoContent ==> r.1 == NotFound && r.0 == c
    ensures id !in r.0.hotels && r.0.hotels == c.hotels - {id} && r.0.rooms == c.rooms
  {
    if id in c.hotels then (c.(hotels := c.hotels - {id}), NoContent) else (c, NotFound)
  }

  /** `hotel.getRooms()`: the rooms that refer to the hotel. */
  function RoomsOf(c: Catalogue, hotelId: int): (s: set<Room>)
    ensures forall rm :: rm in s <==> exists k | k in c.rooms :: c.rooms[k] == rm && rm.hotelId == Some(hotelId)
  {
    set k | k in c.rooms && c.rooms[k].hotelId == Some(hotelId) :: c.rooms[k]
  }

  /** GET /api/hotels/{hotelId}/rooms. */
  function GetHotelRooms(c: Catalogue, hotelId: int): (r: Response<set<Room>>)
    ensures r == NotFound <==> hotelId !in c.hotels
    ensures r.Ok? ==> r.body == RoomsOf(c, hotelId)
    ensures !r.NoContent?
  {
    if hotelId in c.hotels then Ok(RoomsOf(c, hotelId)) else NotFound
  }

  /** GET /api/hotels/{hotelId}/rooms/available: exactly the hotel's rooms whose
      flag is set. */
  function GetAvailableRooms(c: Catalogue, hotelId: int): (r: Response<set<Room>>)
    ensures r == NotFound <==> hotelId !in c.hotels
    ensures r.Ok? ==> forall rm :: rm in r.body <==> rm in RoomsOf(c, hotelId) && rm.available
    ensures !r.NoContent?
  {
    if hotelId in c.hotels then
      Ok(set k | k in c.rooms && c.rooms[k].hotelId == Some(hotelId) && c.rooms[k].available :: c.rooms[k])
    else NotFound
  }

  /** PUT /api/hotels/{hotelId}/rooms/{roomId}/availability: the room is found
      by its id alone — the hotel in the path is never read — and only its flag
      changes. */
  function UpdateRoomAvailability(c: Catalogue, hotelId: int, roomId: int, available: bool)
    : (r: (Catalogue, Response<Room>))
    ensures roomId !in c.rooms ==> r == (c, NotFound)
    ensures roomId in c.rooms ==>
      && r.1 == Ok(c.rooms[roomId].(available := available))
      && r.0 == c.(rooms := c.rooms[roomId := r.1.body])
  {
    if roomId !in c.rooms then (c, NotFound)
    else
      var updated := c.rooms[roomId].(available := available);
      (c.(rooms := c.rooms[roomId := updated]), Ok(updated))
  }

  /** GET /api/hotels/{hotelId}/rooms/{roomId}: also found by id alone. */
  function GetRoom(c: Catalogue, hotelId: int, roomId: int): (r: Response<Room>)
    ensures r == NotFound <==> roomId !in c.rooms
    ensures r.Ok? ==> r.body == c.rooms[roomId]
    ensures !r.NoContent?
  {
    if roomId in c.rooms then Ok(c.rooms[roomId]) else NotFound
  }

  /** The room endpoints answer the same whatever hotel the path names, even one
      that does not exist or does not own the room. */
  lemma RoomEndpointsIgnoreHotel(c: Catalogue, h1: int, h2: int, roomId: int, available: bool)
    ensures GetRoom(c, h1, roomId) == GetRoom(c, h2, roomId)
    ensures UpdateRoomAvailability(c, h1, roomId, available) == UpdateRoomAvailability(c, h2, roomId, available)
    ensures DeleteRoom(c, h1, roomId) == DeleteRoom(c, h2, roomId)
  {
  }

  /** POST /api/hotels/{hotelId}/rooms: 404 when the hotel is unknown, else the
      room is attached to it and saved. */
  function CreateRoom(c: Catalogue, hotelId: int, rm: Room): (r: (Catalogue, Response<Room>))
    ensures hotelId !in c.hotels ==> r == (c, NotFound)
    ensures hotelId in c.hotels ==>
      && r.1.Ok? && r.1.body.hotelId == Some(hotelId) && r.1.body.id.Some?
      && r.1.body.(id := rm.id, hotelId := rm.hotelId) == rm
      && r.0.rooms == c.rooms[r.1.body.id.value := r.1.body] && r.0.hotels == c.hotels
  {
    if hotelId !in c.hotels then (c, NotFound)
    else
      var (c2, saved) := SaveRoom(c, rm.(hotelId := Some(hotelId)));
      (c2, Ok(saved))
  }

  /** DELETE /api/hotels/{hotelId}/rooms/{roomId}. */
  function DeleteRoom(c: Catalogue, hotelId: int, roomId: int): (r: (Catalogue, Response<()>))
    ensures r.1 == NoContent <==> roomId in c.rooms
    ensures r.1 != NoContent ==> r.1 == NotFound && r.0 == c
    ensures roomId !in r.0.rooms && r.0.rooms == c.rooms - {roomId} && r.0.hotels == c.hotels
  {
    if roomId in c.rooms then (c.(rooms := c.rooms - {roomId}), NoContent) else (c, NotFound)
  }

  /** A room created under a hotel is listed among that hotel's rooms. */
  lemma CreatedRoomListed(c: Catalogue, hotelId: int, rm: Room)
    requires hotelId in c.hotels
    ensures var (c2, resp) := CreateRoom(c, hotelId, rm);
      && resp.Ok? && hotelId in c2.hotels && resp.body in RoomsOf(c2, hotelId)
      && (resp.body.available ==> GetAvailableRooms(c2, hotelId).Ok? && resp.body in GetAvailableRooms(c2, hotelId).body)
  {
    var (c2, resp) := CreateRoom(c, hotelId, rm);
    var k := resp.body.id.value;
    assert k in c2.rooms && c2.rooms[k] == resp.body;
  }

  // The service layer.

  /** `convertToDTO`: the six public fields. */
  function ToDto(h: Hotel): (d: HotelDto)
    ensures d.id == h.id && d.name == h.name && d.address == h.address
    ensures d.city == h.city && d.country == h.country && d.rating == h.rating
  {
    HotelDto(h.id, h.name, h.address, h.city, h.country, h.rating)
  }

  /** `convertToEntity`: the five descriptive fields, without the id. */
  function ToEntity(d: HotelDto): (h: Hotel)
    ensures h.id.None?
    ensures h.name == d.name && h.address == d.address && h.city == d.city
    ensures h.country == d.country && h.rating == d.rating
    ensures h.email.None? && h.phone.None? && h.location.None? && h.description.None?
  {
    Hotel(None, d.name, d.address, d.city, d.country, d.rating, None, None, None, None)
  }

  /** Converting a DTO to an entity and back loses only the id. */
  lemma DtoRoundTrip(d: HotelDto)
    ensures ToDto(ToEntity(d)) == d.(id := None)
  {
  }

  /** Converting an entity to a DTO and back loses the id and the four
      contact and description fields, and nothing else. */
  lemma EntityRoundTrip(h: Hotel)
    ensures ToEntity(ToDto(h)) == h.(id := None, email := None, phone := None, location := None, description := None)
  {
  }

  /** Two entities have the same DTO exactly when they agree on the id, the
      name, the address, the city, the country and the rating. */
  lemma DtoForgets(h1: Hotel, h2: Hotel)
    ensures ToDto(h1) == ToDto(h2) <==>
      h1.(email := None, phone := None, location := None, description := None)
      == h2.(email := None, phone := None, location := None, description := None)
  {
  }

  /** `getAllHotels`: one DTO per row `findAll` returns, in its order. */
  method GetAllHotels(rows: seq<Hotel>) returns (r: seq<HotelDto>)
    ensures |r| == |rows|
    ensures forall i | 0 <= i < |rows| :: r[i] == ToDto(rows[i])
  {
    r := [];
    var i := 0;
    while i < |rows|
      invariant 0 <= i <= |rows|
      invariant |r| == i
      invariant forall j | 0 <= j < i :: r[j] == ToDto(rows[j])
    {
      r := r + [ToDto(rows[i])];
      i := i + 1;
    }
  }

  /** `getHotelById`: null exactly when the id is unknown. */
  function ServiceGetHotel(c: Catalogue, id: int): (r: Option<HotelDto>)
    ensures r.None? <==> id !in c.hotels
    ensures r.Some? ==> r.value == ToDto(c.hotels[id])
  {
    if id in c.hotels then Some(ToDto(c.hotels[id])) else None
  }

  /** `createHotel`: the DTO's id is dropped, so the hotel is always inserted
      under a fresh id. */
  function ServiceCreateHotel(c: Catalogue, d: HotelDto): (r: (Catalogue, HotelDto))
    ensures r.1 == ToDto(ToEntity(d)).(id := Some(c.nextHotelId))
    ensures r.0.hotels == c.hotels[c.nextHotelId := ToEntity(d).(id := Some(c.nextHotelId))]
    ensures r.0.nextHotelId == c.nextHotelId + 1 && r.0.rooms == c.rooms
  {
    var (c2, saved) := SaveHotel(c, ToEntity(d));
    (c2, ToDto(saved))
  }

  /** Two DTOs that differ only in their id create the same hotel. */
  lemma CreateIgnoresId(c: Catalogue, d: HotelDto, id: Option<int>)
    ensures ServiceCreateHotel(c, d.(id := id)) == ServiceCreateHotel(c, d)
  {
  }

  /** Creating keeps every row under its own id, and an existing hotel is never
      overwritten. */
  lemma ServiceCreateValid(c: Catalogue, d: HotelDto)
    requires ValidCatalogue(c)
    ensures ValidCatalogue(ServiceCreateHotel(c, d).0)
    ensures c.nextHotelId !in c.hotels
    ensures forall k | k in c.hotels :: ServiceCreateHotel(c, d).0.hotels[k] == c.hotels[k]
  {
  }

  /** `updateHotel`: null and no change for an unknown id; otherwise the same
      five fields as the controller's update. */
  function ServiceUpdateHotel(c: Catalogue, id: int, d: HotelDto): (r: (Catalogue, Option<HotelDto>))
    ensures id !in c.hotels ==> r == (c, None)
    ensures id in c.hotels ==>
      var updated := CopyFive(c.hotels[id], d.name, d.address, d.city, d.country, d.rating);
      r == (c.(hotels := c.hotels[id := updated]), Some(ToDto(updated)))
  {
    if id !in c.hotels then (c, None)
    else
      var updated := CopyFive(c.hotels[id], d.name, d.address, d.city, d.country, d.rating);
      (c.(hotels := c.hotels[id := updated]), Some(ToDto(updated)))
  }

  /** The service's update and the controller's update change the store alike,
      and updating twice with the same data is updating once. */
  lemma UpdatesAgree(c: Catalogue, id: int, details: Hotel)
    ensures ServiceUpdateHotel(c, id, ToDto(details)).0 == UpdateHotel(c, id, details).0
    ensures var c2 := UpdateHotel(c, id, details).0; UpdateHotel(c2, id, details).0 == c2
  {
  }

  /** `deleteHotel` and `deleteRoom`: true exactly when the key existed, and the
      key is gone afterwards. */
  function ServiceDeleteHotel(c: Catalogue, id: int): (r: (Catalogue, bool))
    ensures r.1 <==> id in c.hotels
    ensures r.0.hotels == c.hotels - {id} && r.0.rooms == c.rooms
    ensures !r.1 ==> r.0 == c
  {
    (c.(hotels := c.hotels - {id}), id in c.hotels)
  }

  function ServiceDeleteRoom(c: Catalogue, roomId: int): (r: (Catalogue, bool))
    ensures r.1 <==> roomId in c.rooms
    ensures r.0.rooms == c.rooms - {roomId} && r.0.hotels == c.hotels
    ensures !r.1 ==> r.0 == c
  {
    (c.(rooms := c.rooms - {roomId}), roomId in c.rooms)
  }

  /** After a delete the hotel is not found, and deleting again reports false. */
  lemma DeleteThenGet(c: Catalogue, id: int)
    ensures var c2 := ServiceDeleteHotel(c, id).0;
      ServiceGetHotel(c2, id).None? && GetHotel(c2, id) == NotFound && !ServiceDeleteHotel(c2, id).1
  {
  }
}

=== FILE: hotel_detail.dfy ===
/** The hotel page of the browser client: which rooms it offers as free for
    the chosen dates, the nights and total it shows, and the booking payload it
    hands to the payment page. Reservations and rooms come from the services'
    JSON, so their id fields are JavaScript values; a date is carried with the
    timestamp `new Date(text).getTime()` gives for it. */
module HotelDetail {
  import opened Wrappers
  import opened Text
  import opened JsValues
  import opened Seqs
  import opened Calendar
  import opened Stay

  /** A date text and its timestamp; None is `NaN` (an unreadable date). */
  datatype DateInput = DateInput(text: string, time: Option<int>)

  /** The day number of 1970-01-01, timestamp 0. */
  const EpochDay: int := DayNumber(Date(1970, 1, 1))

  /** A date-only ISO text is read as UTC midnight of that date. */
  function IsoTimestamp(dt: Date): int
    requires Valid(dt)
  {
    DayToMs(DayNumber(dt) - EpochDay)
  }

  /** `f` is the date-picker value for `dt`, read the way `new Date` reads it. */
  predicate EntersDate(f: DateInput, dt: Date) {
    Valid(dt) && f.text == Iso(dt) && f.time == Some(IsoTimestamp(dt))
  }

  /** A room of `getAvailableRooms`. */
  datatype ListedRoom = ListedRoom(
    id: JsVal, roomId: JsVal, roomNumber: JsVal, available: JsVal, roomType: JsVal, price: real)

  /** A reservation of `getAllReservations`; the room id may arrive as
      `roomId` or as `room_id` (`legacyRoomId`). */
  datatype ListedReservation = ListedReservation(
    hotelId: JsVal, status: JsVal, roomId: JsVal, legacyRoomId: JsVal,
    checkIn: Option<int>, checkOut: Option<int>)

  /** `r.hotelId === parseInt(id) && r.status !== 'CANCELLED'`. */
  function ForHotel(hotelParam: string): ListedReservation -> bool {
    (r: ListedReservation) => ParseInt(hotelParam).Some? && r.hotelId == Num(ParseInt(hotelParam).value)
         && r.status != Str("CANCELLED")
  }

  /** `loadReservations`: the reservations of this hotel that are not
      cancelled, in the order the service listed them; a reply that is not an
      array gives none. */
  function HotelReservations(data: Option<seq<ListedReservation>>, hotelParam: string): (r: seq<ListedReservation>)
    ensures data.None? ==> r == []
    ensures data.Some? ==> |r| <= |data.value|
    ensures data.Some? ==> forall x :: x in r <==>
      x in data.value && ParseInt(hotelParam).Some? && x.hotelId == Num(ParseInt(hotelParam).value)
      && x.status != Str("CANCELLED")
  {
    if data.None? then []
    else
      FilterMembers(data.value, ForHotel(hotelParam));
      Filter(data.value, ForHotel(hotelParam))
  }

  /** `res.roomId || res.room_id`. */
  function BookedRoomId(res: ListedReservation): JsVal {
    Or(res.roomId, res.legacyRoomId)
  }

  /** The reservation is for this room unless its room id is loosely unequal to
      both the room's `id` and its `roomId`. */
  predicate SameRoom(res: ListedReservation, room: ListedRoom) {
    LooseEq(BookedRoomId(res), room.id) || LooseEq(BookedRoomId(res), room.roomId)
  }

  /** `userCheckIn < resCheckOut && userCheckOut > resCheckIn`; every
      comparison with `NaN` is false. */
  predicate Overlap(userIn: Option<int>, userOut: Option<int>, resIn: Option<int>, resOut: Option<int>) {
    userIn.Some? && userOut.Some? && resIn.Some? && resOut.Some?
    && userIn.value < resOut.value && userOut.value > resIn.value
  }

  predicate Conflicts(res: ListedReservation, room: ListedRoom, userIn: Option<int>, userOut: Option<int>) {
    SameRoom(res, room) && Overlap(userIn, userOut, res.checkIn, res.checkOut)
  }

  /** Instant `t` lies in the half-open stay from `a` to `b`. */
  predicate InStay(t: int, a: int, b: int) {
    a <= t < b
  }

  /** For two stays that each end after they start, the overlap test is the
      intersection of half-open stays: they conflict exactly when some instant
      lies in both. */
  lemma OverlapIsSharedInstant(a: int, b: int, c: int, d: int)
    requires a < b && c < d
    ensures Overlap(Some(a), Some(b), Some(c), Some(d)) <==> exists t :: InStay(t, a, b) && InStay(t, c, d)
  {
    if Overlap(Some(a), Some(b), Some(c), Some(d)) {
      var t := if a < c then c else a;
      assert InStay(t, a, b) && InStay(t, c, d);
    }
  }

  /** `allReservations.find(...)`: the first reservation that conflicts. */
  function FirstConflict(rs: seq<ListedReservation>, room: ListedRoom, userIn: Option<int>, userOut: Option<int>)
    : (r: Option<ListedReservation>)
    ensures r.Some? ==> r.value in rs && Conflicts(r.value, room, userIn, userOut)
    ensures r.None? <==> forall i :: 0 <= i < |rs| ==> !Conflicts(rs[i], room, userIn, userOut)
  {
    if |rs| == 0 then None
    else if Conflicts(rs[0], room, userIn, userOut) then Some(rs[0])
    else
      var rest := FirstConflict(rs[1..], room, userIn, userOut);
      assert forall i :: 1 <= i < |rs| ==> rs[i] == rs[1..][i - 1];
      rest
  }

  /** `isRoomAvailable`: a room the database marks unavailable never is; before
      both dates are chosen every other room is; then a room is free exactly
      when no listed reservation of it overlaps the chosen stay. */
  function IsRoomAvailable(room: ListedRoom, checkIn: DateInput, checkOut: DateInput, rs: seq<ListedReservation>)
    : (r: bool)
    ensures room.available == Bool(false) ==> !r
    ensures room.available != Bool(false) && (checkIn.text == "" || checkOut.text == "") ==> r
    ensures room.available != Bool(false) && checkIn.text != "" && checkOut.text != "" ==>
      (r <==> forall res :: res in rs ==> !Conflicts(res, room, checkIn.time, checkOut.time))
  {
    if room.available == Bool(false) then false
    else if checkIn.text == "" || checkOut.text == "" then true
    else FirstConflict(rs, room, checkIn.time, checkOut.time).None?
  }

  /** More reservations can only take rooms away. */
  lemma AvailabilityMonotone(room: ListedRoom, checkIn: DateInput, checkOut: DateInput,
                             rs: seq<ListedReservation>, more: seq<ListedReservation>)
    requires forall x :: x in rs ==> x in more
    requires IsRoomAvailable(room, checkIn, checkOut, more)
    ensures IsRoomAvailable(room, checkIn, checkOut, rs)
  {
  }

  /** For dates entered in the picker, the conflict test compares calendar
      dates: two stays conflict exactly when each starts before the other ends. */
  lemma IsoOverlap(userIn: Date, userOut: Date, resIn: Date, resOut: Date)
    requires Valid(userIn) && Valid(userOut) && Valid(resIn) && Valid(resOut)
    ensures Overlap(Some(IsoTimestamp(userIn)), Some(IsoTimestamp(userOut)),
                    Some(IsoTimestamp(resIn)), Some(IsoTimestamp(resOut)))
        <==> Before(userIn, resOut) && Before(resIn, userOut)
  {
    TimestampOrder(userIn, resOut);
    TimestampOrder(resIn, userOut);
  }

  /** Timestamps of picker dates are ordered as the dates. */
  lemma TimestampOrder(a: Date, b: Date)
    requires Valid(a) && Valid(b)
    ensures IsoTimestamp(a) < IsoTimestamp(b) <==> Before(a, b)
  {
    DayNumberOrder(a, b);
    var x, y := DayNumber(a) - EpochDay, DayNumber(b) - EpochDay;
    assert x < y <==> x * MsPerDay < y * MsPerDay;
  }

  /** A stay may start on the day another ends, and end on the day another
      starts: back-to-back bookings of a room never conflict. */
  lemma BackToBack(userIn: Date, userOut: Date, resIn: Date, resOut: Date)
    requires Valid(userIn) && Valid(userOut) && Valid(resIn) && Valid(resOut)
    requires userIn == resOut || userOut == resIn
    ensures !Overlap(Some(IsoTimestamp(userIn)), Some(IsoTimestamp(userOut)),
                     Some(IsoTimestamp(resIn)), Some(IsoTimestamp(resOut)))
  {
    IsoOverlap(userIn, userOut, resIn, resOut);
  }

  /** A reservation carrying neither room id matches every room that has no
      `roomId`: `undefined == undefined`. */
  lemma UnlabelledReservationBlocks(res: ListedReservation, room: ListedRoom)
    requires !Truthy(res.roomId) && Nullish(res.legacyRoomId) && Nullish(room.roomId)
    ensures SameRoom(res, room)
  {
  }

  /** A room id sent as text matches the room whose numeric id it spells. */
  lemma TextIdMatches(res: ListedReservation, room: ListedRoom, n: nat)
    requires res.roomId == Str(Decimal(n)) && room.id == Num(n)
    ensures SameRoom(res, room)
  {
    DecimalValue(n);
    assert StringToNumber(Decimal(n)) == Some(n);
    assert BookedRoomId(res) == res.roomId;
    assert LooseEq(res.roomId, room.id);
  }

  /** `calculateNights` of the hotel page. */
  function DetailNights(checkIn: DateInput, checkOut: DateInput): (n: int)
    ensures n >= 0
    ensures checkIn.text == "" || checkOut.text == "" ==> n == 0
    ensures checkIn.time.None? || checkOut.time.None? ==> n == 0
    ensures checkIn.text != "" && checkOut.text != "" && checkIn.time.Some? && checkOut.time.Some? ==>
      var elapsed := checkOut.time.value - checkIn.time.value;
      && (n == 0 <==> elapsed <= 0)
      && (elapsed > 0 ==> MsPerDay * (n - 1) < elapsed <= MsPerDay * n)
  {
    if checkIn.text == "" || checkOut.text == "" then 0
    else if checkIn.time.None? || checkOut.time.None? then 0
    else CeilNights(checkIn.time.value, checkOut.time.value)
  }

  /** For picker dates, the nights shown are the days between the dates, or 0. */
  lemma DetailNightsDays(checkIn: DateInput, checkOut: DateInput, a: Date, b: Date)
    requires EntersDate(checkIn, a) && EntersDate(checkOut, b)
    ensures DetailNights(checkIn, checkOut) == if DayNumber(a) < DayNumber(b) then DayNumber(b) - DayNumber(a) else 0
  {
    assert |Iso(a)| == 10 && |Iso(b)| == 10;
    NightCountsAgree(DayNumber(a) - EpochDay, DayNumber(b) - EpochDay);
  }

  /** `calculateTotalPrice` of the hotel page: `reservationService.calculatePrice`
      once a room and both dates are chosen, else 0. */
  function DetailTotalPrice(selected: Option<ListedRoom>, checkIn: DateInput, checkOut: DateInput): (p: real)
    ensures selected.None? ==> p == 0.0
    ensures selected.Some? ==> p == DetailNights(checkIn, checkOut) as real * selected.value.price
  {
    if selected.None? || checkIn.text == "" || checkOut.text == "" then 0.0
    else if checkIn.time.None? || checkOut.time.None? then 0.0
    else CalculatePrice(checkIn.time.value, checkOut.time.value, selected.value.price)
  }

  /** What pressing "book" does. */
  datatype BookingStep = NeedRoomAndDates | DatesOutOfOrder | OpenDialog

  /** `handleBooking`: the dates are compared as strings. */
  function HandleBooking(roomSelected: bool, checkIn: string, checkOut: string): (r: BookingStep)
    ensures r == OpenDialog <==> roomSelected && checkIn != "" && checkOut != "" && LexLess(checkIn, checkOut)
    ensures r == NeedRoomAndDates <==> !roomSelected || checkIn == "" || checkOut == ""
  {
    if !roomSelected || checkIn == "" || checkOut == "" then NeedRoomAndDates
    else if !LexLess(checkIn, checkOut) then DatesOutOfOrder
    else OpenDialog
  }

  /** On picker dates the string comparison is the calendar order: the dialog
      opens exactly when the departure is after the arrival. */
  lemma HandleBookingDates(a: Date, b: Date)
    requires Valid(a) && Valid(b)
    ensures HandleBooking(true, Iso(a), Iso(b)) == OpenDialog <==> Before(a, b)
  {
    IsoOrder(a, b);
    DayNumberOrder(a, b);
    assert |Iso(a)| == 10 && |Iso(b)| == 10;
  }

  /** `rooms.findIndex(r => r.roomNumber === number)`. */
  function FindRoomNumber(rooms: seq<ListedRoom>, number: JsVal): (i: int)
    ensures -1 <= i < |rooms|
    ensures i >= 0 ==> rooms[i].roomNumber == number && forall j :: 0 <= j < i ==> rooms[j].roomNumber != number
    ensures i == -1 <==> forall j :: 0 <= j < |rooms| ==> rooms[j].roomNumber != number
  {
    if |rooms| == 0 then -1
    else if rooms[0].roomNumber == number then 0
    else
      var k := FindRoomNumber(rooms[1..], number);
      assert forall j :: 1 <= j < |rooms| ==> rooms[j] == rooms[1..][j - 1];
      if k == -1 then -1 else k + 1
  }

  /** The id is taken for a room number when it is text or above 100. */
  predicate LooksLikeRoomNumber(v: JsVal) {
    v.Str? || (v.Num? && v.n > 100)
  }

  /** The room id the booking sends: `roomId || id`, replaced by the room's
      position in the list, counted from 1, when it looks like a room number and
      a listed room has the same number. */
  function ResolveRoomId(selected: ListedRoom, rooms: seq<ListedRoom>): (r: JsVal)
    ensures var initial := Or(selected.roomId, selected.id);
      && (!LooksLikeRoomNumber(initial) ==> r == initial)
      && (LooksLikeRoomNumber(initial) && FindRoomNumber(rooms, selected.roomNumber) == -1 ==> r == initial)
      && (LooksLikeRoomNumber(initial) && FindRoomNumber(rooms, selected.roomNumber) != -1 ==>
            r == Num(FindRoomNumber(rooms, selected.roomNumber) + 1))
      && (r != initial ==> r.Num? && 1 <= r.n <= |rooms| && rooms[r.n - 1].roomNumber == selected.roomNumber
                           && forall j :: 0 <= j < r.n - 1 ==> rooms[j].roomNumber != selected.roomNumber)
  {
    var initial := Or(selected.roomId, selected.id);
    if LooksLikeRoomNumber(initial) then
      var index := FindRoomNumber(rooms, selected.roomNumber);
      if index != -1 then Num(index + 1) else initial
    else initial
  }

  /** What the page hands to the payment page. */
  datatype BookingPayload = BookingPayload(
    userId: JsVal, hotelId: Option<int>, roomId: JsVal, checkIn: string, checkOut: string,
    firstName: JsVal, lastName: JsVal, email: JsVal, phone: JsVal, specialRequests: JsVal,
    roomType: JsVal, pricePerNight: real, totalPrice: real, nights: int)

  datatype SubmitStep = SessionIncomplete | GoToPayment(payload: BookingPayload)

  /** `handleReservationSubmit`: without a user id the booking stops; otherwise
      the payload carries the user, the hotel of the page, the resolved room,
      the chosen dates, the dialog's contact fields and the amounts shown. */
  function HandleReservationSubmit(user: JsVal, hotelParam: string, selected: ListedRoom, rooms: seq<ListedRoom>,
                                   checkIn: DateInput, checkOut: DateInput, form: map<string, JsVal>)
    : (r: SubmitStep)
    ensures r == SessionIncomplete <==> !Truthy(OptProp(user, "id"))
    ensures r.GoToPayment? ==>
      var p := r.payload;
      && Truthy(p.userId) && p.userId == OptProp(user, "id")
      && p.hotelId == ParseInt(hotelParam)
      && p.roomId == ResolveRoomId(selected, rooms)
      && p.checkIn == checkIn.text && p.checkOut == checkOut.text
      && p.firstName == OptProp(Obj(form), "firstName") && p.lastName == OptProp(Obj(form), "lastName")
      && p.email == OptProp(Obj(form), "email") && p.phone == OptProp(Obj(form), "phone")
      && p.specialRequests == OptProp(Obj(form), "specialRequests")
      && p.roomType == selected.roomType && p.pricePerNight == selected.price
      && p.nights == DetailNights(checkIn, checkOut)
      && p.totalPrice == p.nights as real * p.pricePerNight
  {
    if !Truthy(OptProp(user, "id")) then SessionIncomplete
    else
      var formObj := Obj(form);
      GoToPayment(BookingPayload(
        OptProp(user, "id"), ParseInt(hotelParam), ResolveRoomId(selected, rooms), checkIn.text, checkOut.text,
        OptProp(formObj, "firstName"), OptProp(formObj, "lastName"), OptProp(formObj, "email"),
        OptProp(formObj, "phone"), OptProp(formObj, "specialRequests"),
        selected.roomType, selected.price,
        DetailTotalPrice(Some(selected), checkIn, checkOut), DetailNights(checkIn, checkOut)))
  }

  /** For dates entered at midnight of days `da` and `db`, the payment page
      is handed the booking form's night count for those days, and that many
      nights at the room's price as the total. */
  lemma SubmitAmounts(user: JsVal, hotelParam: string, selected: ListedRoom, rooms: seq<ListedRoom>,
                      checkIn: DateInput, checkOut: DateInput, form: map<string, JsVal>, da: Day, db: Day)
    requires Truthy(OptProp(user, "id"))
    requires checkIn.text != "" && checkIn.time == Some(DayToMs(da))
    requires checkOut.text != "" && checkOut.time == Some(DayToMs(db))
    ensures var r := HandleReservationSubmit(user, hotelParam, selected, rooms, checkIn, checkOut, form);
      && r.GoToPayment?
      && r.payload.nights == FormNights(Some(da), Some(db))
      && r.payload.totalPrice == FormTotalPrice(Some(da), Some(db), Some(selected.price))
  {
    DetailNightsMidnight(checkIn, checkOut, da, db);
    var r := HandleReservationSubmit(user, hotelParam, selected, rooms, checkIn, checkOut, form);
    assert r.payload.nights == DetailNights(checkIn, checkOut);
  }

  /** Dates entered at midnight give the page the booking form's night count. */
  lemma DetailNightsMidnight(checkIn: DateInput, checkOut: DateInput, da: Day, db: Day)
    requires checkIn.text != "" && checkIn.time == Some(DayToMs(da))
    requires checkOut.text != "" && checkOut.time == Some(DayToMs(db))
    ensures DetailNights(checkIn, checkOut) == FormNights(Some(da), Some(db))
  {
    NightCountsAgree(da, db);
  }

  /** When the listed rooms carry distinct numbers and the selected room is the
      one at position `k`, an id that looks like a room number resolves to
      `k + 1`. */
  lemma ResolveSelectedRoom(selected: ListedRoom, rooms: seq<ListedRoom>, k: nat)
    requires k < |rooms| && rooms[k].roomNumber == selected.roomNumber
    requires forall i, j | 0 <= i < j < |rooms| :: rooms[i].roomNumber != rooms[j].roomNumber
    requires LooksLikeRoomNumber(Or(selected.roomId, selected.id))
    ensures ResolveRoomId(selected, rooms) == Num(k + 1)
  {
    var i := FindRoomNumber(rooms, selected.roomNumber);
    assert i != -1 && rooms[i].roomNumber == rooms[k].roomNumber;
  }
}

=== FILE: hotel_list.dfy ===
/** `Hotels.handleFilterChange`: the city and minimum-rating filters over the
    loaded hotels, then the optional sort by rating. */
module HotelList {
  import opened Wrappers
  import opened Text
  import opened Seqs
  import opened HotelCard

  /** The filter panel's values; an empty `city` or `sortBy` is falsy. */
  datatype Filters = Filters(city: string, minRating: real, sortBy: string)

  /** `h.city?.toLowerCase().includes(city.toLowerCase())`: a hotel without a
      city never matches. */
  predicate CityMatches(h: ClientHotel, city: string) {
    h.city.Some? && Contains(ToLower(h.city.value), ToLower(city))
  }

  /** `h.rating || 0`. */
  function RatingOf(h: ClientHotel): (r: real)
    ensures h.rating.Some? ==> r == h.rating.value
    ensures h.rating.None? ==> r == 0.0
  {
    if h.rating.Some? && h.rating.value != 0.0 then h.rating.value else 0.0
  }

  /** The city filter applies when the text is not blank once trimmed; it then
      compares with the untrimmed text. */
  predicate CityActive(f: Filters) {
    f.city != "" && Trim(f.city) != ""
  }

  function CityFilter(city: string): ClientHotel -> bool {
    h => CityMatches(h, city)
  }

  function RatingFilter(minRating: real): ClientHotel -> bool {
    h => RatingOf(h) >= minRating
  }

  /** Both filters at once. */
  function BothFilters(f: Filters): ClientHotel -> bool {
    h => CityMatches(h, f.city) && RatingOf(h) >= f.minRating
  }

  function HasRating(k: real): ClientHotel -> bool {
    h => RatingOf(h) == k
  }

  /** Ratings never increase along `s`. */
  predicate SortedByRating(s: seq<ClientHotel>) {
    forall i, j :: 0 <= i < j < |s| ==> RatingOf(s[i]) >= RatingOf(s[j])
  }

  /** Places `h` before the first hotel rated no higher. */
  function Insert(h: ClientHotel, t: seq<ClientHotel>): (r: seq<ClientHotel>)
    ensures multiset(r) == multiset{h} + multiset(t)
    ensures |r| == |t| + 1
  {
    if |t| == 0 then [h]
    else if RatingOf(t[0]) > RatingOf(h) then
      assert t == [t[0]] + t[1..];
      [t[0]] + Insert(h, t[1..])
    else [h] + t
  }

  /** A rearrangement of `h` and `t` is rated no higher than a bound both
      respect. */
  lemma ElementsBounded(r: seq<ClientHotel>, h: ClientHotel, t: seq<ClientHotel>, bound: real)
    requires multiset(r) == multiset{h} + multiset(t)
    requires RatingOf(h) <= bound
    requires forall i | 0 <= i < |t| :: RatingOf(t[i]) <= bound
    ensures forall j | 0 <= j < |r| :: RatingOf(r[j]) <= bound
  {
    forall j | 0 <= j < |r|
      ensures RatingOf(r[j]) <= bound
    {
      assert r[j] in multiset(r);
      if r[j] != h {
        assert r[j] in multiset(t);
        var i :| 0 <= i < |t| && t[i] == r[j];
      }
    }
  }

  /** A hotel rated at least as high as every hotel of a sorted list can go
      in front of it. */
  lemma ConsSorted(x: ClientHotel, rest: seq<ClientHotel>)
    requires SortedByRating(rest)
    requires forall j | 0 <= j < |rest| :: RatingOf(rest[j]) <= RatingOf(x)
    ensures SortedByRating([x] + rest)
  {
    var r := [x] + rest;
    forall i, j | 0 <= i < j < |r|
      ensures RatingOf(r[i]) >= RatingOf(r[j])
    {
      assert r[j] == rest[j - 1];
      if i > 0 {
        assert r[i] == rest[i - 1];
      }
    }
  }

  /** Inserting into a list sorted by rating keeps it sorted. */
  lemma {:induction false} InsertSorted(h: ClientHotel, t: seq<ClientHotel>)
    requires SortedByRating(t)
    ensures SortedByRating(Insert(h, t))
  {
    if |t| > 0 {
      assert forall i | 0 <= i < |t[1..]| :: RatingOf(t[1..][i]) <= RatingOf(t[0]) by {
        forall i | 0 <= i < |t[1..]| ensures RatingOf(t[1..][i]) <= RatingOf(t[0]) {
          assert t[1..][i] == t[i + 1];
        }
      }
      if RatingOf(t[0]) > RatingOf(h) {
        var rest := Insert(h, t[1..]);
        InsertSorted(h, t[1..]);
        ElementsBounded(rest, h, t[1..], RatingOf(t[0]));
        ConsSorted(t[0], rest);
        assert Insert(h, t) == [t[0]] + rest;
      } else {
        assert forall j | 0 <= j < |t| :: RatingOf(t[j]) <= RatingOf(h) by {
          forall j | 0 <= j < |t| ensures RatingOf(t[j]) <= RatingOf(h) {
            if j > 0 {
              assert t[j] == t[1..][j - 1];
            }
          }
        }
        ConsSorted(h, t);
      }
    }
  }

  /** `filtered.sort((a, b) => (b.rating || 0) - (a.rating || 0))`: best rated
      first; the sort is stable, so equally rated hotels keep their order. */
  function SortByRating(s: seq<ClientHotel>): (r: seq<ClientHotel>)
    ensures multiset(r) == multiset(s)
    ensures SortedByRating(r)
  {
    if |s| == 0 then []
    else
      assert s == [s[0]] + s[1..];
      var rest := SortByRating(s[1..]);
      InsertSorted(s[0], rest);
      Insert(s[0], rest)
  }

  lemma {:induction false} InsertStable(h: ClientHotel, t: seq<ClientHotel>, k: real)
    ensures Filter(Insert(h, t), HasRating(k)) == (if RatingOf(h) == k then [h] else []) + Filter(t, HasRating(k))
  {
    if |t| > 0 && RatingOf(t[0]) > RatingOf(h) {
      InsertStable(h, t[1..], k);
      InsertStableStep(h, t, k);
    } else {
      assert Insert(h, t) == [h] + t;
      FilterConcat([h], t, HasRating(k));
    }
  }

  /** The step of `InsertStable` where `h` goes past the first hotel. */
  lemma InsertStableStep(h: ClientHotel, t: seq<ClientHotel>, k: real)
    requires |t| > 0 && RatingOf(t[0]) > RatingOf(h)
    requires Filter(Insert(h, t[1..]), HasRating(k)) == (if RatingOf(h) == k then [h] else []) + Filter(t[1..], HasRating(k))
    ensures Filter(Insert(h, t), HasRating(k)) == (if RatingOf(h) == k then [h] else []) + Filter(t, HasRating(k))
  {
    var p := HasRating(k);
    var fh: seq<ClientHotel> := if RatingOf(h) == k then [h] else [];
    var ft: seq<ClientHotel> := if p(t[0]) then [t[0]] else [];
    var rest := Filter(t[1..], p);
    InsertPasses(h, t);
    FilterCons(t[0], Insert(h, t[1..]), p);
    FilterFirst(t, p);
    assert ft == [] || fh == [];
    SwapEmpty(ft, fh, rest);
  }

  /** `h` goes past a first hotel rated higher. */
  lemma InsertPasses(h: ClientHotel, t: seq<ClientHotel>)
    requires |t| > 0 && RatingOf(t[0]) > RatingOf(h)
    ensures Insert(h, t) == [t[0]] + Insert(h, t[1..])
  {
  }

  /** Filtering a non-empty list, split at its first element. */
  lemma FilterFirst(t: seq<ClientHotel>, p: ClientHotel -> bool)
    requires |t| > 0
    ensures Filter(t, p) == (if p(t[0]) then [t[0]] else []) + Filter(t[1..], p)
  {
    assert t == [t[0]] + t[1..];
    FilterCons(t[0], t[1..], p);
  }

  lemma SwapEmpty(a: seq<ClientHotel>, b: seq<ClientHotel>, c: seq<ClientHotel>)
    requires a == [] || b == []
    ensures a + (b + c) == b + (a + c)
  {
    if a == [] {
      assert a + (b + c) == b + c && a + c == c;
    } else {
      assert b + c == c && b + (a + c) == a + c;
    }
  }

  /** The sort is stable: the hotels of any one rating appear in the result in
      the order they had before. */
  lemma {:induction false} SortStable(s: seq<ClientHotel>, k: real)
    ensures Filter(SortByRating(s), HasRating(k)) == Filter(s, HasRating(k))
  {
    if |s| > 0 {
      SortStable(s[1..], k);
      InsertStable(s[0], SortByRating(s[1..]), k);
    }
  }

  /** The hotels left after both filters, in the loaded order. */
  function ApplyFilters(hotels: seq<ClientHotel>, f: Filters): seq<ClientHotel> {
    var byCity := if CityActive(f) then Filter(hotels, CityFilter(f.city)) else hotels;
    if f.minRating > 0.0 then Filter(byCity, RatingFilter(f.minRating)) else byCity
  }

  /** `handleFilterChange`: the list shown after a change of the filters. */
  function HandleFilterChange(hotels: seq<ClientHotel>, f: Filters): (r: seq<ClientHotel>)
    ensures multiset(r) == multiset(ApplyFilters(hotels, f))
    ensures f.sortBy == "rating" ==> SortedByRating(r)
    ensures f.sortBy != "rating" ==> r == ApplyFilters(hotels, f)
    ensures !CityActive(f) && f.minRating <= 0.0 && f.sortBy != "rating" ==> r == hotels
  {
    var filtered := ApplyFilters(hotels, f);
    if f.sortBy == "rating" then SortByRating(filtered) else filtered
  }

  /** A hotel is shown exactly when it was loaded and passes every active
      filter. */
  lemma FilterMeaning(hotels: seq<ClientHotel>, f: Filters, h: ClientHotel)
    ensures h in HandleFilterChange(hotels, f) <==>
      h in hotels
      && (CityActive(f) ==> CityMatches(h, f.city))
      && (f.minRating > 0.0 ==> RatingOf(h) >= f.minRating)
  {
    var r := HandleFilterChange(hotels, f);
    assert h in r <==> multiset(r)[h] > 0;
    assert h in ApplyFilters(hotels, f) <==> multiset(ApplyFilters(hotels, f))[h] > 0;
    var byCity := if CityActive(f) then Filter(hotels, CityFilter(f.city)) else hotels;
    FilterMembers(hotels, CityFilter(f.city));
    FilterMembers(byCity, RatingFilter(f.minRating));
  }

  /** Without the rating sort the shown hotels keep their loaded order, and the
      two filters could be applied in one pass. */
  lemma OnePass(hotels: seq<ClientHotel>, f: Filters)
    requires CityActive(f) && f.minRating > 0.0 && f.sortBy != "rating"
    ensures HandleFilterChange(hotels, f) == Filter(hotels, BothFilters(f))
  {
    FilterFilter(hotels, CityFilter(f.city), RatingFilter(f.minRating));
    var joint := x => CityFilter(f.city)(x) && RatingFilter(f.minRating)(x);
    FilterSamePredicate(hotels, joint, BothFilters(f));
  }

  lemma {:induction false} FilterSamePredicate(s: seq<ClientHotel>, p: ClientHotel -> bool, q: ClientHotel -> bool)
    requires forall x :: p(x) == q(x)
    ensures Filter(s, p) == Filter(s, q)
  {
    if |s| > 0 {
      FilterSamePredicate(s[1..], p, q);
    }
  }

  /** Sorting by rating keeps, within each rating, the loaded order of the
      filtered hotels. */
  lemma SortKeepsTies(hotels: seq<ClientHotel>, f: Filters, k: real)
    requires f.sortBy == "rating"
    ensures Filter(HandleFilterChange(hotels, f), HasRating(k)) == Filter(ApplyFilters(hotels, f), HasRating(k))
  {
    SortStable(ApplyFilters(hotels, f), k);
  }
}

=== FILE: js_values.dfy ===
/** The JavaScript values the browser client passes around: responses whose
    shape the code probes field by field, the logged-in user object, router
    state. Numbers are integers here (ids, counts); `NaN` is not a value of
    this model. Arrays and objects are compared by content where JavaScript
    compares them by identity. */
module JsValues {
  import opened Wrappers
  import opened Text

  datatype JsVal =
    | Undef
    | Null
    | Bool(b: bool)
    | Num(n: int)
    | Str(s: string)
    | Arr(items: seq<JsVal>)
    | Obj(fields: map<string, JsVal>)

  /** JavaScript truthiness: `undefined`, `null`, `false`, `0` and `''` are falsy. */
  predicate Truthy(v: JsVal) {
    match v
    case Undef => false
    case Null => false
    case Bool(b) => b
    case Num(n) => n != 0
    case Str(s) => s != ""
    case Arr(_) => true
    case Obj(_) => true
  }

  predicate Nullish(v: JsVal) {
    v.Undef? || v.Null?
  }

  /** `a || b`: the left operand when it is truthy, else the right one. */
  function Or(a: JsVal, b: JsVal): (r: JsVal)
    ensures Truthy(a) ==> r == a
    ensures !Truthy(a) ==> r == b
    ensures Truthy(r) <==> Truthy(a) || Truthy(b)
  {
    if Truthy(a) then a else b
  }

  /** `v.key` on a value that is not `null`/`undefined`; a primitive or array has
      none of the keys the client reads. */
  function Field(v: JsVal, key: string): JsVal
    requires !Nullish(v)
  {
    if v.Obj? && key in v.fields then v.fields[key] else Undef
  }

  /** `v.key`: None is the `TypeError` thrown on `null`/`undefined`. */
  function Prop(v: JsVal, key: string): (r: Option<JsVal>)
    ensures r.None? <==> Nullish(v)
  {
    if Nullish(v) then None else Some(Field(v, key))
  }

  /** `v?.key`. */
  function OptProp(v: JsVal, key: string): (r: JsVal)
    ensures Nullish(v) ==> r == Undef
    ensures v.Obj? && key in v.fields ==> r == v.fields[key]
    ensures v.Obj? && key !in v.fields ==> r == Undef
  {
    if Nullish(v) then Undef else Field(v, key)
  }

  /** `a === b`. */
  predicate StrictEq(a: JsVal, b: JsVal) {
    a == b
  }

  /** The operands of `==` after a boolean has been converted to a number. */
  function BoolToNum(v: JsVal): JsVal {
    if v.Bool? then Num(if v.b then 1 else 0) else v
  }

  predicate LooseEqNoBool(a: JsVal, b: JsVal) {
    if Nullish(a) || Nullish(b) then Nullish(a) && Nullish(b)
    else if a.Num? && b.Str? then StringToNumber(b.s) == Some(a.n)
    else if a.Str? && b.Num? then StringToNumber(a.s) == Some(b.n)
    else if (a.Arr? || a.Obj?) != (b.Arr? || b.Obj?) then false
    else a == b
  }

  /** `a == b`, the abstract equality comparison: `null` and `undefined` equal each
      other and nothing else, a string is compared with a number by its numeric
      value, a boolean as 0 or 1. An object is never equal to a primitive here
      (its conversion to a primitive is not modelled). */
  predicate LooseEq(a: JsVal, b: JsVal) {
    LooseEqNoBool(BoolToNum(a), BoolToNum(b))
  }

  /** `==` is symmetric and contains `===`. */
  lemma LooseEqProperties(a: JsVal, b: JsVal)
    ensures LooseEq(a, b) <==> LooseEq(b, a)
    ensures StrictEq(a, b) ==> LooseEq(a, b)
  {
    if a == b && a.Str? {
      assert Trim(a.s) == "" || AllDigits(Trim(a.s)) || !AllDigits(Trim(a.s));
    }
  }

  /** `String(v)`, the conversion `localStorage.setItem` applies to its value. */
  function ToJsString(v: JsVal): string
    decreases v
  {
    match v
    case Undef => "undefined"
    case Null => "null"
    case Bool(b) => if b then "true" else "false"
    case Num(n) => IntToString(n)
    case Str(s) => s
    case Arr(items) => JoinItems(items)
    case Obj(_) => "[object Object]"
  }

  /** `Array.prototype.join(',')`: `null` and `undefined` items render empty. */
  function JoinItems(items: seq<JsVal>): string
    decreases items
  {
    if |items| == 0 then ""
    else
      var head := if Nullish(items[0]) then "" else ToJsString(items[0]);
      if |items| == 1 then head else head + "," + JoinItems(items[1..])
  }

  /** `Number(v)`; None is `NaN`. An array converts through its joined text, a
      plain object to `NaN`. */
  function ToNumber(v: JsVal): (r: Option<int>)
    ensures v.Num? ==> r == Some(v.n)
    ensures v.Str? ==> r == StringToNumber(v.s)
    ensures Nullish(v) ==> (r.None? <==> v.Undef?)
  {
    match v
    case Undef => None
    case Null => Some(0)
    case Bool(b) => Some(if b then 1 else 0)
    case Num(n) => Some(n)
    case Str(s) => StringToNumber(s)
    case Arr(items) => StringToNumber(JoinItems(items))
    case Obj(_) => None
  }
}

=== FILE: my_reservations.dfy ===
/** The "my reservations" page: how it reads the list the service returns,
    which hotels it fetches, the `hotelsMap` it builds from the answers, and
    the status chip of each card. */
module MyReservations {
  import opened Wrappers
  import opened JsValues

  /** `Array.isArray(resData) ? resData : (resData.content || [])`, then the
      list must be an array for `.map`; None stands for the `TypeError` either
      step throws. */
  function ReservationList(resData: JsVal): (r: Option<seq<JsVal>>)
    ensures resData.Arr? ==> r == Some(resData.items)
    ensures Nullish(resData) ==> r.None?
    ensures !resData.Arr? && !Nullish(resData) && !Truthy(Field(resData, "content")) ==> r == Some([])
    ensures !resData.Arr? && !Nullish(resData) && Field(resData, "content").Arr? ==>
      r == Some(Field(resData, "content").items)
    ensures r.None? <==> Nullish(resData) || (!resData.Arr? && Truthy(Field(resData, "content")) && !Field(resData, "content").Arr?)
  {
    if resData.Arr? then Some(resData.items)
    else if Nullish(resData) then None
    else
      var c := Or(Field(resData, "content"), Arr([]));
      if c.Arr? then Some(c.items) else None
  }

  /** `[...new Set(xs)]`: the distinct values, each once, starting with the
      first value. */
  function Dedupe(xs: seq<JsVal>): (r: seq<JsVal>)
    ensures forall x :: x in r <==> x in xs
    ensures |xs| > 0 ==> |r| > 0 && r[0] == xs[0]
    ensures forall i, j | 0 <= i < j < |r| :: r[i] != r[j]
    ensures |r| <= |xs|
  {
    if |xs| == 0 then []
    else
      var r := Dedupe(xs[..|xs| - 1]);
      assert forall x :: x in xs <==> x in xs[..|xs| - 1] || x == xs[|xs| - 1] by {
        assert xs == xs[..|xs| - 1] + [xs[|xs| - 1]];
      }
      if xs[|xs| - 1] in r then r else r + [xs[|xs| - 1]]
  }

  /** `list.map(r => r.hotelId)`; None for the `TypeError` of a `null` entry. */
  function HotelIds(list: seq<JsVal>): (r: Option<seq<JsVal>>)
    ensures r.Some? <==> forall i | 0 <= i < |list| :: !Nullish(list[i])
    ensures r.Some? ==> |r.value| == |list| && forall i | 0 <= i < |list| :: r.value[i] == Field(list[i], "hotelId")
  {
    if |list| == 0 then Some([])
    else if Nullish(list[0]) then None
    else
      var rest := HotelIds(list[1..]);
      if rest.None? then
        assert exists i | 0 < i < |list| :: Nullish(list[i]) by {
          var j :| 0 <= j < |list[1..]| && Nullish(list[1..][j]);
          assert Nullish(list[j + 1]);
        }
        None
      else Some([Field(list[0], "hotelId")] + rest.value)
  }

  /** The hotels to fetch are each of the list's hotel ids, once. */
  lemma HotelsToFetch(list: seq<JsVal>)
    requires HotelIds(list).Some?
    ensures var ids := Dedupe(HotelIds(list).value);
      && (forall i, j | 0 <= i < j < |ids| :: ids[i] != ids[j])
      && (forall x :: x in ids <==> exists i | 0 <= i < |list| :: Field(list[i], "hotelId") == x)
  {
    var hs := HotelIds(list).value;
    forall x
      ensures x in Dedupe(hs) <==> exists i | 0 <= i < |list| :: Field(list[i], "hotelId") == x
    {
      if x in hs {
        var i :| 0 <= i < |hs| && hs[i] == x;
        assert Field(list[i], "hotelId") == x;
      }
    }
  }

  /** The `hotelsMap` built from the answers: for each id in turn, when the
      fetch (`fetch(id)`, None for a rejected one) gave truthy data, the data is
      stored under the id's property key `String(id)`; a later id with the same
      key overwrites an earlier one. */
  method HotelsMap(ids: seq<JsVal>, fetch: JsVal -> Option<JsVal>) returns (m: map<string, JsVal>)
    ensures forall k :: k in m <==>
      exists i | 0 <= i < |ids| :: fetch(ids[i]).Some? && Truthy(fetch(ids[i]).value) && ToJsString(ids[i]) == k
    ensures forall k | k in m :: exists i | 0 <= i < |ids| :: fetch(ids[i]) == Some(m[k]) && ToJsString(ids[i]) == k
  {
    m := map[];
    var n := 0;
    while n < |ids|
      invariant 0 <= n <= |ids|
      invariant forall k :: k in m <==>
        exists i | 0 <= i < n :: fetch(ids[i]).Some? && Truthy(fetch(ids[i]).value) && ToJsString(ids[i]) == k
      invariant forall k | k in m :: exists i | 0 <= i < n :: fetch(ids[i]) == Some(m[k]) && ToJsString(ids[i]) == k
    {
      var data := fetch(ids[n]);
      if data.Some? && Truthy(data.value) {
        m := m[ToJsString(ids[n]) := data.value];
      }
      n := n + 1;
    }
  }

  /** What `loadData` leaves behind: nothing at all without a user; the list
      and the hotels to fetch when every step succeeds; otherwise the error
      message is shown, and `listShown` is the value `setReservations` was given
      before the failure, None when the failure came first. */
  datatype Loaded = Untouched | Loaded(reservations: seq<JsVal>, hotelsToFetch: seq<JsVal>) | LoadFailed(listShown: Option<JsVal>)

  /** `reservationList` before `.map` reads it: the array itself, else
      `resData.content || []`. */
  function ListValue(resData: JsVal): JsVal
    requires !Nullish(resData)
  {
    if resData.Arr? then resData else Or(Field(resData, "content"), Arr([]))
  }

  /** `loadData` given the reply of `getMyReservations` (a Failure for a
      rejected call). */
  function LoadData(user: JsVal, reply: Result<JsVal, JsVal>): (r: Loaded)
    ensures r == Untouched <==> !Truthy(user)
    ensures Truthy(user) && (reply.Failure? || Nullish(reply.value)) ==> r == LoadFailed(None)
    ensures Truthy(user) && reply.Success? ==>
      var list := ReservationList(reply.value);
      && (list.Some? && HotelIds(list.value).Some? ==> r == Loaded(list.value, Dedupe(HotelIds(list.value).value)))
      && (list.Some? && HotelIds(list.value).None? ==> r == LoadFailed(Some(Arr(list.value))))
      && (list.None? && !Nullish(reply.value) ==> r == LoadFailed(Some(Field(reply.value, "content"))))
    ensures r.Loaded? <==>
      && Truthy(user) && reply.Success? && ReservationList(reply.value).Some?
      && HotelIds(ReservationList(reply.value).value).Some?
  {
    if !Truthy(user) then Untouched
    else if reply.Failure? || Nullish(reply.value) then LoadFailed(None)
    else
      var shown := ListValue(reply.value);
      var list := ReservationList(reply.value);
      if list.None? then LoadFailed(Some(shown))
      else
        var ids := HotelIds(list.value);
        if ids.None? then LoadFailed(Some(shown))
        else Loaded(list.value, Dedupe(ids.value))
  }

  const ErrorText: string := "Impossible de charger vos réservations."

  /** The chip colour: 'error' exactly for a CANCELLED status. */
  function ChipColor(status: JsVal): (c: string)
    ensures c == "error" <==> StrictEq(status, Str("CANCELLED"))
    ensures c != "error" ==> c == "success"
  {
    if StrictEq(status, Str("CANCELLED")) then "error" else "success"
  }

  /** The chip label: the status, or 'Confirmé' when it is missing or empty. */
  function ChipLabel(status: JsVal): (l: JsVal)
    ensures Truthy(l)
    ensures Truthy(status) ==> l == status
    ensures !Truthy(status) ==> l == Str("Confirmé")
  {
    Or(status, Str("Confirmé"))
  }

  /** A reservation without a status is labelled 'Confirmé' yet coloured as a
      success, like a confirmed one; only a CANCELLED status is shown red. */
  lemma MissingStatusLooksConfirmed(status: JsVal)
    requires !Truthy(status)
    ensures ChipLabel(status) == Str("Confirmé") && ChipColor(status) == "success"
  {
  }
}

=== FILE: payment_entity.dfy ===
/** The `payments` row of the payment service and its persistence hooks. */
module PaymentEntity {
  import opened Wrappers
  import opened Text

  datatype Payment = Payment(
    id: Option<int>,
    reservationId: Option<int>,
    amount: Option<real>,
    paymentMethod: Option<string>,
    transactionId: Option<string>,
    status: Option<string>,
    cardNumber: Option<string>,
    cardHolderName: Option<string>,
    expiryDate: Option<string>,
    createdAt: Option<int>,
    updatedAt: Option<int>)

  const Pending: string := "PENDING"
  const Completed: string := "COMPLETED"
  const Failed: string := "FAILED"
  const Refunded: string := "REFUNDED"

  /** The statuses the column documents. */
  predicate KnownStatus(s: string) {
    s == Pending || s == Completed || s == Failed || s == Refunded
  }

  /** `new Payment()`. */
  function NewPayment(): Payment {
    Payment(None, None, None, None, None, None, None, None, None, None, None)
  }

  /** The transaction id generated at `millis` since the epoch. */
  function TransactionId(millis: nat): (t: string)
    ensures |t| > 4 && t[..4] == "TXN-" && AllDigits(t[4..])
  {
    "TXN-" + Decimal(millis)
  }

  /** `@PrePersist onCreate`: both timestamps become `now`; a missing status
      becomes PENDING and a missing transaction id `TXN-<millis>`; present ones
      are kept, and the amount, reservation, method and card fields are not
      touched. */
  function OnCreate(p: Payment, now: int, millis: nat): (c: Payment)
    ensures c.createdAt == Some(now) && c.updatedAt == Some(now)
    ensures c.status == (if p.status.None? then Some(Pending) else p.status)
    ensures c.transactionId == (if p.transactionId.None? then Some(TransactionId(millis)) else p.transactionId)
    ensures c.(createdAt := p.createdAt, updatedAt := p.updatedAt, status := p.status, transactionId := p.transactionId) == p
    ensures c.amount == p.amount && c.reservationId == p.reservationId && c.paymentMethod == p.paymentMethod
  {
    p.(createdAt := Some(now), updatedAt := Some(now),
       status := if p.status.None? then Some(Pending) else p.status,
       transactionId := if p.transactionId.None? then Some(TransactionId(millis)) else p.transactionId)
  }

  /** `@PreUpdate onUpdate`: only `updatedAt` moves. */
  function OnUpdate(p: Payment, now: int): (u: Payment)
    ensures u.updatedAt == Some(now)
    ensures u.(updatedAt := p.updatedAt) == p
  {
    p.(updatedAt := Some(now))
  }
}

=== FILE: payment_page.dfy ===
/** The payment page of the client: the live formatting of the card fields,
    the month and year selects of the expiry date, and `handlePayment`, which
    creates the reservation and then asks for the payment. The page state
    `paymentInfo` is a map from field name to text. */
module PaymentPage {
  import opened Wrappers
  import opened Text
  import opened JsValues

  /** `.replace(/(\d{4})/g, '$1 ')`: a left-to-right scan that copies a run of
      four digits followed by a space and resumes after it, and copies any
      other character as it is. */
  function GroupDigits(w: string): (r: string)
    ensures |r| >= |w|
    decreases |w|
  {
    if |w| >= 4 && AllDigits(w[..4]) then w[..4] + " " + GroupDigits(w[4..])
    else if |w| == 0 then ""
    else [w[0]] + GroupDigits(w[1..])
  }

  /** The card number as the field shows it: whitespace removed, a space after
      every four digits, then trimmed. */
  function FormatCard(value: string): string {
    Trim(GroupDigits(StripWhitespace(value)))
  }

  /** Grouping only inserts whitespace. */
  lemma {:induction false} GroupStrip(w: string)
    requires NoWhitespace(w)
    ensures StripWhitespace(GroupDigits(w)) == w
    decreases |w|
  {
    if |w| >= 4 && AllDigits(w[..4]) {
      var head := w[..4];
      assert NoWhitespace(head) by {
        forall i | 0 <= i < 4 ensures !IsWhitespace(head[i]) {
          assert head[i] == w[i];
        }
      }
      GroupStrip(w[4..]);
      StripGroup(head, GroupDigits(w[4..]));
      assert head + w[4..] == w;
    } else if |w| > 0 {
      StripConcat([w[0]], GroupDigits(w[1..]));
      GroupStrip(w[1..]);
      assert [w[0]] + w[1..] == w;
    }
  }

  /** Removing whitespace from a group, its space and what follows keeps the
      group. */
  lemma StripGroup(head: string, rest: string)
    requires NoWhitespace(head)
    ensures StripWhitespace(head + " " + rest) == head + StripWhitespace(rest)
  {
    assert StripWhitespace(" ") == "" by {
      assert IsWhitespace(" "[0]) && " "[1..] == "";
    }
    StripConcat(head, " ");
    assert StripWhitespace(head + " ") == head;
    StripConcat(head + " ", rest);
  }

  /** Removing the spaces from the formatted card number gives back the
      whitespace-free input. */
  lemma CardStrip(value: string)
    ensures StripWhitespace(FormatCard(value)) == StripWhitespace(value)
  {
    StripTrim(GroupDigits(StripWhitespace(value)));
    GroupStrip(StripWhitespace(value));
  }

  /** Formatting a formatted card number changes nothing. */
  lemma CardIdempotent(value: string)
    ensures FormatCard(FormatCard(value)) == FormatCard(value)
  {
    CardStrip(value);
  }

  /** On digits, grouping adds one space per full group of four, the last
      character is that space when the groups are full, and the character at
      `5 * k` is the digit that starts group `k`. */
  lemma {:induction false} GroupLength(w: string)
    requires AllDigits(w)
    ensures |GroupDigits(w)| == |w| + |w| / 4
    ensures |w| > 0 && |w| % 4 == 0 ==> GroupDigits(w)[|GroupDigits(w)| - 1] == ' '
    decreases |w|
  {
    if |w| >= 4 {
      GroupLength(w[4..]);
    } else if |w| > 0 {
      GroupLength(w[1..]);
    }
  }

  lemma {:induction false} GroupDigitAt(w: string, k: nat)
    requires AllDigits(w) && |w| >= 4 * k + 1
    ensures 5 * k < |GroupDigits(w)| && IsDigit(GroupDigits(w)[5 * k])
    decreases k
  {
    if k > 0 {
      GroupDigitAt(w[4..], k - 1);
      var x := GroupDigits(w);
      assert x == w[..4] + " " + GroupDigits(w[4..]);
      assert x[5 * k] == GroupDigits(w[4..])[5 * (k - 1)];
    } else if |w| >= 4 {
      assert GroupDigits(w)[0] == w[0];
    } else {
      assert GroupDigits(w)[0] == w[0];
    }
  }

  /** A trimmed string that starts with a non-whitespace character is only
      trimmed at the end. */
  lemma TrimFromDigit(x: string)
    requires |x| > 0 && !IsWhitespace(x[0])
    ensures Trim(x) == TrimEnd(x)
  {
  }

  /** Seventeen digits or more format to more than 19 characters. */
  lemma LongCard(w: string)
    requires AllDigits(w) && |w| >= 17
    ensures |Trim(GroupDigits(w))| > 19
  {
    var x := GroupDigits(w);
    GroupDigitAt(w, 0);
    GroupDigitAt(w, 4);
    TrimFromDigit(x);
    TrimEndKeeps(x, 20);
  }

  /** Sixteen digits or fewer format to at most 19 characters. */
  lemma ShortCard(w: string)
    requires AllDigits(w) && |w| <= 16
    ensures |Trim(GroupDigits(w))| <= 19
  {
    var x := GroupDigits(w);
    GroupLength(w);
    if |w| == 16 {
      GroupDigitAt(w, 0);
      TrimFromDigit(x);
      assert |x| == 20;
      assert IsWhitespace(x[|x| - 1]);
      assert TrimEnd(x) == TrimEnd(x[..|x| - 1]);
    }
  }

  /** For a card typed as digits the `> 19` guard accepts exactly the numbers
      of at most 16 digits. */
  lemma CardLengthBound(value: string)
    requires AllDigits(StripWhitespace(value))
    ensures |FormatCard(value)| <= 19 <==> |StripWhitespace(value)| <= 16
  {
    var w := StripWhitespace(value);
    if |w| >= 17 {
      LongCard(w);
    } else {
      ShortCard(w);
    }
  }

  /** The expiry date as the field shows it: digits only, and a slash after the
      first two when there are at least two. */
  function FormatExpiry(value: string): (r: string)
    ensures |r| <= 5
    ensures var d := KeepDigits(value);
      && KeepDigits(r) == Slice(d, 0, 4)
      && (|d| >= 2 ==> |r| >= 3 && r[2] == '/')
      && (|d| < 2 ==> r == d)
  {
    var d := KeepDigits(value);
    if |d| >= 2 then
      var r := Slice(d, 0, 2) + "/" + Slice(d, 2, 4);
      assert KeepDigits(r) == Slice(d, 0, 4) by {
        StripDigitsConcat(Slice(d, 0, 2), "/", Slice(d, 2, 4));
        assert Slice(d, 0, 2) + Slice(d, 2, 4) == Slice(d, 0, 4);
      }
      r
    else d
  }

  /** Keeping digits works piece by piece, and drops a slash. */
  lemma StripDigitsConcat(a: string, slash: string, b: string)
    requires AllDigits(a) && AllDigits(b) && slash == "/"
    ensures KeepDigits(a + slash + b) == a + b
  {
    KeepDigitsConcat(a + slash, b);
    KeepDigitsConcat(a, slash);
  }

  lemma {:induction false} KeepDigitsConcat(a: string, b: string)
    ensures KeepDigits(a + b) == KeepDigits(a) + KeepDigits(b)
    decreases |a|
  {
    if |a| > 0 {
      assert (a + b)[0] == a[0] && (a + b)[1..] == a[1..] + b;
      KeepDigitsConcat(a[1..], b);
    } else {
      assert a + b == b;
    }
  }

  /** The CVV as the field shows it: its first three digits. */
  function FormatCvv(value: string): (r: string)
    ensures AllDigits(r) && |r| <= 3
    ensures |r| <= |KeepDigits(value)| && r == KeepDigits(value)[..|r|]
    ensures |KeepDigits(value)| <= 3 ==> r == KeepDigits(value)
    ensures |r| == if |KeepDigits(value)| < 3 then |KeepDigits(value)| else 3
  {
    Slice(KeepDigits(value), 0, 3)
  }

  /** Formatting the CVV field again leaves it as it is. */
  lemma CvvIdempotent(value: string)
    ensures FormatCvv(FormatCvv(value)) == FormatCvv(value)
  {
  }

  /** The value `handleInputChange` stores for the field `name`, or None when
      the card number would exceed 19 characters and the edit is ignored. */
  function FormatField(name: string, value: string): (r: Option<string>)
    ensures r.None? <==> name == "cardNumber" && |FormatCard(value)| > 19
    ensures name == "cardNumber" && r.Some? ==> r.value == FormatCard(value)
    ensures name == "expiryDate" ==> r == Some(FormatExpiry(value))
    ensures name == "cvv" ==> r == Some(FormatCvv(value))
    ensures name != "cardNumber" && name != "expiryDate" && name != "cvv" ==> r == Some(value)
  {
    if name == "cardNumber" then
      var f := FormatCard(value);
      if |f| > 19 then None else Some(f)
    else if name == "expiryDate" then Some(FormatExpiry(value))
    else if name == "cvv" then Some(FormatCvv(value))
    else Some(value)
  }

  type PaymentInfo = map<string, string>

  /** The state the page starts with: four empty fields. */
  const InitialInfo: PaymentInfo :=
    map["cardNumber" := "", "cardHolder" := "", "expiryDate" := "", "cvv" := ""]

  /** `handleInputChange`: an edit writes only the named field, or nothing when
      the card guard rejects it. */
  function InputChange(info: PaymentInfo, name: string, value: string): (r: PaymentInfo)
    ensures forall k | k in info && k != name :: k in r && r[k] == info[k]
    ensures r.Keys <= info.Keys + {name}
    ensures FormatField(name, value).None? ==> r == info
    ensures FormatField(name, value).Some? ==> name in r && r[name] == FormatField(name, value).value
  {
    var f := FormatField(name, value);
    if f.None? then info else info[name := f.value]
  }

  /** A card number typed as digits is stored exactly when it has at most 16
      digits, and the stored text holds those digits and nothing else but
      spaces. */
  lemma CardFieldAccepted(info: PaymentInfo, value: string)
    requires AllDigits(StripWhitespace(value))
    ensures |StripWhitespace(value)| > 16 ==> InputChange(info, "cardNumber", value) == info
    ensures |StripWhitespace(value)| <= 16 ==>
      && InputChange(info, "cardNumber", value) == info["cardNumber" := FormatCard(value)]
      && StripWhitespace(InputChange(info, "cardNumber", value)["cardNumber"]) == StripWhitespace(value)
  {
    CardEdit(info, value);
    CardLengthBound(value);
    CardStrip(value);
    if |StripWhitespace(value)| <= 16 {
      var f := FormatCard(value);
      assert info["cardNumber" := f]["cardNumber"] == f;
    }
  }

  /** A card-number edit stores the formatted text, unless it is too long. */
  lemma CardEdit(info: PaymentInfo, value: string)
    ensures |FormatCard(value)| > 19 ==> InputChange(info, "cardNumber", value) == info
    ensures |FormatCard(value)| <= 19 ==> InputChange(info, "cardNumber", value) == info["cardNumber" := FormatCard(value)]
  {
  }

  /** `expiryDate.split('/')[0] || ''` and `expiryDate.split('/')[1] || ''`. */
  function ExpiryMonth(expiry: string): (m: string)
    ensures '/' !in m
  {
    Segment(expiry, '/', 0).GetOr("")
  }

  function ExpiryYear(expiry: string): (y: string)
    ensures '/' !in y
  {
    Segment(expiry, '/', 1).GetOr("")
  }

  /** `e.target.value.substring(2)`. */
  function YearShort(year: string): (s: string)
    ensures |year| == 4 ==> s == year[2..4]
  {
    if |year| >= 2 then year[2..] else ""
  }

  /** The month select: the chosen month, a slash, and the year part kept. */
  function SelectMonth(info: PaymentInfo, month: string): (r: PaymentInfo)
    requires "expiryDate" in info
    ensures r.Keys == info.Keys
    ensures forall k | k in info && k != "expiryDate" :: r[k] == info[k]
  {
    info["expiryDate" := month + "/" + ExpiryYear(info["expiryDate"])]
  }

  /** The year select: the month part kept, a slash, and the chosen year
      without its first two characters. */
  function SelectYear(info: PaymentInfo, year: string): (r: PaymentInfo)
    requires "expiryDate" in info
    ensures r.Keys == info.Keys
    ensures forall k | k in info && k != "expiryDate" :: r[k] == info[k]
  {
    info["expiryDate" := ExpiryMonth(info["expiryDate"]) + "/" + YearShort(year)]
  }

  /** Choosing a month shows that month and keeps the year part. */
  lemma SelectMonthKeepsYear(info: PaymentInfo, month: string)
    requires "expiryDate" in info && '/' !in month
    ensures var e := SelectMonth(info, month)["expiryDate"];
      ExpiryMonth(e) == month && ExpiryYear(e) == ExpiryYear(info["expiryDate"])
  {
    SplitPair(month, ExpiryYear(info["expiryDate"]), '/');
  }

  /** Choosing a year keeps the month part and stores the year without its
      first two characters — the last two of a four-character year. */
  lemma SelectYearKeepsMonth(info: PaymentInfo, year: string)
    requires "expiryDate" in info && '/' !in year
    ensures var e := SelectYear(info, year)["expiryDate"];
      ExpiryMonth(e) == ExpiryMonth(info["expiryDate"]) && ExpiryYear(e) == YearShort(year)
    ensures |year| == 4 ==> ExpiryYear(SelectYear(info, year)["expiryDate"]) == year[2..]
  {
    var short := YearShort(year);
    assert '/' !in short;
    SplitPair(ExpiryMonth(info["expiryDate"]), short, '/');
  }

  /** The errors `handlePayment` throws itself. */
  datatype PageError =
    | NoIdReturned
    | InvalidReservationId(id: JsVal)
    | InvalidAmount(totalPrice: JsVal)

  function PageErrorText(e: PageError): string {
    match e
    case NoIdReturned => "Réservation créée mais aucun ID retourné"
    case InvalidReservationId(id) => "ID de réservation invalide: " + ToJsString(id)
    case InvalidAmount(p) => "Montant invalide: " + ToJsString(p)
  }

  /** The message shown for a failed request:
      `err.response?.data?.message || err.message || 'Erreur lors du paiement'`. */
  function ErrorMessage(err: JsVal): JsVal {
    Or(OptProp(OptProp(OptProp(err, "response"), "data"), "message"),
       Or(OptProp(err, "message"), Str("Erreur lors du paiement")))
  }

  /** Where `handlePayment` ends. */
  datatype PaymentOutcome =
    | BackToHotels
    | ShowPageError(error: PageError)
    | ShowServerError(message: JsVal)
    | ShowTypeError
    | RedirectToApproval(url: JsVal)
    | GoToSuccess(reservation: JsVal, payment: JsVal, paymentAmount: JsVal)

  /** The two requests the page sends, and where it ends. */
  datatype PaymentRun = PaymentRun(
    reservationRequest: Option<map<string, JsVal>>,
    paymentRequest: Option<(int, real)>,
    outcome: PaymentOutcome)

  const ReservationFields: set<string> :=
    {"userId", "hotelId", "roomId", "checkIn", "checkOut", "firstName", "lastName",
     "email", "phone", "specialRequests", "totalPrice"}

  /** The body of `createReservation`: the eleven booking fields copied from the
      router state. */
  function ReservationRequestOf(data: JsVal): (r: map<string, JsVal>)
    requires !Nullish(data)
    ensures r.Keys == ReservationFields
    ensures forall k | k in r :: r[k] == Field(data, k)
  {
    map k | k in ReservationFields :: Field(data, k)
  }

  /** `reservationResponse.id || reservationResponse.reservationId`. */
  function ResponseId(resp: JsVal): JsVal
    requires !Nullish(resp)
  {
    Or(Field(resp, "id"), Field(resp, "reservationId"))
  }

  /** The conditions under which the payment request is sent: the reservation
      was created, its reply names a truthy id whose `Number` is neither 0 nor
      `NaN`, and the amount is a positive number. */
  predicate PaymentAllowed(created: Result<JsVal, JsVal>, amount: Option<real>) {
    && created.Success? && !Nullish(created.value)
    && Truthy(ResponseId(created.value))
    && ToNumber(ResponseId(created.value)).Some? && ToNumber(ResponseId(created.value)).value != 0
    && amount.Some? && amount.value > 0.0
  }

  /** `handlePayment`. `data` is `location.state?.reservationData`; `created` and
      `paid` are the replies of the reservation and payment services (a value or
      the error thrown); `amount` is `Number(data.totalPrice)`, None for `NaN`.
      Without data the page goes back to the hotel list and sends nothing; with
      it the reservation is always requested first, and the payment only once
      the reply's id and the amount have passed their checks. */
  function HandlePayment(data: JsVal, created: Result<JsVal, JsVal>, amount: Option<real>, paid: Result<JsVal, JsVal>)
    : (run: PaymentRun)
    ensures run.reservationRequest.None? <==> !Truthy(data)
    ensures Truthy(data) ==> run.reservationRequest == Some(ReservationRequestOf(data))
    ensures run.paymentRequest.Some? <==> Truthy(data) && PaymentAllowed(created, amount)
    ensures run.paymentRequest.Some? ==>
      run.paymentRequest.value == (ToNumber(ResponseId(created.value)).value, amount.value)
    ensures Truthy(data) && created.Failure? ==> run.outcome == ShowServerError(ErrorMessage(created.error))
    ensures Truthy(data) && created.Success? && !Nullish(created.value) && !Truthy(ResponseId(created.value))
      ==> run.outcome == ShowPageError(NoIdReturned)
    ensures run.outcome.GoToSuccess? || run.outcome.RedirectToApproval? ==>
      run.paymentRequest.Some? && paid.Success?
    ensures run.outcome.RedirectToApproval? ==> Truthy(run.outcome.url)
  {
    if !Truthy(data) then PaymentRun(None, None, BackToHotels)
    else
      var request := Some(ReservationRequestOf(data));
      if created.Failure? then PaymentRun(request, None, ShowServerError(ErrorMessage(created.error)))
      else if Nullish(created.value) then PaymentRun(request, None, ShowTypeError)
      else
        var id := ResponseId(created.value);
        if !Truthy(id) then PaymentRun(request, None, ShowPageError(NoIdReturned))
        else
          var n := ToNumber(id);
          if n.None? || n.value == 0 then PaymentRun(request, None, ShowPageError(InvalidReservationId(id)))
          else if amount.None? || amount.value <= 0.0 then
            PaymentRun(request, None, ShowPageError(InvalidAmount(Field(data, "totalPrice"))))
          else
            var payment := Some((n.value, amount.value));
            if paid.Failure? then PaymentRun(request, payment, ShowServerError(ErrorMessage(paid.error)))
            else if Nullish(paid.value) then PaymentRun(request, payment, ShowTypeError)
            else if Truthy(Field(paid.value, "approvalUrl")) then
              PaymentRun(request, payment, RedirectToApproval(Field(paid.value, "approvalUrl")))
            else PaymentRun(request, payment, GoToSuccess(created.value, paid.value, Field(data, "totalPrice")))
  }

  /** A reservation whose reply carries a string id is paid under the number
      that string spells. */
  lemma StringIdPaid(data: JsVal, digits: string, amount: real, paid: Result<JsVal, JsVal>)
    requires Truthy(data) && |digits| > 0 && AllDigits(digits) && DigitsValue(digits) != 0 && amount > 0.0
    ensures var created := Success(Obj(map["id" := Str(digits)]));
      HandlePayment(data, created, Some(amount), paid).paymentRequest == Some((DigitsValue(digits), amount))
  {
    TextIdAllowed(digits, amount);
    AllowedIdPaid(data, Success(Obj(map["id" := Str(digits)])), amount, paid, DigitsValue(digits));
  }

  /** A reply `{id: text}` names that text as its id. */
  lemma TextIdReply(text: string)
    requires text != ""
    ensures ResponseId(Obj(map["id" := Str(text)])) == Str(text)
  {
    assert Field(Obj(map["id" := Str(text)]), "id") == Str(text);
  }

  /** `Number` of a run of digits is the number they spell. */
  lemma DigitsNumber(digits: string)
    requires |digits| > 0 && AllDigits(digits)
    ensures ToNumber(Str(digits)) == Some(DigitsValue(digits))
  {
    assert StringToNumber(digits) == Some(DigitsValue(digits));
  }

  /** A reply `{id: digits}` spelling a non-zero number passes the checks for
      a positive amount. */
  lemma TextIdAllowed(digits: string, amount: real)
    requires |digits| > 0 && AllDigits(digits) && DigitsValue(digits) != 0 && amount > 0.0
    ensures PaymentAllowed(Success(Obj(map["id" := Str(digits)])), Some(amount))
    ensures ToNumber(ResponseId(Obj(map["id" := Str(digits)]))) == Some(DigitsValue(digits))
  {
    TextIdReply(digits);
    DigitsNumber(digits);
  }

  /** Once the checks pass, the payment is requested under the reply's id. */
  lemma AllowedIdPaid(data: JsVal, created: Result<JsVal, JsVal>, amount: real, paid: Result<JsVal, JsVal>, id: int)
    requires Truthy(data) && PaymentAllowed(created, Some(amount)) && ToNumber(ResponseId(created.value)) == Some(id)
    ensures HandlePayment(data, created, Some(amount), paid).paymentRequest == Some((id, amount))
  {
  }
}

=== FILE: payment_request.dfy ===
/** `CreatePaymentRequest`, the body of a payment: plain properties, and a
    `toString` that leaves the card data out. Its getters and setters are the
    datatype's fields and updates. */
module PaymentRequest {
  import opened Wrappers
  import opened Text

  datatype CreatePaymentRequest = CreatePaymentRequest(
    reservationId: Option<int>,
    amount: Option<real>,
    paymentMethod: Option<string>,
    cardNumber: Option<string>,
    cardHolderName: Option<string>,
    cvv: Option<string>,
    expiryDate: Option<string>)

  /** The request as `toString` writes it; `amountText` is Java's rendering of
      a `Double`. */
  function ToString(r: CreatePaymentRequest, amountText: real -> string): string {
    IdPart(r) + AmountPart(r, amountText) + MethodPart(r) + HolderPart(r) + "}"
  }

  function IdPart(r: CreatePaymentRequest): string {
    "PaymentRequest{reservationId=" + JavaLong(r.reservationId)
  }

  function AmountPart(r: CreatePaymentRequest, amountText: real -> string): string {
    ", amount=" + (if r.amount.None? then "null" else amountText(r.amount.value))
  }

  function MethodPart(r: CreatePaymentRequest): string {
    ", paymentMethod='" + JavaString(r.paymentMethod) + "'"
  }

  function HolderPart(r: CreatePaymentRequest): string {
    ", cardHolderName='" + JavaString(r.cardHolderName) + "'"
  }

  /** The text shows the reservation, the amount, the method and the holder,
      each after its label. */
  lemma ToStringShows(r: CreatePaymentRequest, amountText: real -> string)
    ensures Contains(ToString(r, amountText), "PaymentRequest{reservationId=" + JavaLong(r.reservationId))
    ensures r.amount.Some? ==> Contains(ToString(r, amountText), ", amount=" + amountText(r.amount.value))
    ensures Contains(ToString(r, amountText), ", paymentMethod='" + JavaString(r.paymentMethod) + "'")
    ensures Contains(ToString(r, amountText), ", cardHolderName='" + JavaString(r.cardHolderName) + "'")
  {
    FourParts(IdPart(r), AmountPart(r, amountText), MethodPart(r), HolderPart(r), "}");
  }

  /** Each of four consecutive parts occurs in their concatenation. */
  lemma FourParts(a: string, b: string, c: string, d: string, e: string)
    ensures Contains(a + b + c + d + e, a) && Contains(a + b + c + d + e, b)
    ensures Contains(a + b + c + d + e, c) && Contains(a + b + c + d + e, d)
  {
    var t := a + b + c + d + e;
    assert t == [] + a + (b + c + d + e);
    ContainsInfix([], a, b + c + d + e);
    assert t == a + b + (c + d + e);
    ContainsInfix(a, b, c + d + e);
    assert t == a + b + c + (d + e);
    ContainsInfix(a + b, c, d + e);
    ContainsInfix(a + b + c, d, e);
  }

  /** The card number, the CVV and the expiry date never reach the text:
      requests that differ only in them print the same. */
  lemma ToStringRedacts(r: CreatePaymentRequest, card: Option<string>, cvv: Option<string>, expiry: Option<string>,
                        amountText: real -> string)
    ensures ToString(r.(cardNumber := card, cvv := cvv, expiryDate := expiry), amountText) == ToString(r, amountText)
  {
  }
}

=== FILE: payment_service.dfy ===
/** `PaymentService`: payments kept in a map keyed by id, created by
    `processPayment` after its validations, looked up by id or by reservation,
    and refunded. `Math.random() > 0.05` is the boolean `approved` the caller
    chooses; the clock is the `now`/`millis` parameters. */
module PaymentService {
  import opened Wrappers
  import opened PaymentEntity
  import opened PaymentRequest

  /** The `payments` table and the next identity value. */
  datatype PaymentStore = PaymentStore(payments: map<int, Payment>, nextId: nat)

  /** The exceptions of the service, each with its message. */
  datatype PaymentError =
    | AmountNotPositive
    | ReservationIdRequired
    | AlreadyPaid
    | PaymentNotFound
    | NoPaymentForReservation
    | OnlyCompletedRefundable
    | DuplicateTransaction

  function Message(e: PaymentError): string {
    match e
    case AmountNotPositive => "Le montant doit être supérieur à 0"
    case ReservationIdRequired => "L'ID de réservation est requis"
    case AlreadyPaid => "Un paiement existe déjà pour cette réservation"
    case PaymentNotFound => "Paiement non trouvé"
    case NoPaymentForReservation => "Aucun paiement trouvé pour cette réservation"
    case OnlyCompletedRefundable => "Seuls les paiements complétés peuvent être remboursés"
    case DuplicateTransaction => "duplicate transaction_id"
  }

  const DefaultMethod: string := "CREDIT_CARD"
  const MaskPrefix: string := "**** **** **** "

  /** What the table guarantees of every row: its key is its id, below the next
      identity value; the non-null columns are set; the status is one of the
      documented ones; transaction ids are unique; and no two rows belong to
      the same reservation. */
  predicate ValidPayments(s: PaymentStore) {
    && (forall k | k in s.payments ::
          && 0 <= k < s.nextId
          && s.payments[k].id == Some(k)
          && s.payments[k].reservationId.Some?
          && s.payments[k].transactionId.Some?
          && s.payments[k].status.Some? && KnownStatus(s.payments[k].status.value))
    && (forall j, k | j in s.payments && k in s.payments && j != k ::
          && s.payments[j].reservationId != s.payments[k].reservationId
          && s.payments[j].transactionId != s.payments[k].transactionId)
  }

  /** `findByReservationId(rid).isPresent()`. */
  predicate HasPaymentFor(s: PaymentStore, rid: int) {
    exists k | k in s.payments :: s.payments[k].reservationId == Some(rid)
  }

  /** Some row already carries the transaction id `t`. */
  predicate TransactionTaken(s: PaymentStore, t: Option<string>) {
    exists k | k in s.payments :: s.payments[k].transactionId == t
  }

  /** The stored form of a card number: only its last four characters, behind a
      fixed mask, and nothing at all when it is shorter than four. */
  function Mask(card: Option<string>): (m: Option<string>)
    ensures m.Some? <==> card.Some? && |card.value| >= 4
    ensures m.Some? ==>
      && |m.value| == 19 && m.value[..15] == MaskPrefix
      && m.value[15..] == card.value[|card.value| - 4..]
  {
    if card.Some? && |card.value| >= 4 then Some(MaskPrefix + card.value[|card.value| - 4..]) else None
  }

  /** The mask keeps nothing of the card but its last four characters: two cards
      ending alike are stored alike. */
  lemma MaskForgets(a: string, b: string)
    requires |a| >= 4 && |b| >= 4 && a[|a| - 4..] == b[|b| - 4..]
    ensures Mask(Some(a)) == Mask(Some(b))
  {
  }

  /** `simulatePaymentProcessing`: a card shorter than 13 characters or a CVV not
      3 long always fails; otherwise the outcome is the random draw. */
  function Simulate(r: CreatePaymentRequest, approved: bool): (ok: bool)
    ensures r.cardNumber.None? || |r.cardNumber.value| < 13 ==> !ok
    ensures r.cvv.None? || |r.cvv.value| != 3 ==> !ok
    ensures !approved ==> !ok
  {
    if r.cardNumber.None? || |r.cardNumber.value| < 13 then false
    else if r.cvv.None? || |r.cvv.value| != 3 then false
    else approved
  }

  /** A card of at least 13 characters with a 3-character CVV is settled by the
      random draw alone: both outcomes are possible. */
  lemma SimulateChoice(r: CreatePaymentRequest)
    requires r.cardNumber.Some? && |r.cardNumber.value| >= 13 && r.cvv.Some? && |r.cvv.value| == 3
    ensures Simulate(r, true) && !Simulate(r, false)
  {
  }

  /** The payment `processPayment` builds before saving it. */
  function Draft(r: CreatePaymentRequest, approved: bool): (p: Payment)
    ensures p.reservationId == r.reservationId && p.amount == r.amount
    ensures p.paymentMethod == Some(if r.paymentMethod.None? then DefaultMethod else r.paymentMethod.value)
    ensures p.cardNumber == Mask(r.cardNumber)
    ensures p.cardHolderName == r.cardHolderName && p.expiryDate == r.expiryDate
    ensures p.status == Some(if Simulate(r, approved) then Completed else Failed)
    ensures p.id.None? && p.transactionId.None? && p.createdAt.None? && p.updatedAt.None?
  {
    NewPayment().(
      reservationId := r.reservationId,
      amount := r.amount,
      paymentMethod := Some(if r.paymentMethod.Some? then r.paymentMethod.value else DefaultMethod),
      cardNumber := Mask(r.cardNumber),
      cardHolderName := r.cardHolderName,
      expiryDate := r.expiryDate,
      status := Some(if Simulate(r, approved) then Completed else Failed))
  }

  /** `save` of a new payment: it takes the next identity value and runs
      `onCreate`; the unique `transaction_id` column rejects a generated id
      that is already taken. */
  function Insert(s: PaymentStore, p: Payment, now: int, millis: nat): (r: Result<(PaymentStore, Payment), PaymentError>)
    ensures r.Success? ==>
      && r.value.1 == OnCreate(p.(id := Some(s.nextId)), now, millis)
      && r.value.0 == PaymentStore(s.payments[s.nextId := r.value.1], s.nextId + 1)
    ensures r.Failure? ==> r.error == DuplicateTransaction
    ensures r.Failure? <==>
      TransactionTaken(s, if p.transactionId.None? then Some(TransactionId(millis)) else p.transactionId)
  {
    var saved := OnCreate(p.(id := Some(s.nextId)), now, millis);
    if TransactionTaken(s, saved.transactionId) then Failure(DuplicateTransaction)
    else Success((PaymentStore(s.payments[s.nextId := saved], s.nextId + 1), saved))
  }

  /** `processPayment`: the amount is checked first, then the reservation id,
      then that the reservation has no payment yet — in any status. The saved
      payment is COMPLETED or FAILED, carries the request's reservation,
      amount, holder and expiry, the default method when none is given, and
      the masked card. */
  function ProcessPayment(s: PaymentStore, r: CreatePaymentRequest, approved: bool, now: int, millis: nat)
    : (out: Result<(PaymentStore, Payment), PaymentError>)
    ensures r.amount.None? || r.amount.value <= 0.0 ==> out == Failure(AmountNotPositive)
    ensures r.amount.Some? && r.amount.value > 0.0 && r.reservationId.None? ==> out == Failure(ReservationIdRequired)
    ensures r.amount.Some? && r.amount.value > 0.0 && r.reservationId.Some? && HasPaymentFor(s, r.reservationId.value)
      ==> out == Failure(AlreadyPaid)
    ensures out.Failure? ==> out.error in {AmountNotPositive, ReservationIdRequired, AlreadyPaid, DuplicateTransaction}
    ensures r.amount.Some? && r.amount.value > 0.0 && r.reservationId.Some? && !HasPaymentFor(s, r.reservationId.value) ==>
      (out.Success? <==> !TransactionTaken(s, Some(TransactionId(millis))))
    ensures out.Success? ==>
      var p := out.value.1;
      && r.amount.Some? && r.amount.value > 0.0 && r.reservationId.Some? && !HasPaymentFor(s, r.reservationId.value)
      && p.id == Some(s.nextId)
      && out.value.0.payments == s.payments[s.nextId := p]
      && p.reservationId == r.reservationId && p.amount == r.amount
      && p.paymentMethod == Some(if r.paymentMethod.None? then DefaultMethod else r.paymentMethod.value)
      && p.cardNumber == Mask(r.cardNumber)
      && p.cardHolderName == r.cardHolderName && p.expiryDate == r.expiryDate
      && p.status == Some(if Simulate(r, approved) then Completed else Failed)
      && p.createdAt == Some(now) && p.updatedAt == Some(now)
  {
    if r.amount.None? || r.amount.value <= 0.0 then Failure(AmountNotPositive)
    else if r.reservationId.None? then Failure(ReservationIdRequired)
    else if HasPaymentFor(s, r.reservationId.value) then Failure(AlreadyPaid)
    else Insert(s, Draft(r, approved), now, millis)
  }

  /** The first payment of an empty table is saved, whatever the draw: under
      id 0, with the transaction id of its creation instant. */
  lemma FirstPaymentSaved(r: CreatePaymentRequest, approved: bool, now: int, millis: nat)
    requires r.amount.Some? && r.amount.value > 0.0 && r.reservationId.Some?
    ensures var out := ProcessPayment(PaymentStore(map[], 0), r, approved, now, millis);
      && out.Success?
      && out.value.1.id == Some(0)
      && out.value.1.transactionId == Some(TransactionId(millis))
      && out.value.0.payments.Keys == {0}
  {
  }

  /** Processing keeps the table's guarantees. */
  lemma ProcessPaymentValid(s: PaymentStore, r: CreatePaymentRequest, approved: bool, now: int, millis: nat)
    requires ValidPayments(s)
    ensures var out := ProcessPayment(s, r, approved, now, millis);
      out.Success? ==> ValidPayments(out.value.0)
  {
    var out := ProcessPayment(s, r, approved, now, millis);
    if out.Success? {
      var p := out.value.1;
      assert p.transactionId.Some?;
      assert forall k | k in s.payments :: s.payments[k].transactionId != p.transactionId;
      assert forall k | k in s.payments :: s.payments[k].reservationId != p.reservationId;
    }
  }

  /** Once a reservation has a payment — even a FAILED one — every later
      attempt for it is refused and the store is left as it was. */
  lemma FailedBlocksRetry(s: PaymentStore, k: int, r: CreatePaymentRequest, approved: bool, now: int, millis: nat)
    requires ValidPayments(s)
    requires k in s.payments && s.payments[k].status == Some(Failed)
    requires r.amount.Some? && r.amount.value > 0.0 && r.reservationId == s.payments[k].reservationId
    ensures ProcessPayment(s, r, approved, now, millis) == Failure(AlreadyPaid)
  {
    assert HasPaymentFor(s, r.reservationId.value);
  }

  /** `getPaymentById`. */
  function GetPaymentById(s: PaymentStore, id: int): (r: Result<Payment, PaymentError>)
    ensures r.Success? <==> id in s.payments
    ensures r.Success? ==> r.value == s.payments[id]
    ensures r.Failure? ==> r.error == PaymentNotFound
  {
    if id in s.payments then Success(s.payments[id]) else Failure(PaymentNotFound)
  }

  /** A non-empty set of keys has a member; the verifier only sees it once
      the empty case is ruled out. */
  lemma NonEmptyHasKey(keys: set<int>)
    requires keys != {}
    ensures exists k :: k in keys
  {
    if forall k :: k !in keys {
      assert false;
    }
  }

  /** `getPaymentByReservationId`: the query scans the table for the row of the
      reservation. */
  method GetPaymentByReservationId(s: PaymentStore, rid: int) returns (r: Result<Payment, PaymentError>)
    ensures r.Success? <==> HasPaymentFor(s, rid)
    ensures r.Success? ==> r.value.reservationId == Some(rid) && r.value in s.payments.Values
    ensures r.Failure? ==> r.error == NoPaymentForReservation
    ensures ValidPayments(s) ==>
      forall k | k in s.payments && s.payments[k].reservationId == Some(rid) :: r == Success(s.payments[k])
  {
    var keys := s.payments.Keys;
    while keys != {}
      invariant keys <= s.payments.Keys
      invariant forall k | k in s.payments && k !in keys :: s.payments[k].reservationId != Some(rid)
      decreases |keys|
    {
      NonEmptyHasKey(keys);
      var k :| k in keys;
      if s.payments[k].reservationId == Some(rid) {
        return Success(s.payments[k]);
      }
      keys := keys - {k};
    }
    return Failure(NoPaymentForReservation);
  }

  /** After a payment is processed in a valid table, it is the only row of its
      reservation: the lookup by reservation can find nothing else. */
  lemma ProcessedPaymentFound(s: PaymentStore, r: CreatePaymentRequest, approved: bool, now: int, millis: nat)
    requires ValidPayments(s)
    ensures var out := ProcessPayment(s, r, approved, now, millis);
      out.Success? ==>
        var t := out.value.0;
        && ValidPayments(t)
        && forall k | k in t.payments && t.payments[k].reservationId == r.reservationId :: t.payments[k] == out.value.1
  {
    ProcessPaymentValid(s, r, approved, now, millis);
  }

  /** `refundPayment`: an unknown id is not found; a payment not COMPLETED is
      refused and left as it was; a COMPLETED one becomes REFUNDED and only its
      status and `updatedAt` change. */
  function Refund(s: PaymentStore, id: int, now: int): (out: Result<(PaymentStore, Payment), PaymentError>)
    ensures id !in s.payments ==> out == Failure(PaymentNotFound)
    ensures id in s.payments && s.payments[id].status != Some(Completed) ==> out == Failure(OnlyCompletedRefundable)
    ensures out.Success? <==> id in s.payments && s.payments[id].status == Some(Completed)
    ensures out.Success? ==>
      && out.value.1.status == Some(Refunded)
      && out.value.1.updatedAt == Some(now)
      && out.value.1.(status := s.payments[id].status, updatedAt := s.payments[id].updatedAt) == s.payments[id]
      && out.value.0 == s.(payments := s.payments[id := out.value.1])
  {
    var p :- GetPaymentById(s, id);
    if p.status != Some(Completed) then Failure(OnlyCompletedRefundable)
    else
      var refunded := OnUpdate(p.(status := Some(Refunded)), now);
      Success((s.(payments := s.payments[id := refunded]), refunded))
  }

  /** Refunding keeps the table's guarantees, and a payment is refunded at most
      once. */
  lemma RefundValid(s: PaymentStore, id: int, now: int, later: int)
    requires ValidPayments(s)
    ensures var out := Refund(s, id, now);
      out.Success? ==> ValidPayments(out.value.0) && Refund(out.value.0, id, later) == Failure(OnlyCompletedRefundable)
  {
  }
}

=== FILE: register_page.dfy ===
/** The registration page's submit handler: the two password checks, in
    order, and the payload it hands to `register`. */
module RegisterPage {
  import opened Wrappers
  import opened JsValues
  import AuthStorage
  import AuthContext

  type Form = map<string, string>

  const InitialForm: Form :=
    map["username" := "", "email" := "", "password" := "", "confirmPassword" := ""]

  const MismatchMessage: string := "Les mots de passe ne correspondent pas"
  const ShortMessage: string := "Le mot de passe doit contenir au moins 6 caractères"
  const FailureMessage: string := "Erreur lors de l'inscription"

  datatype SubmitStep =
    | ShowError(message: string)
    | CallRegister(payload: map<string, string>)

  /** `const { confirmPassword, ...userData } = formData`. */
  function Payload(form: Form): (p: map<string, string>)
    ensures p.Keys == form.Keys - {"confirmPassword"}
    ensures forall k | k in p :: p[k] == form[k]
  {
    form - {"confirmPassword"}
  }

  /** `handleSubmit` up to the call: a mismatch is reported first, then a
      password under six characters; otherwise `register` receives the form
      without `confirmPassword`. */
  function Submit(form: Form): (s: SubmitStep)
    requires "password" in form && "confirmPassword" in form
    ensures form["password"] != form["confirmPassword"] ==> s == ShowError(MismatchMessage)
    ensures form["password"] == form["confirmPassword"] && |form["password"]| < 6 ==> s == ShowError(ShortMessage)
    ensures s.CallRegister? <==> form["password"] == form["confirmPassword"] && |form["password"]| >= 6
    ensures s.CallRegister? ==> s.payload == Payload(form)
  {
    if form["password"] != form["confirmPassword"] then ShowError(MismatchMessage)
    else if |form["password"]| < 6 then ShowError(ShortMessage)
    else CallRegister(Payload(form))
  }

  /** The payload keeps the username, email and password as typed, and never
      carries the confirmation. */
  lemma PayloadFields(form: Form)
    requires "password" in form && "confirmPassword" in form
    requires Submit(form).CallRegister?
    ensures var p := Submit(form).payload;
      && "confirmPassword" !in p
      && "password" in p && p["password"] == form["password"]
      && ("username" in form ==> p["username"] == form["username"])
      && ("email" in form ==> p["email"] == form["email"])
  {
  }

  /** `handleChange` then submit: a short confirmed password is refused for
      its length, whatever the other fields hold. */
  lemma ShortPasswordRefused(form: Form, pw: string)
    requires |pw| < 6
    ensures Submit(form["password" := pw]["confirmPassword" := pw]) == ShowError(ShortMessage)
  {
  }

  /** Where the page goes once `register` has answered: home on success, else
      the error of its result; a thrown error shows the generic message. */
  datatype AfterRegister = GoHome | ShowResultError(error: JsVal) | ShowFailure

  function Answer(result: Result<JsVal, JsVal>): (a: AfterRegister)
    ensures a == GoHome <==> result.Success? && !Nullish(result.value) && Truthy(Field(result.value, "success"))
    ensures result.Failure? ==> a == ShowFailure
    ensures result.Success? && Nullish(result.value) ==> a == ShowFailure
    ensures result.Success? && !Nullish(result.value) && !Truthy(Field(result.value, "success")) ==>
      a == ShowResultError(Field(result.value, "error"))
  {
    if result.Failure? || Nullish(result.value) then ShowFailure
    else if Truthy(Field(result.value, "success")) then GoHome
    else ShowResultError(Field(result.value, "error"))
  }

  /** The page after `register` of the auth context resolved: home exactly
      when the registration and the login after it both succeeded, and
      otherwise the context's error text, which for a refused registration is
      the server's message or "Échec de l'inscription". */
  lemma RegisterAnswer(c: AuthContext.Ctx, reply: Result<JsVal, JsVal>, loginReply: Result<JsVal, JsVal>,
                       json: AuthStorage.Json, fakeToken: JsVal -> Option<string>)
    ensures var o := AuthContext.Register(c, reply, loginReply, json, fakeToken).1;
      var a := Answer(Success(AuthContext.OutcomeValue(o)));
      && (a == GoHome <==> o.Succeeded?)
      && (o.Failed? ==> a == ShowResultError(o.error))
      && (AuthStorage.Receive(c.storage, reply, json).Failure? ==>
            a == ShowResultError(AuthContext.ErrorText(AuthStorage.Receive(c.storage, reply, json).error.1,
                                                       AuthContext.RegisterFailedText)))
  {
  }
}

=== FILE: reservation_confirmation.dfy ===
/** The confirmation page: the reservation it shows, taken from the router
    state, the contact details it displays with their fallbacks, and its
    tolerant date parsing. */
module ReservationConfirmation {
  import opened Wrappers
  import opened JsValues

  /** `rawData?.reservation || rawData || null` with
      `rawData = location.state?.reservation`: a nested `reservation` is
      unwrapped, a flat one is taken as it is, and a missing one is `null`. */
  function InitialReservation(state: JsVal): (r: JsVal)
    ensures var raw := OptProp(state, "reservation");
      && (Truthy(OptProp(raw, "reservation")) ==> r == OptProp(raw, "reservation"))
      && (!Truthy(OptProp(raw, "reservation")) && Truthy(raw) ==> r == raw)
      && (!Truthy(OptProp(raw, "reservation")) && !Truthy(raw) ==> r == Null)
  {
    var raw := OptProp(state, "reservation");
    Or(OptProp(raw, "reservation"), Or(raw, Null))
  }

  /** The page shows a reservation exactly when the state holds a truthy one at
      either level. */
  lemma ReservationShown(state: JsVal)
    ensures Truthy(InitialReservation(state)) <==>
      Truthy(OptProp(state, "reservation")) || Truthy(OptProp(OptProp(state, "reservation"), "reservation"))
  {
  }

  datatype DisplayUser = DisplayUser(firstName: JsVal, lastName: JsVal, email: JsVal, phone: JsVal)

  /** `shown` is the first truthy one of `first` and `second`, else `last`. */
  predicate FallsBack(shown: JsVal, first: JsVal, second: JsVal, last: JsVal) {
    && (Truthy(first) ==> shown == first)
    && (!Truthy(first) && Truthy(second) ==> shown == second)
    && (!Truthy(first) && !Truthy(second) ==> shown == last)
  }

  /** `reservation.k || user?.k' || fallback`. */
  function Pick(reservation: JsVal, user: JsVal, k: string, userKey: string, fallback: JsVal): (r: JsVal)
    requires !Nullish(reservation)
    ensures FallsBack(r, Field(reservation, k), OptProp(user, userKey), fallback)
  {
    Or(Field(reservation, k), Or(OptProp(user, userKey), fallback))
  }

  /** The contact details shown: the reservation's, else the session user's,
      else 'Client' for the first name, 'Non renseigné' for the phone (read from
      the user's `phoneNumber`) and empty text for the rest. */
  function Display(reservation: JsVal, user: JsVal): (d: DisplayUser)
    requires Truthy(reservation)
    ensures FallsBack(d.firstName, Field(reservation, "firstName"), OptProp(user, "firstName"), Str("Client"))
    ensures FallsBack(d.lastName, Field(reservation, "lastName"), OptProp(user, "lastName"), Str(""))
    ensures FallsBack(d.email, Field(reservation, "email"), OptProp(user, "email"), Str(""))
    ensures FallsBack(d.phone, Field(reservation, "phone"), OptProp(user, "phoneNumber"), Str("Non renseigné"))
  {
    DisplayUser(
      Pick(reservation, user, "firstName", "firstName", Str("Client")),
      Pick(reservation, user, "lastName", "lastName", Str("")),
      Pick(reservation, user, "email", "email", Str("")),
      Pick(reservation, user, "phone", "phoneNumber", Str("Non renseigné")))
  }

  /** The first name and the phone are never blank; without a session user
      everything shown comes from the reservation or the fallbacks. */
  lemma DisplayNeverBlank(reservation: JsVal, user: JsVal)
    requires Truthy(reservation)
    ensures Truthy(Display(reservation, user).firstName) && Truthy(Display(reservation, user).phone)
    ensures Nullish(user) ==> Display(reservation, user) == DisplayUser(
      Or(Field(reservation, "firstName"), Str("Client")), Or(Field(reservation, "lastName"), Str("")),
      Or(Field(reservation, "email"), Str("")), Or(Field(reservation, "phone"), Str("Non renseigné")))
  {
  }

  /** `safeDate`: the time `new Date(text)` denotes (`parsed`, None for an
      invalid date) when the text is truthy and valid, else `now`. */
  function SafeDate(text: JsVal, parsed: Option<int>, now: int): (t: int)
    ensures !Truthy(text) || parsed.None? ==> t == now
    ensures Truthy(text) && parsed.Some? ==> t == parsed.value
  {
    if !Truthy(text) then now
    else if parsed.None? then now
    else parsed.value
  }
}

=== FILE: reservation_controller.dfy ===
/** `ReservationController`: the pre-checks of `POST /api/reservations` and
    how each endpoint turns the service's outcome into an HTTP status. */
module ReservationController {
  import opened Wrappers
  import opened Text
  import opened ReservationEntity
  import opened ReservationService

  /** The reply of the create endpoint. */
  datatype CreateReply =
    | Created(id: int, reservationId: int, status: Option<string>, reservation: Reservation)
    | BadRequest(message: string)
    | ServerError(cause: CreateError, errorText: Option<string>)

  function CreateCode(r: CreateReply): int {
    match r
    case Created(_, _, _, _) => 201
    case BadRequest(_) => 400
    case ServerError(_, _) => 500
  }

  const RoomIdRequired: string := "Room ID is required"
  const DatesRequired: string := "Check-in and check-out dates are required"
  const DatesOrderMessage: string := "La date de départ doit être après la date d'arrivée"

  /** The message of the exception the service threw, when the service wrote
      it; None where it is the text of a library exception. */
  function CauseMessage(e: CreateError): Option<string> {
    match e
    case UserNotFound(id) => Some("Utilisateur non trouvé : " + JavaLong(id))
    case HotelNotFound(id) => Some("Hôtel non trouvé : " + JavaLong(id))
    case LookupFailed(m) => Some(m)
    case DateMissing => None
    case DatesNotOrdered => Some(DatesOrderMessage)
    case RoomNotFound(id) => Some("Chambre non trouvée : " + IntToString(id))
    case RoomCheckFailed(id) => Some("Erreur lors de la vérification de la chambre : " + IntToString(id))
    case Unexpected(m) => Some(m)
    case SaveRejected => None
  }

  const CreateFailurePrefix: string := "Erreur lors de la création de la réservation: "

  /** The `message` of the 500 body: the fixed prefix followed by the
      exception's message; None where that message is a library's text. */
  function ServerErrorText(e: CreateError): (m: Option<string>)
    ensures m.Some? <==> CauseMessage(e).Some?
    ensures m.Some? ==>
      && |m.value| == |CreateFailurePrefix| + |CauseMessage(e).value|
      && m.value[..|CreateFailurePrefix|] == CreateFailurePrefix
      && m.value[|CreateFailurePrefix|..] == CauseMessage(e).value
  {
    if CauseMessage(e).Some? then Some(CreateFailurePrefix + CauseMessage(e).value) else None
  }

  /** `create`: a missing room id, then a missing date, are answered 400 without
      calling the service; the service's `IllegalArgumentException` is a 400
      with its message and any other failure a 500; a saved reservation is a
      201 carrying its id twice and its status. */
  function CreateEndpoint(s: Store, dto: ReservationDto, user: Lookup, hotel: Lookup, room: RoomReply,
                          flagUpdated: bool, now: int): (out: (Store, CreateReply))
    ensures dto.roomId.None? ==> out == (s, BadRequest(RoomIdRequired))
    ensures dto.roomId.Some? && (CheckInDate(dto).None? || CheckOutDate(dto).None?) ==> out == (s, BadRequest(DatesRequired))
    ensures CreateCode(out.1) == 201 ==>
      var c := Create(s, dto, user, hotel, room, flagUpdated, now);
      && c.Success? && out.0 == c.value.0
      && out.1.id == out.1.reservationId && Some(out.1.id) == c.value.1.id
      && out.1.status == c.value.1.status == Some(Pending)
    ensures CreateCode(out.1) != 201 ==> out.0 == s
    ensures dto.roomId.Some? && CheckInDate(dto).Some? && CheckOutDate(dto).Some? ==>
      (CreateCode(out.1) == 201 <==> Create(s, dto, user, hotel, room, flagUpdated, now).Success?)
    ensures out.1.ServerError? ==> !IsIllegalArgument(out.1.cause) && out.1.cause != DateMissing
    ensures out.1.ServerError? ==>
      && Create(s, dto, user, hotel, room, flagUpdated, now) == Failure(out.1.cause)
      && out.1.errorText == ServerErrorText(out.1.cause)
    ensures dto.roomId.Some? && dto.checkIn.Some? && dto.checkOut.Some? ==>
      (CreateCode(out.1) == 400 <==> Create(s, dto, user, hotel, room, flagUpdated, now) == Failure(DatesNotOrdered))
  {
    if dto.roomId.None? then (s, BadRequest(RoomIdRequired))
    else if CheckInDate(dto).None? || CheckOutDate(dto).None? then (s, BadRequest(DatesRequired))
    else
      match Create(s, dto, user, hotel, room, flagUpdated, now)
      case Success((t, saved)) => (t, Created(saved.id.value, saved.id.value, saved.status, saved))
      case Failure(e) =>
        if IsIllegalArgument(e) then (s, BadRequest(DatesOrderMessage)) else (s, ServerError(e, ServerErrorText(e)))
  }

  /** A well-formed request naming an unknown user is a 500 whose message
      names that user id behind the fixed prefix, and nothing is saved. */
  lemma UnknownUserAnswer(s: Store, dto: ReservationDto, hotel: Lookup, room: RoomReply, flagUpdated: bool, now: int)
    requires dto.roomId.Some? && dto.checkIn.Some? && dto.checkOut.Some?
    ensures CreateEndpoint(s, dto, Missing, hotel, room, flagUpdated, now)
         == (s, ServerError(UserNotFound(dto.userId),
                            Some(CreateFailurePrefix + "Utilisateur non trouvé : " + JavaLong(dto.userId))))
  {
    var cause := "Utilisateur non trouvé : " + JavaLong(dto.userId);
    assert CreateFailurePrefix + cause == CreateFailurePrefix + "Utilisateur non trouvé : " + JavaLong(dto.userId);
  }

  /** A reply carrying a status, a success flag and a message. */
  datatype Reply = Reply(code: int, success: bool, message: string)

  /** `getById`: the record, or 404. */
  function GetByIdEndpoint(s: Store, id: int): (r: (int, Option<Reservation>))
    ensures r.0 == 200 <==> id in s.records
    ensures r.0 != 200 ==> r == (404, None)
    ensures r.0 == 200 ==> r.1 == Some(s.records[id])
  {
    match GetById(s, id)
    case Success(v) => (200, Some(v))
    case Failure(_) => (404, None)
  }

  /** `cancel`: 200 once the record is gone; an unknown id is reported as a
      server error (500), not as 404. */
  function CancelEndpoint(s: Store, id: int, flagUpdated: bool): (out: (Store, Reply))
    ensures out.1.code == 200 <==> id in s.records
    ensures id !in s.records ==> out == (s, Reply(500, false, "Erreur lors de l'annulation: Réservation non trouvée : " + IntToString(id)))
    ensures id in s.records ==> out.0 == Cancel(s, id, flagUpdated).value && id !in out.0.records
  {
    match Cancel(s, id, flagUpdated)
    case Success(t) => (t, Reply(200, true, "Réservation annulée avec succès"))
    case Failure(ReservationNotFound(k)) =>
      (s, Reply(500, false, "Erreur lors de l'annulation: Réservation non trouvée : " + IntToString(k)))
  }

  /** `confirmPayment`: 200 once the record is confirmed, 404 for an unknown id. */
  function ConfirmEndpoint(s: Store, id: int, now: int): (out: (Store, Reply))
    ensures out.1.code == 200 <==> id in s.records
    ensures out.1.code != 200 ==> out == (s, Reply(404, false, "Réservation non trouvée"))
    ensures out.1.code == 200 ==> id in out.0.records && out.0.records[id].status == Some(Confirmed)
  {
    match ConfirmPayment(s, id, now)
    case Success(t) => (t, Reply(200, true, "Paiement confirmé"))
    case Failure(_) => (s, Reply(404, false, "Réservation non trouvée"))
  }
}

=== FILE: reservation_dialog.dfy ===
/** The reservation dialog: the contact form it prefills from the logged-in
    user, its field edits, and the object it submits, in which the booking
    data passed to the dialog overrides the form. */
module ReservationDialog {
  import opened Wrappers
  import opened JsValues

  type Form = map<string, JsVal>

  const InitialForm: Form :=
    map["firstName" := Str(""), "lastName" := Str(""), "email" := Str(""), "phone" := Str(""),
        "specialRequests" := Str("")]

  /** `a || b || ''` on two fields of the user. */
  function FirstOf(user: JsVal, a: string, b: string): (r: JsVal)
    requires !Nullish(user)
    ensures Truthy(Field(user, a)) ==> r == Field(user, a)
    ensures !Truthy(Field(user, a)) && Truthy(Field(user, b)) ==> r == Field(user, b)
    ensures !Truthy(Field(user, a)) && !Truthy(Field(user, b)) ==> r == Str("")
  {
    Or(Field(user, a), Or(Field(user, b), Str("")))
  }

  /** The prefill effect: nothing without a user; otherwise the names, email and
      phone are taken from the user — `firstName` else `firstname`, `lastName`
      else `lastname`, `phoneNumber` else `phone`, else empty — and every other
      field keeps its value. */
  function Prefill(user: JsVal, prev: Form): (r: Form)
    ensures !Truthy(user) ==> r == prev
    ensures r.Keys == prev.Keys + (if Truthy(user) then {"firstName", "lastName", "email", "phone"} else {})
    ensures Truthy(user) ==>
      && r["firstName"] == FirstOf(user, "firstName", "firstname")
      && r["lastName"] == FirstOf(user, "lastName", "lastname")
      && r["email"] == Or(Field(user, "email"), Str(""))
      && r["phone"] == FirstOf(user, "phoneNumber", "phone")
    ensures forall k | k in prev && k !in {"firstName", "lastName", "email", "phone"} :: r[k] == prev[k]
  {
    if !Truthy(user) then prev
    else
      prev["firstName" := FirstOf(user, "firstName", "firstname")]
          ["lastName" := FirstOf(user, "lastName", "lastname")]
          ["email" := Or(Field(user, "email"), Str(""))]
          ["phone" := FirstOf(user, "phoneNumber", "phone")]
  }

  /** `handleChange`: only the named field changes. */
  function HandleChange(form: Form, name: string, value: JsVal): (r: Form)
    ensures name in r && r[name] == value
    ensures r.Keys == form.Keys + {name}
    ensures forall k | k in form && k != name :: r[k] == form[k]
  {
    form[name := value]
  }

  /** The prefill effect runs again whenever the dialog opens; running it twice
      is running it once. */
  lemma PrefillIdempotent(user: JsVal, prev: Form)
    ensures Prefill(user, Prefill(user, prev)) == Prefill(user, prev)
  {
  }

  /** Reopening the dialog for a logged-in user discards an edit to a prefilled
      field, but keeps the special requests. */
  lemma ReopenDiscardsEdit(user: JsVal, form: Form, name: string, value: JsVal)
    requires Truthy(user) && name in {"firstName", "lastName", "email", "phone"}
    ensures Prefill(user, HandleChange(form, name, value))[name] == Prefill(user, form)[name]
    ensures "specialRequests" in form && name != "specialRequests" ==>
      Prefill(user, HandleChange(form, "specialRequests", value))["specialRequests"] == value
  {
  }

  /** The own enumerable properties an object spread copies. */
  function Spread(v: JsVal): map<string, JsVal> {
    if v.Obj? then v.fields else map[]
  }

  /** `{ ...formData, ...reservationData }`: every key of either, and on a key
      both have, the booking data's value. */
  function Submitted(form: Form, reservationData: JsVal): (r: map<string, JsVal>)
    ensures r.Keys == form.Keys + Spread(reservationData).Keys
    ensures forall k | k in Spread(reservationData) :: r[k] == Spread(reservationData)[k]
    ensures forall k | k in form && k !in Spread(reservationData) :: r[k] == form[k]
  {
    form + Spread(reservationData)
  }

  /** A booking that carries its own contact field overrides what the user
      typed or what was prefilled. */
  lemma BookingDataWins(user: JsVal, form: Form, fields: map<string, JsVal>, k: string)
    requires k in fields
    ensures Submitted(Prefill(user, form), Obj(fields))[k] == fields[k]
  {
  }

  /** The message shown when submitting fails: `err.message || 'Erreur lors de
      la réservation'`. */
  function SubmitError(err: JsVal): (m: JsVal)
    ensures Truthy(m)
    ensures Truthy(OptProp(err, "message")) ==> m == OptProp(err, "message")
  {
    Or(OptProp(err, "message"), Str("Erreur lors de la réservation"))
  }
}

=== FILE: reservation_entity.dfy ===
/** The reservation records of the reservation service: the JPA entity with
    its persistence hooks and utilities, the request record that validates
    itself, and the transfer object with its alias accessors. A Java `null` is
    None; a `LocalDateTime` is an opaque integer instant. */
module ReservationEntity {
  import opened Wrappers
  import opened Stay

  /** The `reservations` row. */
  datatype Reservation = Reservation(
    id: Option<int>,
    userId: Option<int>,
    hotelId: Option<int>,
    roomId: Option<int>,
    checkIn: Option<Day>,
    checkOut: Option<Day>,
    firstName: Option<string>,
    lastName: Option<string>,
    email: Option<string>,
    phone: Option<string>,
    specialRequests: Option<string>,
    totalPrice: Option<real>,
    status: Option<string>,
    createdAt: Option<int>,
    updatedAt: Option<int>)

  const Pending: string := "PENDING"
  const Confirmed: string := "CONFIRMED"
  const Cancelled: string := "CANCELLED"

  /** `new Reservation()`: every field null except the status, which starts
      as PENDING. */
  function NewReservation(): (r: Reservation)
    ensures r.status == Some(Pending)
    ensures r.id.None? && r.userId.None? && r.hotelId.None? && r.roomId.None?
    ensures r.checkIn.None? && r.checkOut.None? && r.totalPrice.None?
    ensures r.firstName.None? && r.lastName.None? && r.email.None? && r.phone.None? && r.specialRequests.None?
    ensures r.createdAt.None? && r.updatedAt.None?
  {
    Reservation(None, None, None, None, None, None, None, None, None, None, None, None, Some(Pending), None, None)
  }

  /** `@PrePersist onCreate`: both timestamps become `now`; a missing status
      becomes PENDING and a present one is kept. */
  function OnCreate(r: Reservation, now: int): (c: Reservation)
    ensures c.createdAt == Some(now) && c.updatedAt == Some(now)
    ensures r.status.Some? ==> c.status == r.status
    ensures r.status.None? ==> c.status == Some(Pending)
    ensures c.(createdAt := r.createdAt, updatedAt := r.updatedAt, status := r.status) == r
  {
    r.(createdAt := Some(now), updatedAt := Some(now), status := if r.status.None? then Some(Pending) else r.status)
  }

  /** `@PreUpdate onUpdate`: only `updatedAt` moves. */
  function OnUpdate(r: Reservation, now: int): (u: Reservation)
    ensures u.updatedAt == Some(now)
    ensures u.(updatedAt := r.updatedAt) == r
  {
    r.(updatedAt := Some(now))
  }

  /** `getNumberOfNights`: `DAYS.between(checkIn, checkOut)`, negative when the
      dates are reversed, and 0 while a date is missing. */
  function NumberOfNights(r: Reservation): (n: int)
    ensures r.checkIn.None? || r.checkOut.None? ==> n == 0
    ensures r.checkIn.Some? && r.checkOut.Some? ==> r.checkIn.value + n == r.checkOut.value
  {
    if r.checkIn.Some? && r.checkOut.Some? then DaysBetween(r.checkIn.value, r.checkOut.value) else 0
  }

  /** `calculateTotalPrice(pricePerNight)`: sets the total and nothing else. */
  function CalculateTotalPrice(r: Reservation, pricePerNight: real): (t: Reservation)
    ensures t.totalPrice == Some(NumberOfNights(r) as real * pricePerNight)
    ensures t.(totalPrice := r.totalPrice) == r
  {
    r.(totalPrice := Some(NumberOfNights(r) as real * pricePerNight))
  }

  /** The `ReservationRequest` record; only values its constructor accepted
      exist. */
  datatype ReservationRequest = ReservationRequest(
    userId: int, hotelId: int, roomId: Option<int>, checkIn: Day, checkOut: Day)

  /** The messages of the record's compact constructor, in its order. */
  datatype RequestError =
    | UserIdRequired
    | HotelIdRequired
    | CheckInRequired
    | CheckOutRequired
    | CheckOutNotAfter

  /** The invariant every constructed request satisfies. */
  predicate WellFormedRequest(q: ReservationRequest) {
    q.userId > 0 && q.hotelId > 0 && q.checkOut > q.checkIn
  }

  /** A present, positive `Long` id. */
  predicate PositiveId(id: Option<int>) {
    id.Some? && id.value > 0
  }

  /** `new ReservationRequest(...)`: the first failing check throws. */
  function MakeRequest(userId: Option<int>, hotelId: Option<int>, roomId: Option<int>,
                       checkIn: Option<Day>, checkOut: Option<Day>): (r: Result<ReservationRequest, RequestError>)
    ensures r == Failure(UserIdRequired) <==> !PositiveId(userId)
    ensures r == Failure(HotelIdRequired) <==> PositiveId(userId) && !PositiveId(hotelId)
    ensures r == Failure(CheckInRequired) <==> PositiveId(userId) && PositiveId(hotelId) && checkIn.None?
    ensures r == Failure(CheckOutRequired) <==>
      PositiveId(userId) && PositiveId(hotelId) && checkIn.Some? && checkOut.None?
    ensures r == Failure(CheckOutNotAfter) <==>
      PositiveId(userId) && PositiveId(hotelId) && checkIn.Some? && checkOut.Some? && checkOut.value <= checkIn.value
    ensures r.Success? <==>
      PositiveId(userId) && PositiveId(hotelId) && checkIn.Some? && checkOut.Some? && checkOut.value > checkIn.value
    ensures r.Success? ==>
      && WellFormedRequest(r.value) && r.value.roomId == roomId
      && r.value.checkIn == checkIn.value && r.value.checkOut == checkOut.value
  {
    if userId.None? || userId.value <= 0 then Failure(UserIdRequired)
    else if hotelId.None? || hotelId.value <= 0 then Failure(HotelIdRequired)
    else if checkIn.None? then Failure(CheckInRequired)
    else if checkOut.None? then Failure(CheckOutRequired)
    else if !(checkOut.value > checkIn.value) then Failure(CheckOutNotAfter)
    else Success(ReservationRequest(userId.value, hotelId.value, roomId, checkIn.value, checkOut.value))
  }

  /** Every request the constructor can build is rebuilt from its own
      components. */
  lemma RequestRoundTrip(q: ReservationRequest)
    requires WellFormedRequest(q)
    ensures MakeRequest(Some(q.userId), Some(q.hotelId), q.roomId, Some(q.checkIn), Some(q.checkOut)) == Success(q)
  {
  }

  /** `ReservationDTO`, the body of `POST /api/reservations`. */
  datatype ReservationDto = ReservationDto(
    userId: Option<int>,
    hotelId: Option<int>,
    roomId: Option<int>,
    checkIn: Option<Day>,
    checkOut: Option<Day>,
    firstName: Option<string>,
    lastName: Option<string>,
    email: Option<string>,
    phone: Option<string>,
    specialRequests: Option<string>,
    numberOfGuests: Option<int>,
    totalPrice: Option<real>,
    status: Option<string>)

  /** `getCheckInDate`, an alias of the `checkIn` property. */
  function CheckInDate(d: ReservationDto): (v: Option<Day>)
    ensures v == d.checkIn
  {
    d.checkIn
  }

  /** `setCheckInDate`: writes the `checkIn` property and nothing else. */
  function SetCheckInDate(d: ReservationDto, v: Option<Day>): (e: ReservationDto)
    ensures e.checkIn == v && CheckInDate(e) == v
    ensures e.(checkIn := d.checkIn) == d
  {
    d.(checkIn := v)
  }

  /** `getCheckOutDate`, an alias of the `checkOut` property. */
  function CheckOutDate(d: ReservationDto): (v: Option<Day>)
    ensures v == d.checkOut
  {
    d.checkOut
  }

  /** `setCheckOutDate`: writes the `checkOut` property and nothing else. */
  function SetCheckOutDate(d: ReservationDto, v: Option<Day>): (e: ReservationDto)
    ensures e.checkOut == v && CheckOutDate(e) == v
    ensures e.(checkOut := d.checkOut) == d
  {
    d.(checkOut := v)
  }

  /** `getUserName`: the two names joined by a space, or null while either is
      missing. */
  function UserName(d: ReservationDto): (n: Option<string>)
    ensures n.Some? <==> d.firstName.Some? && d.lastName.Some?
    ensures n.Some? ==>
      && |n.value| == |d.firstName.value| + 1 + |d.lastName.value|
      && n.value[..|d.firstName.value|] == d.firstName.value
      && n.value[|d.firstName.value|] == ' '
      && n.value[|d.firstName.value| + 1..] == d.lastName.value
  {
    if d.firstName.Some? && d.lastName.Some? then Some(d.firstName.value + " " + d.lastName.value) else None
  }

  /** `getUserEmail`, an alias of `email`. */
  function UserEmail(d: ReservationDto): (e: Option<string>)
    ensures e == d.email
  {
    d.email
  }

  /** The alias setters and getters agree with the properties in both orders:
      setting through one name and reading through the other gives the value
      back, setting one date keeps the other, and the e-mail alias reads the
      `email` property whatever the date setters did. */
  lemma DateAliases(d: ReservationDto, a: Option<Day>, b: Option<Day>, e: Option<string>)
    ensures SetCheckInDate(d, a).checkIn == a && CheckInDate(d.(checkIn := a)) == a
    ensures SetCheckOutDate(d, b).checkOut == b && CheckOutDate(d.(checkOut := b)) == b
    ensures CheckOutDate(SetCheckInDate(d, a)) == d.checkOut
    ensures CheckInDate(SetCheckOutDate(d, b)) == d.checkIn
    ensures SetCheckInDate(d, CheckInDate(d)) == d && SetCheckOutDate(d, CheckOutDate(d)) == d
    ensures UserEmail(d.(email := e)) == e
    ensures UserEmail(SetCheckInDate(d, a)) == UserEmail(d) && UserEmail(SetCheckOutDate(d, b)) == UserEmail(d)
  {
  }
}

=== FILE: reservation_service.dfy ===
/** `ReservationService` over an in-memory store: the reservations by id, the
    next id the database hands out, and the room-availability flags the
    service asks the hotel service to set. The user, hotel and room lookups
    and the flag update are remote calls; their outcomes are parameters. */
module ReservationService {
  import opened Wrappers
  import opened Text
  import opened Stay
  import opened ReservationEntity

  datatype Store = Store(records: map<int, Reservation>, nextId: int, roomFlags: map<int, bool>)

  /** Every stored record carries its own key, and every key is below the next
      id to hand out. */
  predicate ValidStore(s: Store) {
    forall k :: k in s.records ==> k < s.nextId && s.records[k].id == Some(k)
  }

  /** No stored record has the status CANCELLED. */
  predicate NoneCancelled(s: Store) {
    forall k :: k in s.records ==> s.records[k].status != Some(Cancelled)
  }

  /** A user or hotel lookup: found, answered 404, or failed otherwise (the
      Feign error then propagates with its own message). */
  datatype Lookup = Exists | Missing | Unreachable(message: string)

  /** The `price` entry of the room details. */
  datatype PriceField = NoPrice | NumberPrice(value: real) | NotANumber(message: string)

  /** The room-details call: the room's data, a 404, another Feign error, or
      some other exception. */
  datatype RoomReply = RoomData(price: PriceField) | RoomMissing | RoomUnreachable | RoomBroken(message: string)

  /** Why `createReservation` threw. */
  datatype CreateError =
    | UserNotFound(userId: Option<int>)
    | HotelNotFound(hotelId: Option<int>)
    | LookupFailed(message: string)
    | DateMissing
    | DatesNotOrdered
    | RoomNotFound(roomId: int)
    | RoomCheckFailed(roomId: int)
    | Unexpected(message: string)
    | SaveRejected

  /** Only a date check throws `IllegalArgumentException`; everything else is
      some other runtime exception. */
  predicate IsIllegalArgument(e: CreateError) {
    e.DatesNotOrdered?
  }

  const DefaultPricePerNight: real := 100.0

  /** The nightly price: 100.0 without a room id or without a price in the
      room's data, else that price; the room call's failures become errors. */
  function PricePerNight(roomId: Option<int>, room: RoomReply): (r: Result<real, CreateError>)
    ensures roomId.None? ==> r == Success(DefaultPricePerNight)
    ensures roomId.Some? && room == RoomData(NoPrice) ==> r == Success(DefaultPricePerNight)
    ensures roomId.Some? && room.RoomData? && room.price.NumberPrice? ==> r == Success(room.price.value)
    ensures roomId.Some? && room.RoomMissing? ==> r == Failure(RoomNotFound(roomId.value))
    ensures roomId.Some? && room.RoomUnreachable? ==> r == Failure(RoomCheckFailed(roomId.value))
    ensures r.Failure? ==> roomId.Some? && !r.error.DatesNotOrdered?
  {
    if roomId.None? then Success(DefaultPricePerNight)
    else
      match room
      case RoomData(NoPrice) => Success(DefaultPricePerNight)
      case RoomData(NumberPrice(p)) => Success(p)
      case RoomData(NotANumber(m)) => Failure(Unexpected(m))
      case RoomMissing => Failure(RoomNotFound(roomId.value))
      case RoomUnreachable => Failure(RoomCheckFailed(roomId.value))
      case RoomBroken(m) => Failure(Unexpected(m))
  }

  /** The record built from the request before it is saved. */
  function Draft(dto: ReservationDto, total: real): Reservation {
    NewReservation().(
      userId := dto.userId, hotelId := dto.hotelId, roomId := dto.roomId,
      checkIn := dto.checkIn, checkOut := dto.checkOut, totalPrice := Some(total),
      firstName := dto.firstName, lastName := dto.lastName, email := dto.email,
      phone := dto.phone, specialRequests := dto.specialRequests)
  }

  /** `reservationRepository.save` of a new record: the not-null columns must
      be filled; the record gets the next id and its creation hook runs. */
  function Persist(s: Store, r: Reservation, now: int): (res: Result<(Store, Reservation), CreateError>)
    requires r.checkIn.Some? && r.checkOut.Some? && r.status.Some?
    ensures res.Failure? <==> r.userId.None? || r.hotelId.None? || r.roomId.None?
    ensures res.Failure? ==> res.error == SaveRejected
    ensures res.Success? ==>
      var (t, saved) := res.value;
      && saved == OnCreate(r, now).(id := Some(s.nextId))
      && t == s.(records := s.records[s.nextId := saved], nextId := s.nextId + 1)
  {
    if r.userId.None? || r.hotelId.None? || r.roomId.None? then Failure(SaveRejected)
    else
      var saved := OnCreate(r, now).(id := Some(s.nextId));
      Success((s.(records := s.records[s.nextId := saved], nextId := s.nextId + 1), saved))
  }

  /** The lookup outcome as the error `createReservation` raises for it. */
  function LookupError(l: Lookup, notFound: CreateError): CreateError
    requires !l.Exists?
  {
    if l.Missing? then notFound else LookupFailed(l.message)
  }

  /** The user and the hotel were found and the dates are present and in
      order: the checks of `createReservation` before the room's price. */
  predicate DatesAccepted(dto: ReservationDto, user: Lookup, hotel: Lookup) {
    user.Exists? && hotel.Exists? && dto.checkIn.Some? && dto.checkOut.Some? && dto.checkOut.value > dto.checkIn.value
  }

  /** `createReservation`: user, hotel, dates and room price are checked in this
      order and the first failure throws with nothing saved; otherwise one
      PENDING record is added and the room is marked unavailable when the
      hotel service accepts it (a refusal is ignored). No other reservation of
      the room is consulted. */
  function Create(s: Store, dto: ReservationDto, user: Lookup, hotel: Lookup, room: RoomReply,
                  flagUpdated: bool, now: int): (r: Result<(Store, Reservation), CreateError>)
    ensures !user.Exists? ==> r == Failure(LookupError(user, UserNotFound(dto.userId)))
    ensures user.Exists? && !hotel.Exists? ==> r == Failure(LookupError(hotel, HotelNotFound(dto.hotelId)))
    ensures user.Exists? && hotel.Exists? && (dto.checkIn.None? || dto.checkOut.None?) ==> r == Failure(DateMissing)
    ensures (user.Exists? && hotel.Exists? && dto.checkIn.Some? && dto.checkOut.Some?
             && dto.checkOut.value <= dto.checkIn.value) ==> r == Failure(DatesNotOrdered)
    ensures r.Failure? && r.error.DatesNotOrdered? ==> dto.checkIn.Some? && dto.checkOut.Some? && dto.checkOut.value <= dto.checkIn.value
    ensures DatesAccepted(dto, user, hotel) && PricePerNight(dto.roomId, room).Failure? ==>
      r == Failure(PricePerNight(dto.roomId, room).error)
    ensures (DatesAccepted(dto, user, hotel) && PricePerNight(dto.roomId, room).Success?
             && (dto.userId.None? || dto.hotelId.None? || dto.roomId.None?)) ==> r == Failure(SaveRejected)
    ensures r.Success? <==>
      DatesAccepted(dto, user, hotel) && PricePerNight(dto.roomId, room).Success?
      && dto.userId.Some? && dto.hotelId.Some? && dto.roomId.Some?
    ensures r.Success? ==>
      var (t, saved) := r.value;
      var price := PricePerNight(dto.roomId, room);
      && user.Exists? && hotel.Exists? && price.Success?
      && saved.id == Some(s.nextId) && t.nextId == s.nextId + 1
      && t.records == s.records[s.nextId := saved]
      && saved.userId == dto.userId && saved.hotelId == dto.hotelId && saved.roomId == dto.roomId
      && saved.checkIn == dto.checkIn && saved.checkOut == dto.checkOut
      && saved.firstName == dto.firstName && saved.lastName == dto.lastName && saved.email == dto.email
      && saved.phone == dto.phone && saved.specialRequests == dto.specialRequests
      && saved.status == Some(Pending) && saved.createdAt == Some(now)
      && dto.checkOut.value > dto.checkIn.value
      && saved.totalPrice == Some((dto.checkOut.value - dto.checkIn.value) as real * price.value)
      && dto.roomId.Some?
      && t.roomFlags == (if flagUpdated then s.roomFlags[dto.roomId.value := false] else s.roomFlags)
    ensures r.Success? && ValidStore(s) ==> ValidStore(r.value.0) && s.nextId !in s.records
    ensures r.Success? && NoneCancelled(s) ==> NoneCancelled(r.value.0)
  {
    if !user.Exists? then Failure(LookupError(user, UserNotFound(dto.userId)))
    else if !hotel.Exists? then Failure(LookupError(hotel, HotelNotFound(dto.hotelId)))
    else if dto.checkIn.None? || dto.checkOut.None? then Failure(DateMissing)
    else if dto.checkOut.value <= dto.checkIn.value then Failure(DatesNotOrdered)
    else
      var quote := PricePerNight(dto.roomId, room);
      if quote.Failure? then Failure(quote.error)
      else
        var total := DaysBetween(dto.checkIn.value, dto.checkOut.value) as real * quote.value;
        var draft := Draft(dto, total);
        var saved := Persist(s, draft, now);
        if saved.Failure? then Failure(saved.error)
        else
          var (t, rec) := saved.value;
          assert rec.totalPrice == Some(total);
          assert total == (dto.checkOut.value - dto.checkIn.value) as real * PricePerNight(dto.roomId, room).value;
          var flags := if flagUpdated then t.roomFlags[dto.roomId.value := false] else t.roomFlags;
          Success((t.(roomFlags := flags), rec))
  }

  /** Why a lookup by id threw. */
  datatype NotFound = ReservationNotFound(id: int)

  /** `getReservationById`. */
  function GetById(s: Store, id: int): (r: Result<Reservation, NotFound>)
    ensures r.Success? <==> id in s.records
    ensures r.Success? ==> r.value == s.records[id]
    ensures r.Failure? ==> r.error == ReservationNotFound(id)
  {
    if id in s.records then Success(s.records[id]) else Failure(ReservationNotFound(id))
  }

  /** `cancelReservation`: the record is deleted (its status is never set to
      CANCELLED) and its room marked available when the hotel service accepts
      it; an unknown id throws and changes nothing. */
  function Cancel(s: Store, id: int, flagUpdated: bool): (r: Result<Store, NotFound>)
    ensures r.Failure? <==> id !in s.records
    ensures r.Failure? ==> r.error == ReservationNotFound(id)
    ensures r.Success? ==>
      && r.value.records == s.records - {id}
      && r.value.nextId == s.nextId
      && var roomId := s.records[id].roomId;
         r.value.roomFlags == (if flagUpdated && roomId.Some? then s.roomFlags[roomId.value := true] else s.roomFlags)
    ensures r.Success? && ValidStore(s) ==> ValidStore(r.value)
    ensures r.Success? && NoneCancelled(s) ==> NoneCancelled(r.value)
  {
    var found :- GetById(s, id);
    var flags := if flagUpdated && found.roomId.Some? then s.roomFlags[found.roomId.value := true] else s.roomFlags;
    Success(s.(records := s.records - {id}, roomFlags := flags))
  }

  /** `confirmPayment`: an unknown id throws; an already confirmed record is
      left as it is; any other record, whatever its status, becomes CONFIRMED
      and its update hook runs. Nothing else changes. */
  function ConfirmPayment(s: Store, id: int, now: int): (r: Result<Store, NotFound>)
    ensures r.Failure? <==> id !in s.records
    ensures r.Failure? ==> r.error == ReservationNotFound(id)
    ensures r.Success? && s.records[id].status == Some(Confirmed) ==> r.value == s
    ensures r.Success? && s.records[id].status != Some(Confirmed) ==>
      r.value == s.(records := s.records[id := OnUpdate(s.records[id], now).(status := Some(Confirmed))])
    ensures r.Success? ==> r.value.records[id].status == Some(Confirmed) && r.value.records.Keys == s.records.Keys
    ensures r.Success? && ValidStore(s) ==> ValidStore(r.value)
    ensures r.Success? && NoneCancelled(s) ==> NoneCancelled(r.value)
  {
    var found :- GetById(s, id);
    if found.status == Some(Confirmed) then Success(s)
    else Success(s.(records := s.records[id := OnUpdate(found, now).(status := Some(Confirmed))]))
  }

  /** Confirming twice is confirming once, whenever the second call happens. */
  lemma ConfirmIdempotent(s: Store, id: int, first: int, second: int)
    requires id in s.records
    ensures ConfirmPayment(s, id, first).Success?
    ensures ConfirmPayment(ConfirmPayment(s, id, first).value, id, second) == ConfirmPayment(s, id, first)
  {
  }

  /** Whether a creation succeeds never depends on the reservations already
      stored: the service performs no overlap check, so the same room can be
      booked twice for the same nights. */
  lemma {:induction false} NoOverlapCheck(s: Store, other: Store, dto: ReservationDto, user: Lookup, hotel: Lookup,
                                          room: RoomReply, flagUpdated: bool, now: int)
    requires other.nextId == s.nextId
    ensures Create(s, dto, user, hotel, room, flagUpdated, now).Success?
        <==> Create(other, dto, user, hotel, room, flagUpdated, now).Success?
  {
    if DatesAccepted(dto, user, hotel) && PricePerNight(dto.roomId, room).Success? {
      var price := PricePerNight(dto.roomId, room).value;
      var draft := Draft(dto, DaysBetween(dto.checkIn.value, dto.checkOut.value) as real * price);
      assert Persist(s, draft, now).Success? <==> Persist(other, draft, now).Success?;
    }
  }

  /** Booking a room twice for the same nights: both creations succeed and the
      store then holds two records for the room whose stays coincide. */
  lemma DoubleBooking(s: Store, dto: ReservationDto, now: int)
    requires ValidStore(s)
    requires dto.userId.Some? && dto.hotelId.Some? && dto.roomId.Some?
    requires dto.checkIn.Some? && dto.checkOut.Some? && dto.checkOut.value > dto.checkIn.value
    ensures var first := Create(s, dto, Exists, Exists, RoomData(NoPrice), true, now);
      && first.Success?
      && var second := Create(first.value.0, dto, Exists, Exists, RoomData(NoPrice), true, now);
      && second.Success?
      && var t := second.value.0;
      && s.nextId in t.records && s.nextId + 1 in t.records
      && t.records[s.nextId].roomId == t.records[s.nextId + 1].roomId
      && t.records[s.nextId].checkIn == t.records[s.nextId + 1].checkIn
      && t.records[s.nextId].checkOut == t.records[s.nextId + 1].checkOut
  {
  }
}

=== FILE: seqs.dfy ===
/** `Array.prototype.filter` and the facts about it that the client's list
    handling relies on. */
module Seqs {

  /** The elements of `s` that satisfy `p`, in their order in `s`; every element
      is kept as often as it occurs when it satisfies `p`, and never otherwise. */
  function Filter<T(!new)>(s: seq<T>, p: T -> bool): (r: seq<T>)
    ensures |r| <= |s|
  {
    if |s| == 0 then []
    else
      var rest := Filter(s[1..], p);
      assert s == [s[0]] + s[1..];
      if p(s[0]) then [s[0]] + rest else rest
  }

  /** Every element that satisfies `p` is kept as often as it occurs, and no
      other element is kept. */
  lemma {:induction false} FilterCount<T(!new)>(s: seq<T>, p: T -> bool)
    ensures forall x :: multiset(Filter(s, p))[x] == if p(x) then multiset(s)[x] else 0
  {
    if |s| > 0 {
      FilterCount(s[1..], p);
      assert s == [s[0]] + s[1..];
    }
  }

  /** An element is kept exactly when it occurs and satisfies `p`. */
  lemma FilterMembers<T(!new)>(s: seq<T>, p: T -> bool)
    ensures forall x :: x in Filter(s, p) <==> x in s && p(x)
  {
    FilterCount(s, p);
    forall x
      ensures x in Filter(s, p) <==> x in s && p(x)
    {
      assert x in Filter(s, p) <==> multiset(Filter(s, p))[x] > 0;
      assert x in s <==> multiset(s)[x] > 0;
    }
  }

  /** Filtering a sequence that starts with `a`. */
  lemma FilterCons<T(!new)>(a: T, s: seq<T>, p: T -> bool)
    ensures Filter([a] + s, p) == (if p(a) then [a] else []) + Filter(s, p)
  {
    assert ([a] + s)[0] == a && ([a] + s)[1..] == s;
  }

  /** Filtering distributes over concatenation: it keeps the relative order. */
  lemma {:induction false} FilterConcat<T(!new)>(a: seq<T>, b: seq<T>, p: T -> bool)
    ensures Filter(a + b, p) == Filter(a, p) + Filter(b, p)
  {
    if |a| == 0 {
      assert a + b == b;
    } else {
      var ab := a + b;
      assert ab[0] == a[0] && ab[1..] == a[1..] + b;
      FilterConcat(a[1..], b, p);
      var tail := Filter(a[1..], p) + Filter(b, p);
      assert Filter(ab, p) == if p(a[0]) then [a[0]] + tail else tail;
    }
  }

  /** Filtering by `p` and then by `q` is filtering by both. */
  lemma {:induction false} FilterFilter<T(!new)>(s: seq<T>, p: T -> bool, q: T -> bool)
    ensures Filter(Filter(s, p), q) == Filter(s, x => p(x) && q(x))
  {
    if |s| > 0 {
      FilterFilter(s[1..], p, q);
    }
  }

  /** A filter that every element passes changes nothing. */
  lemma {:induction false} FilterAll<T(!new)>(s: seq<T>, p: T -> bool)
    requires forall i :: 0 <= i < |s| ==> p(s[i])
    ensures Filter(s, p) == s
  {
    if |s| > 0 {
      FilterAll(s[1..], p);
    }
  }
}

=== FILE: stay.dfy ===
/** Night counting and stay pricing. The client counts nights on millisecond
    timestamps in two ways (a ceiling in `HotelDetail` and `reservationService`,
    date-fns `differenceInDays` in `ReservationForm`); the backend counts
    `ChronoUnit.DAYS.between` on dates. Dates are day numbers; a date entered
    as `yyyy-MM-dd` is the timestamp of its midnight, `DayToMs`. */
module Stay {
  import opened Wrappers

  type Day = int

  const MsPerDay: int := 1000 * 60 * 60 * 24

  function DayToMs(d: Day): int {
    d * MsPerDay
  }

  /** `Math.ceil(a / b)` for a positive divisor. */
  function CeilDiv(a: int, b: int): (q: int)
    requires b > 0
    ensures b * (q - 1) < a <= b * q
  {
    -((-a) / b)
  }

  function Abs(x: int): nat {
    if x < 0 then -x else x
  }

  /** Integer division truncated toward zero, the rounding of date-fns'
      `differenceInDays` (a count of full days, signed). */
  function TruncDiv(a: int, b: int): (q: int)
    requires b > 0
    ensures Abs(q) == Abs(a) / b
    ensures q > 0 ==> a > 0
    ensures q < 0 ==> a < 0
  {
    if a >= 0 then a / b else -((-a) / b)
  }

  /** `ChronoUnit.DAYS.between(from, to)`: signed, negative when `to` is earlier. */
  function DaysBetween(from: Day, to: Day): int {
    to - from
  }

  /** `HotelDetail.calculateNights` once both dates are present: the ceiling of
      the elapsed days, or 0 when that is not positive. */
  function CeilNights(startMs: int, endMs: int): (n: int)
    ensures n >= 0
    ensures n == 0 <==> endMs <= startMs
    ensures endMs > startMs ==> MsPerDay * (n - 1) < endMs - startMs <= MsPerDay * n
  {
    var q := CeilDiv(endMs - startMs, MsPerDay);
    if q > 0 then q else 0
  }

  /** `reservationService.calculatePrice`: nights by ceiling times the nightly
      price, 0 unless the ceiling is positive. */
  function CalculatePrice(startMs: int, endMs: int, pricePerNight: real): (p: real)
    ensures endMs <= startMs ==> p == 0.0
    ensures pricePerNight >= 0.0 ==> p >= 0.0
  {
    var nights := CeilDiv(endMs - startMs, MsPerDay);
    if nights > 0 then nights as real * pricePerNight else 0.0
  }

  /** Exactly `n` whole days cost `n` nights. */
  lemma CalculatePriceWholeDays(startMs: int, n: int, pricePerNight: real)
    requires n >= 1
    ensures CalculatePrice(startMs, startMs + n * MsPerDay, pricePerNight) == n as real * pricePerNight
  {
    assert CeilDiv(n * MsPerDay, MsPerDay) == n;
  }

  /** A stay shorter than a day but positive is charged one full night, and any
      positive partial day rounds up. */
  lemma CalculatePricePartialDay(startMs: int, n: int, extraMs: int, pricePerNight: real)
    requires n >= 0 && 0 < extraMs < MsPerDay
    ensures CalculatePrice(startMs, startMs + n * MsPerDay + extraMs, pricePerNight)
         == (n + 1) as real * pricePerNight
  {
    var q := CeilDiv(n * MsPerDay + extraMs, MsPerDay);
    assert q == n + 1 by {
      assert MsPerDay * (q - 1) < n * MsPerDay + extraMs <= MsPerDay * q;
      assert MsPerDay * (q - 1) < MsPerDay * (n + 1);
      assert MsPerDay * n < MsPerDay * q;
    }
  }

  /** date-fns `differenceInDays(later, earlier)` on timestamps. */
  function DifferenceInDays(laterMs: int, earlierMs: int): int {
    TruncDiv(laterMs - earlierMs, MsPerDay)
  }

  /** `ReservationForm.calculateNights`: 0 when a date is missing, else the full
      days between the dates when positive, else 0. */
  function FormNights(checkIn: Option<Day>, checkOut: Option<Day>): (n: int)
    ensures n >= 0
    ensures checkIn.None? || checkOut.None? ==> n == 0
    ensures checkIn.Some? && checkOut.Some? ==>
      n == (if checkOut.value > checkIn.value then checkOut.value - checkIn.value else 0)
  {
    if checkIn.None? || checkOut.None? then 0
    else
      var nights := DifferenceInDays(DayToMs(checkOut.value), DayToMs(checkIn.value));
      assert nights == checkOut.value - checkIn.value by {
        var d := checkOut.value - checkIn.value;
        assert DayToMs(checkOut.value) - DayToMs(checkIn.value) == d * MsPerDay;
        if d >= 0 {
          assert (d * MsPerDay) / MsPerDay == d;
        } else {
          assert ((-d) * MsPerDay) / MsPerDay == -d;
        }
      }
      if nights > 0 then nights else 0
  }

  /** On whole-day inputs the three night counts agree: the client's ceiling,
      date-fns' truncation and Java's `DAYS.between` all give the day difference,
      and the two clamped client counts give it whenever it is positive. */
  lemma {:induction false} NightCountsAgree(checkIn: Day, checkOut: Day)
    ensures CeilDiv(DayToMs(checkOut) - DayToMs(checkIn), MsPerDay) == DaysBetween(checkIn, checkOut)
    ensures DifferenceInDays(DayToMs(checkOut), DayToMs(checkIn)) == DaysBetween(checkIn, checkOut)
    ensures CeilNights(DayToMs(checkIn), DayToMs(checkOut)) == FormNights(Some(checkIn), Some(checkOut))
    ensures CeilNights(DayToMs(checkIn), DayToMs(checkOut))
         == (if DaysBetween(checkIn, checkOut) > 0 then DaysBetween(checkIn, checkOut) else 0)
  {
    var d := checkOut - checkIn;
    assert DayToMs(checkOut) - DayToMs(checkIn) == d * MsPerDay;
    if d >= 0 {
      assert (d * MsPerDay) / MsPerDay == d;
    } else {
      assert ((-d) * MsPerDay) / MsPerDay == -d;
    }
  }

  /** `ReservationForm.calculateTotalPrice`: nights times the selected room's
      price, a missing room or price (`selectedRoom?.price || 0`) counting as 0. */
  function FormTotalPrice(checkIn: Option<Day>, checkOut: Option<Day>, roomPrice: Option<real>): (p: real)
    ensures roomPrice.None? || roomPrice == Some(0.0) ==> p == 0.0
    ensures roomPrice.Some? ==> p == FormNights(checkIn, checkOut) as real * roomPrice.value
  {
    var price := if roomPrice.Some? && roomPrice.value != 0.0 then roomPrice.value else 0.0;
    FormNights(checkIn, checkOut) as real * price
  }

  /** On the days the form picks, its total is the price the reservation
      service's `calculatePrice` quotes for the same stay. */
  lemma FormPriceAgrees(checkIn: Day, checkOut: Day, price: real)
    ensures FormTotalPrice(Some(checkIn), Some(checkOut), Some(price))
         == CalculatePrice(DayToMs(checkIn), DayToMs(checkOut), price)
  {
    NightCountsAgree(checkIn, checkOut);
  }

  /** The messages of `ReservationForm.validateDates`, in the order it checks. */
  datatype DateError =
    | MissingDates
    | CheckInInPast
    | CheckOutNotAfterCheckIn
    | TooShort
    | TooLong

  /** `ReservationForm.validateDates`: the first failing check alone decides the
      message. `today` is the day number of the local midnight the form takes. */
  function ValidateDates(checkIn: Option<Day>, checkOut: Option<Day>, today: Day): (r: Result<(), DateError>)
    ensures checkIn.None? || checkOut.None? ==> r == Failure(MissingDates)
    ensures checkIn.Some? && checkOut.Some? && checkIn.value < today ==> r == Failure(CheckInInPast)
    ensures checkIn.Some? && checkOut.Some? && checkIn.value >= today && checkOut.value <= checkIn.value
      ==> r == Failure(CheckOutNotAfterCheckIn)
    ensures checkIn.Some? && checkOut.Some? && checkIn.value >= today && checkOut.value - checkIn.value > 30
      ==> r == Failure(TooLong)
    ensures r.Success? <==>
      checkIn.Some? && checkOut.Some? && checkIn.value >= today && 1 <= checkOut.value - checkIn.value <= 30
    ensures r != Failure(TooShort)
  {
    if checkIn.None? || checkOut.None? then Failure(MissingDates)
    else if checkIn.value < today then Failure(CheckInInPast)
    else if !(checkOut.value > checkIn.value) then Failure(CheckOutNotAfterCheckIn)
    else
      var nights := FormNights(checkIn, checkOut);
      if nights < 1 then Failure(TooShort)
      else if nights > 30 then Failure(TooLong)
      else Success(())
  }

  /** What `ReservationForm.handleSubmit` does, in its guard order. */
  datatype SubmitOutcome =
    | RedirectToLogin
    | InvalidDates(error: DateError)
    | NoRoomSelected
    | CreateReservation(userId: int, hotelId: int, roomId: int, checkIn: Day, checkOut: Day)

  function FormSubmit(authenticated: bool, checkIn: Option<Day>, checkOut: Option<Day>, today: Day,
                      userId: int, hotelId: int, selectedRoom: Option<int>): (o: SubmitOutcome)
    ensures !authenticated ==> o == RedirectToLogin
    ensures authenticated && ValidateDates(checkIn, checkOut, today).Failure? ==>
      o == InvalidDates(ValidateDates(checkIn, checkOut, today).error)
    ensures o.CreateReservation? <==>
      authenticated && ValidateDates(checkIn, checkOut, today).Success? && selectedRoom.Some?
    ensures o.CreateReservation? ==>
      o.roomId == selectedRoom.value && Some(o.checkIn) == checkIn && Some(o.checkOut) == checkOut
      && today <= o.checkIn && 1 <= o.checkOut - o.checkIn <= 30
  {
    if !authenticated then RedirectToLogin
    else
      var v := ValidateDates(checkIn, checkOut, today);
      if v.Failure? then InvalidDates(v.error)
      else if selectedRoom.None? then NoRoomSelected
      else CreateReservation(userId, hotelId, selectedRoom.value, checkIn.value, checkOut.value)
  }
}

=== FILE: text.dfy ===
/** Character and string primitives that the client and the services rely on:
    the whitespace class of JavaScript regular expressions, ASCII digits,
    the character order of JavaScript string comparison, decimal rendering,
    `String.prototype.split` and `includes`. A character is a Unicode scalar
    value: one outside the Basic Multilingual Plane counts once here, where
    JavaScript and Java count its two UTF-16 code units. */
module Text {
  import opened Wrappers

  /** The characters matched by `\s` in a JavaScript regular expression and
      removed by `String.prototype.trim` (WhiteSpace and LineTerminator). */
  predicate IsWhitespace(c: char) {
    c == ' ' || c == '\t' || c == '\n' || c == '\r' || c == '\U{B}' || c == '\U{C}'
    || c == '\U{A0}' || c == '\U{1680}' || ('\U{2000}' <= c <= '\U{200A}')
    || c == '\U{2028}' || c == '\U{2029}' || c == '\U{202F}' || c == '\U{205F}'
    || c == '\U{3000}' || c == '\U{FEFF}'
  }

  /** The characters matched by `\d`. */
  predicate IsDigit(c: char) {
    '0' <= c <= '9'
  }

  predicate AllDigits(s: string) {
    forall i :: 0 <= i < |s| ==> IsDigit(s[i])
  }

  predicate NoWhitespace(s: string) {
    forall i :: 0 <= i < |s| ==> !IsWhitespace(s[i])
  }

  /** `s.replace(/\s/g, '')`. */
  function StripWhitespace(s: string): (r: string)
    ensures NoWhitespace(r)
    ensures |r| <= |s|
    ensures NoWhitespace(s) ==> r == s
  {
    if |s| == 0 then ""
    else if IsWhitespace(s[0]) then StripWhitespace(s[1..])
    else [s[0]] + StripWhitespace(s[1..])
  }

  /** `s.replace(/\D/g, '')`. */
  function KeepDigits(s: string): (r: string)
    ensures AllDigits(r)
    ensures |r| <= |s|
    ensures AllDigits(s) ==> r == s
  {
    if |s| == 0 then ""
    else if IsDigit(s[0]) then [s[0]] + KeepDigits(s[1..])
    else KeepDigits(s[1..])
  }

  function TrimStart(s: string): (r: string)
    ensures |r| <= |s|
    ensures |r| > 0 ==> !IsWhitespace(r[0])
    ensures r == s[|s| - |r|..]
  {
    if |s| > 0 && IsWhitespace(s[0]) then TrimStart(s[1..]) else s
  }

  function TrimEnd(s: string): (r: string)
    ensures |r| <= |s|
    ensures |r| > 0 ==> !IsWhitespace(r[|r| - 1])
    ensures r == s[..|r|]
  {
    if |s| > 0 && IsWhitespace(s[|s| - 1]) then TrimEnd(s[..|s| - 1]) else s
  }

  /** `s.trim()`. */
  function Trim(s: string): string {
    TrimEnd(TrimStart(s))
  }

  function ToLowerChar(c: char): char {
    if 'A' <= c <= 'Z' then (c as int + 32) as char else c
  }

  /** `s.toLowerCase()`, restricted to the ASCII letters. */
  function ToLower(s: string): (r: string)
    ensures |r| == |s|
    ensures forall i :: 0 <= i < |s| ==> r[i] == ToLowerChar(s[i])
  {
    if |s| == 0 then "" else [ToLowerChar(s[0])] + ToLower(s[1..])
  }

  /** `needle` occurs in `hay` starting at index `i`. */
  predicate OccursAt(hay: string, needle: string, i: int) {
    0 <= i <= |hay| - |needle| && hay[i..i + |needle|] == needle
  }

  /** `hay.includes(needle)`. */
  predicate Contains(hay: string, needle: string) {
    exists i :: 0 <= i <= |hay| && OccursAt(hay, needle, i)
  }

  /** The order of JavaScript's `<` on strings: character by character, a
      proper prefix being smaller; for text within the Basic Multilingual Plane
      this is JavaScript's code-unit order. (Dafny's own `<` on sequences is the prefix order.) */
  predicate LexLess(a: string, b: string) {
    if |a| == 0 then |b| > 0
    else if |b| == 0 then false
    else if a[0] != b[0] then a[0] < b[0]
    else LexLess(a[1..], b[1..])
  }

  /** Comparing two strings that start with blocks of equal length is decided by
      the first blocks unless they are equal. */
  lemma {:induction false} LexLessConcat(a: string, b: string, c: string, d: string)
    requires |a| == |b|
    ensures a != b ==> (LexLess(a + c, b + d) <==> LexLess(a, b))
    ensures a == b ==> (LexLess(a + c, b + d) <==> LexLess(c, d))
    decreases |a|
  {
    if |a| == 0 {
      assert a + c == c && b + d == d;
    } else {
      assert (a + c)[0] == a[0] && (b + d)[0] == b[0];
      assert (a + c)[1..] == a[1..] + c && (b + d)[1..] == b[1..] + d;
      LexLessConcat(a[1..], b[1..], c, d);
      if a[0] == b[0] {
        assert a != b <==> a[1..] != b[1..] by {
          if a[1..] == b[1..] {
            assert a == [a[0]] + a[1..] && b == [b[0]] + b[1..];
          }
        }
      }
    }
  }

  function DigitChar(d: nat): (c: char)
    requires d < 10
    ensures IsDigit(c)
  {
    ('0' as int + d) as char
  }

  function Pow10(w: nat): (p: nat)
    ensures p >= 1
  {
    if w == 0 then 1 else 10 * Pow10(w - 1)
  }

  /** `n` written with exactly `w` decimal digits, zero-padded on the left
      (`String(n).padStart(w, '0')` for `n < 10^w`). */
  function Pad(n: nat, w: nat): (r: string)
    ensures |r| == w
    ensures AllDigits(r)
  {
    if w == 0 then "" else Pad(n / 10, w - 1) + [DigitChar(n % 10)]
  }

  /** For numbers of at most `w` digits the padded forms are equal exactly when
      the numbers are, and compare as strings exactly as the numbers do. */
  lemma {:induction false} PadOrder(x: nat, y: nat, w: nat)
    requires x < Pow10(w) && y < Pow10(w)
    ensures Pad(x, w) == Pad(y, w) <==> x == y
    ensures LexLess(Pad(x, w), Pad(y, w)) <==> x < y
  {
    if w == 0 {
    } else {
      var hx, hy := Pad(x / 10, w - 1), Pad(y / 10, w - 1);
      var dx, dy := [DigitChar(x % 10)], [DigitChar(y % 10)];
      assert x / 10 < Pow10(w - 1) && y / 10 < Pow10(w - 1);
      PadOrder(x / 10, y / 10, w - 1);
      LexLessConcat(hx, hy, dx, dy);
      if x / 10 == y / 10 {
        assert LexLess(dx, dy) <==> x % 10 < y % 10;
        assert dx == dy <==> x % 10 == y % 10;
        assert Pad(x, w) == hx + dx && Pad(y, w) == hy + dy;
        if Pad(x, w) == Pad(y, w) {
          assert (hx + dx)[w - 1] == dx[0] && (hy + dy)[w - 1] == dy[0];
        }
      } else {
        assert Pad(x, w) != Pad(y, w) by {
          assert Pad(x, w)[..w - 1] == hx && Pad(y, w)[..w - 1] == hy;
        }
      }
    }
  }

  /** `String(n)` for a non-negative integer. */
  function Decimal(n: nat): (r: string)
    ensures |r| > 0
    ensures AllDigits(r)
  {
    if n < 10 then [DigitChar(n)] else Decimal(n / 10) + [DigitChar(n % 10)]
  }

  /** `String(n)` for any integer. */
  function IntToString(n: int): string {
    if n < 0 then "-" + Decimal(-n) else Decimal(n)
  }

  /** The number a string of decimal digits denotes. */
  function DigitsValue(s: string): nat
    requires AllDigits(s)
  {
    if |s| == 0 then 0 else 10 * DigitsValue(s[..|s| - 1]) + (s[|s| - 1] as int - '0' as int)
  }

  lemma {:induction false} DecimalValue(n: nat)
    ensures DigitsValue(Decimal(n)) == n
  {
    if n >= 10 {
      var d := Decimal(n / 10) + [DigitChar(n % 10)];
      assert d[..|d| - 1] == Decimal(n / 10);
      DecimalValue(n / 10);
    }
  }

  /** `Number(s)` for the forms the model covers: surrounding whitespace is
      ignored, the empty string is 0, an optional sign may precede the digits;
      anything else is `NaN` (None). */
  function StringToNumber(s: string): (r: Option<int>)
    ensures Trim(s) == "" ==> r == Some(0)
    ensures AllDigits(s) && |s| > 0 ==> r == Some(DigitsValue(s))
  {
    TrimDigits(s);
    var t := Trim(s);
    if t == "" then Some(0)
    else if AllDigits(t) then Some(DigitsValue(t))
    else if |t| > 1 && t[0] == '+' && AllDigits(t[1..]) then Some(DigitsValue(t[1..]))
    else if |t| > 1 && t[0] == '-' && AllDigits(t[1..]) then (var v: int := DigitsValue(t[1..]); Some(-v))
    else None
  }

  /** A run of digits has no whitespace to trim. */
  lemma TrimDigits(s: string)
    ensures AllDigits(s) && |s| > 0 ==> Trim(s) == s
  {
    if AllDigits(s) && |s| > 0 {
      assert IsDigit(s[0]) && IsDigit(s[|s| - 1]);
      DigitNotSpace(s[0]);
      DigitNotSpace(s[|s| - 1]);
      KeepStart(s);
      KeepEnd(s);
    }
  }

  /** A digit is not whitespace. */
  lemma DigitNotSpace(c: char)
    requires IsDigit(c)
    ensures !IsWhitespace(c)
  {
  }

  /** Nothing is trimmed from the front of a text that starts with other than
      whitespace. */
  lemma KeepStart(s: string)
    requires |s| > 0 && !IsWhitespace(s[0])
    ensures TrimStart(s) == s
  {
  }

  /** Nothing is trimmed from the end of a text that ends with other than
      whitespace. */
  lemma KeepEnd(s: string)
    requires |s| > 0 && !IsWhitespace(s[|s| - 1])
    ensures TrimEnd(s) == s
  {
  }

  /** The index of the first `sep` in `s`. */
  function FirstIndex(s: string, sep: char): (i: nat)
    requires sep in s
    ensures i < |s| && s[i] == sep
    ensures sep !in s[..i]
  {
    if s[0] == sep then 0 else 1 + FirstIndex(s[1..], sep)
  }

  /** `s.split(sep)` for a one-character separator. */
  function Split(s: string, sep: char): (parts: seq<string>)
    ensures |parts| >= 1
    ensures forall k :: 0 <= k < |parts| ==> sep !in parts[k]
    decreases |s|
  {
    if sep !in s then [s]
    else
      var i := FirstIndex(s, sep);
      [s[..i]] + Split(s[i + 1..], sep)
  }

  function Join(parts: seq<string>, sep: char): string
    requires |parts| >= 1
  {
    if |parts| == 1 then parts[0] else parts[0] + [sep] + Join(parts[1..], sep)
  }

  /** Splitting and joining back with the same separator gives the string back. */
  lemma {:induction false} JoinSplit(s: string, sep: char)
    ensures Join(Split(s, sep), sep) == s
    decreases |s|
  {
    if sep in s {
      var i := FirstIndex(s, sep);
      JoinSplit(s[i + 1..], sep);
      assert Split(s, sep)[1..] == Split(s[i + 1..], sep);
      assert s == s[..i] + [sep] + s[i + 1..];
    }
  }

  /** `s.split(sep)[k]`: None stands for `undefined` past the last part. */
  function Segment(s: string, sep: char, k: nat): Option<string> {
    var parts := Split(s, sep);
    if k < |parts| then Some(parts[k]) else None
  }

  /** There is a part after the first one exactly when the separator occurs. */
  lemma SecondSegmentExists(s: string, sep: char)
    ensures Segment(s, sep, 1).Some? <==> sep in s
    ensures Segment(s, sep, 0) == Some(if sep in s then s[..FirstIndex(s, sep)] else s)
  {
    if sep in s {
      var i := FirstIndex(s, sep);
      assert |Split(s, sep)| == 1 + |Split(s[i + 1..], sep)|;
    }
  }

  /** The longest run of digits `s` starts with. */
  function LeadingDigits(s: string): (r: string)
    ensures AllDigits(r)
    ensures |r| <= |s| && r == s[..|r|]
    ensures |r| < |s| ==> !IsDigit(s[|r|])
  {
    if |s| > 0 && IsDigit(s[0]) then [s[0]] + LeadingDigits(s[1..]) else ""
  }

  /** `parseInt(s)` in base 10: leading whitespace is skipped, a sign may
      follow, then as many digits as there are; the rest of the text is
      ignored. No digit at all is `NaN` (None). */
  function ParseInt(s: string): (r: Option<int>)
    ensures r.Some? <==>
      var t := TrimStart(s);
      |LeadingDigits(t)| > 0 || (|t| > 0 && (t[0] == '+' || t[0] == '-') && |LeadingDigits(t[1..])| > 0)
  {
    SignedDigits(TrimStart(s))
  }

  /** The sign and digits `parseInt` reads once the leading whitespace is gone. */
  function SignedDigits(t: string): (r: Option<int>)
    ensures r.Some? <==>
      |LeadingDigits(t)| > 0 || (|t| > 0 && (t[0] == '+' || t[0] == '-') && |LeadingDigits(t[1..])| > 0)
  {
    if |t| > 0 && t[0] == '-' then Negate(Unsigned(t[1..]))
    else if |t| > 0 && t[0] == '+' then Unsigned(t[1..])
    else Unsigned(t)
  }

  function Negate(v: Option<int>): (r: Option<int>)
    ensures r.Some? <==> v.Some?
  {
    if v.None? then None else Some(-v.value)
  }

  /** The value of the digits a text starts with, None when it starts with none. */
  function Unsigned(b: string): (r: Option<int>)
    ensures r.Some? <==> |LeadingDigits(b)| > 0
  {
    var digits := LeadingDigits(b);
    if |digits| == 0 then None else Some(DigitsValue(digits))
  }

  /** `parseInt` reads back what `String` writes for a non-negative integer. */
  lemma ParseIntDecimal(n: nat)
    ensures ParseInt(Decimal(n)) == Some(n)
  {
    DecimalValue(n);
    ParseIntDigits(Decimal(n));
  }

  /** A run of digits reads as its value. */
  lemma ParseIntDigits(d: string)
    requires AllDigits(d) && |d| > 0
    ensures ParseInt(d) == Some(DigitsValue(d))
  {
    assert TrimStart(d) == d by {
      assert IsDigit(d[0]);
    }
    SignedDigitsPlain(d);
  }

  lemma SignedDigitsPlain(d: string)
    requires AllDigits(d) && |d| > 0
    ensures SignedDigits(d) == Some(DigitsValue(d))
  {
    assert IsDigit(d[0]);
    UnsignedAll(d);
  }

  lemma UnsignedAll(d: string)
    requires AllDigits(d) && |d| > 0
    ensures Unsigned(d) == Some(DigitsValue(d))
  {
    LeadingDigitsAll(d);
  }

  lemma {:induction false} LeadingDigitsAll(s: string)
    requires AllDigits(s)
    ensures LeadingDigits(s) == s
  {
    if |s| > 0 {
      LeadingDigitsAll(s[1..]);
      assert s == [s[0]] + s[1..];
    }
  }

  /** Removing whitespace works piece by piece. */
  lemma {:induction false} StripConcat(a: string, b: string)
    ensures StripWhitespace(a + b) == StripWhitespace(a) + StripWhitespace(b)
    decreases |a|
  {
    if |a| > 0 {
      var ab := a + b;
      assert ab[0] == a[0] && ab[1..] == a[1..] + b;
      StripConcat(a[1..], b);
      if IsWhitespace(a[0]) {
        assert StripWhitespace(ab) == StripWhitespace(a[1..] + b);
        assert StripWhitespace(a) == StripWhitespace(a[1..]);
      } else {
        assert StripWhitespace(ab) == [a[0]] + StripWhitespace(a[1..] + b);
        assert StripWhitespace(a) == [a[0]] + StripWhitespace(a[1..]);
      }
    } else {
      assert a + b == b;
    }
  }

  /** Trimming removes whitespace only. */
  lemma {:induction false} StripTrim(s: string)
    ensures StripWhitespace(Trim(s)) == StripWhitespace(s)
  {
    StripTrimStart(s);
    StripTrimEnd(TrimStart(s));
  }

  lemma {:induction false} StripTrimStart(s: string)
    ensures StripWhitespace(TrimStart(s)) == StripWhitespace(s)
    decreases |s|
  {
    if |s| > 0 && IsWhitespace(s[0]) {
      StripTrimStart(s[1..]);
    }
  }

  lemma {:induction false} StripTrimEnd(s: string)
    ensures StripWhitespace(TrimEnd(s)) == StripWhitespace(s)
    decreases |s|
  {
    if |s| > 0 && IsWhitespace(s[|s| - 1]) {
      var n := |s| - 1;
      StripTrimEnd(s[..n]);
      assert s == s[..n] + [s[n]];
      StripConcat(s[..n], [s[n]]);
      assert StripWhitespace([s[n]]) == "";
    }
  }

  /** Trailing trimming keeps every character up to the last non-whitespace one. */
  lemma {:induction false} TrimEndKeeps(s: string, i: nat)
    requires i < |s| && !IsWhitespace(s[i])
    ensures i < |TrimEnd(s)|
    decreases |s|
  {
    if IsWhitespace(s[|s| - 1]) {
      TrimEndKeeps(s[..|s| - 1], i);
    }
  }

  /** Two parts joined by a separator that neither contains split back into
      those parts. */
  lemma SplitPair(a: string, b: string, sep: char)
    requires sep !in a && sep !in b
    ensures Split(a + [sep] + b, sep) == [a, b]
  {
    var s := a + [sep] + b;
    assert s[|a|] == sep;
    assert s[..|a|] == a;
    assert FirstIndex(s, sep) == |a|;
    assert s[|a| + 1..] == b;
  }

  /** `s.slice(start, end)` for non-negative bounds, which are clamped to the
      length. */
  function Slice(s: string, start: nat, end: nat): (r: string)
    ensures |r| <= |s| && |r| <= end
    ensures start <= end <= |s| ==> r == s[start..end]
    ensures end >= |s| && start <= |s| ==> r == s[start..]
  {
    var e := if end < |s| then end else |s|;
    if start >= e then "" else s[start..e]
  }

  /** A string occurs inside any concatenation that has it in the middle. */
  lemma ContainsInfix(a: string, m: string, b: string)
    ensures Contains(a + m + b, m)
  {
    var t := a + m + b;
    assert t[|a|..|a| + |m|] == m;
    assert OccursAt(t, m, |a|);
  }

  /** A nullable Java `Long` in string concatenation: `null` prints as "null". */
  function JavaLong(v: Option<int>): (r: string)
    ensures v.None? <==> r == "null"
  {
    if v.None? then "null"
    else
      var t := IntToString(v.value);
      assert t[0] == '-' || IsDigit(t[0]);
      t
  }

  /** A nullable Java `String` in string concatenation. */
  function JavaString(v: Option<string>): (r: string)
    ensures v.Some? ==> r == v.value
    ensures v.None? ==> r == "null"
  {
    if v.None? then "null" else v.value
  }
}

=== FILE: user_service.dfy ===
/** `UserService`: registration and login over the user table. The table is
    the sequence of its rows in insertion order, the row at index `i` having id
    `i + 1`; the password encoder and the entity's `getFullName` are function
    parameters, and the clock is `millis`. */
module UserService {
  import opened Wrappers
  import opened Text

  datatype User = User(
    id: Option<int>,
    email: Option<string>,
    password: string,
    firstName: Option<string>,
    lastName: Option<string>,
    phoneNumber: Option<string>,
    role: string,
    active: bool)

  datatype UserStore = UserStore(rows: seq<User>)

  datatype RegisterRequest = RegisterRequest(
    email: Option<string>, password: string, firstName: Option<string>, lastName: Option<string>,
    phoneNumber: Option<string>)

  datatype LoginRequest = LoginRequest(email: Option<string>, password: string)

  /** The values the reply maps hold. */
  datatype Value = LongValue(n: Option<int>) | TextValue(s: Option<string>)

  /** The response map: a message, a token, and the user map. */
  datatype AuthReply = AuthReply(message: string, token: string, user: map<string, Value>)

  datatype UserError = EmailTaken | BadCredentials | AccountDisabled | UserNotFound

  function Message(e: UserError): string {
    match e
    case EmailTaken => "Cet email est déjà utilisé"
    case BadCredentials => "Email ou mot de passe incorrect"
    case AccountDisabled => "Compte désactivé"
    case UserNotFound => "Utilisateur non trouvé"
  }

  /** Row `i` carries id `i + 1`, and no two rows share an email. */
  predicate ValidUsers(s: UserStore) {
    && (forall i | 0 <= i < |s.rows| :: s.rows[i].id == Some(i + 1))
    && (forall i, j | 0 <= i < j < |s.rows| :: s.rows[i].email != s.rows[j].email)
  }

  /** `existsByEmail` (a `null` email matches the rows without one). */
  predicate HasEmail(s: UserStore, email: Option<string>) {
    exists i | 0 <= i < |s.rows| :: s.rows[i].email == email
  }

  /** `findByEmail`: the index of the first row with the email. */
  function FindByEmail(rows: seq<User>, email: Option<string>): (r: Option<nat>)
    ensures r.Some? ==> r.value < |rows| && rows[r.value].email == email
    ensures r.Some? ==> forall i | 0 <= i < r.value :: rows[i].email != email
    ensures r.None? <==> forall i | 0 <= i < |rows| :: rows[i].email != email
  {
    if |rows| == 0 then None
    else if rows[0].email == email then Some(0)
    else
      var rest := FindByEmail(rows[1..], email);
      if rest.None? then
        assert forall i | 0 < i < |rows| :: rows[i].email != email by {
          forall i | 0 < i < |rows| ensures rows[i].email != email {
            assert rows[i] == rows[1..][i - 1];
          }
        }
        None
      else Some(rest.value + 1)
  }

  /** `"token-" + id + "-" + System.currentTimeMillis()`. */
  function Token(id: Option<int>, millis: nat): (t: string)
    ensures var head := "token-" + JavaLong(id) + "-"; |t| > |head| && t[..|head|] == head
  {
    var head := "token-" + JavaLong(id) + "-";
    var t := head + Decimal(millis);
    assert t[..|head|] == head;
    t
  }

  /** The user map of a reply: id, email, names and the full name, and the
      phone number when `withPhone`. */
  function UserMap(u: User, fullName: User -> Option<string>, withPhone: bool): (m: map<string, Value>)
    ensures m.Keys == {"id", "email", "firstName", "lastName", "username"} + (if withPhone then {"phoneNumber"} else {})
    ensures m["id"] == LongValue(u.id) && m["email"] == TextValue(u.email)
    ensures m["firstName"] == TextValue(u.firstName) && m["lastName"] == TextValue(u.lastName)
    ensures m["username"] == TextValue(fullName(u))
    ensures withPhone ==> m["phoneNumber"] == TextValue(u.phoneNumber)
  {
    var base := map["id" := LongValue(u.id), "email" := TextValue(u.email), "firstName" := TextValue(u.firstName),
                     "lastName" := TextValue(u.lastName), "username" := TextValue(fullName(u))];
    if withPhone then base["phoneNumber" := TextValue(u.phoneNumber)] else base
  }

  /** The reply's user map never carries the password, the role or the
      active flag: users that differ only in those give the same map, and the
      phone number is a key exactly in the login reply. */
  lemma UserMapHidesSecrets(u: User, password: string, role: string, active: bool,
                            fullName: User -> Option<string>, withPhone: bool)
    requires fullName(u.(password := password, role := role, active := active)) == fullName(u)
    ensures UserMap(u.(password := password, role := role, active := active), fullName, withPhone)
         == UserMap(u, fullName, withPhone)
    ensures "phoneNumber" in UserMap(u, fullName, withPhone) <==> withPhone
    ensures "password" !in UserMap(u, fullName, withPhone) && "role" !in UserMap(u, fullName, withPhone)
  {
  }

  /** `register`: an email already in the table is refused and nothing is
      saved; otherwise a new row is appended with the encoded password, role
      USER and the account active, and the reply carries its id, its email and
      a token `token-<id>-…`, but no phone number. */
  function Register(s: UserStore, req: RegisterRequest, encode: string -> string,
                    fullName: User -> Option<string>, millis: nat): (r: Result<(UserStore, AuthReply), UserError>)
    ensures HasEmail(s, req.email) <==> r == Failure(EmailTaken)
    ensures r.Failure? ==> r.error == EmailTaken
    ensures r.Success? ==>
      var (s2, reply) := r.value;
      var u := User(Some(|s.rows| + 1), req.email, encode(req.password), req.firstName, req.lastName,
                    req.phoneNumber, "USER", true);
      && s2.rows == s.rows + [u]
      && reply.message == "Inscription réussie"
      && reply.token == Token(u.id, millis)
      && reply.user == UserMap(u, fullName, false)
  {
    if HasEmail(s, req.email) then Failure(EmailTaken)
    else
      var u := User(Some(|s.rows| + 1), req.email, encode(req.password), req.firstName, req.lastName,
                    req.phoneNumber, "USER", true);
      var s2 := UserStore(s.rows + [u]);
      Success((s2, AuthReply("Inscription réussie", Token(u.id, millis), UserMap(u, fullName, false))))
  }

  /** Registration keeps ids in step with rows and emails unique. */
  lemma RegisterValid(s: UserStore, req: RegisterRequest, encode: string -> string,
                      fullName: User -> Option<string>, millis: nat)
    requires ValidUsers(s)
    ensures var r := Register(s, req, encode, fullName, millis);
      r.Success? ==> ValidUsers(r.value.0)
  {
    var r := Register(s, req, encode, fullName, millis);
    if r.Success? {
      var rows := r.value.0.rows;
      assert forall i | 0 <= i < |s.rows| :: rows[i] == s.rows[i];
      assert forall i | 0 <= i < |s.rows| :: rows[i].email != req.email;
    }
  }

  /** `login`: an unknown email and a wrong password give the same error; an
      inactive account is reported only once the password has matched; a
      successful reply carries the user's id, email, names and phone number,
      and a token `token-<id>-…`. `matches(raw, stored)` is
      `encode(raw) == stored`. */
  function Login(s: UserStore, req: LoginRequest, encode: string -> string,
                 fullName: User -> Option<string>, millis: nat): (r: Result<AuthReply, UserError>)
    ensures !HasEmail(s, req.email) ==> r == Failure(BadCredentials)
    ensures r.Failure? ==> r.error in {BadCredentials, AccountDisabled}
    ensures r == Failure(AccountDisabled) ==>
      var i := FindByEmail(s.rows, req.email).value;
      encode(req.password) == s.rows[i].password && !s.rows[i].active
    ensures r.Success? <==>
      var found := FindByEmail(s.rows, req.email);
      found.Some? && encode(req.password) == s.rows[found.value].password && s.rows[found.value].active
    ensures r.Success? ==>
      var u := s.rows[FindByEmail(s.rows, req.email).value];
      && r.value.message == "Connexion réussie"
      && r.value.token == Token(u.id, millis)
      && r.value.user == UserMap(u, fullName, true)
  {
    var found := FindByEmail(s.rows, req.email);
    if found.None? then Failure(BadCredentials)
    else
      var u := s.rows[found.value];
      if encode(req.password) != u.password then Failure(BadCredentials)
      else if !u.active then Failure(AccountDisabled)
      else Success(AuthReply("Connexion réussie", Token(u.id, millis), UserMap(u, fullName, true)))
  }

  /** The refusals of an unknown email and of a wrong password cannot be told
      apart. */
  lemma LoginHidesCause(s: UserStore, unknown: LoginRequest, wrong: LoginRequest, encode: string -> string,
                        fullName: User -> Option<string>, millis: nat)
    requires !HasEmail(s, unknown.email)
    requires FindByEmail(s.rows, wrong.email).Some?
    requires encode(wrong.password) != s.rows[FindByEmail(s.rows, wrong.email).value].password
    ensures Login(s, unknown, encode, fullName, millis) == Login(s, wrong, encode, fullName, millis)
    ensures Message(Login(s, unknown, encode, fullName, millis).error) == "Email ou mot de passe incorrect"
  {
  }

  /** A user who has just registered can log in with the same email and
      password, and is then known by the id the registration returned. The
      login reply adds the phone number to the register reply's user map. */
  lemma RegisterThenLogin(s: UserStore, req: RegisterRequest, encode: string -> string,
                          fullName: User -> Option<string>, m1: nat, m2: nat)
    requires ValidUsers(s)
    requires Register(s, req, encode, fullName, m1).Success?
    ensures var (s2, reg) := Register(s, req, encode, fullName, m1).value;
      var log := Login(s2, LoginRequest(req.email, req.password), encode, fullName, m2);
      && log.Success?
      && log.value.user["id"] == reg.user["id"] == LongValue(Some(|s.rows| + 1))
      && log.value.user == reg.user["phoneNumber" := TextValue(req.phoneNumber)]
  {
    var (s2, reg) := Register(s, req, encode, fullName, m1).value;
    var found := FindByEmail(s2.rows, req.email);
    assert s2.rows[|s.rows|].email == req.email;
    assert forall i | 0 <= i < |s.rows| :: s2.rows[i].email != req.email by {
      assert forall i | 0 <= i < |s.rows| :: s2.rows[i] == s.rows[i];
    }
    assert found == Some(|s.rows|);
    var u := s2.rows[|s.rows|];
    assert UserMap(u, fullName, true) == UserMap(u, fullName, false)["phoneNumber" := TextValue(req.phoneNumber)];
  }

  /** `getUserById`. */
  function GetUserById(s: UserStore, id: int): (r: Result<User, UserError>)
    ensures r.Success? <==> 1 <= id <= |s.rows|
    ensures r.Success? ==> r.value == s.rows[id - 1]
    ensures r.Failure? ==> r.error == UserNotFound
  {
    if 1 <= id <= |s.rows| then Success(s.rows[id - 1]) else Failure(UserNotFound)
  }

  /** In a valid table the row of id `k` is the one `getUserById(k)` returns. */
  lemma GetUserByIdFinds(s: UserStore, i: nat)
    requires ValidUsers(s) && i < |s.rows|
    ensures GetUserById(s, s.rows[i].id.value) == Success(s.rows[i])
  {
  }

  /** `getUserByEmail`. */
  function GetUserByEmail(s: UserStore, email: Option<string>): (r: Result<User, UserError>)
    ensures r.Success? <==> HasEmail(s, email)
    ensures r.Success? ==> r.value.email == email && r.value in s.rows
    ensures r.Failure? ==> r.error == UserNotFound
  {
    var found := FindByEmail(s.rows, email);
    if found.None? then Failure(UserNotFound) else Success(s.rows[found.value])
  }
}

=== FILE: wrappers.dfy ===
/** Failure-compatible wrappers shared by every module of the model:
    `Option` stands for a Java `null` / JS `undefined`, `Result` for a call that
    either returns a value or throws. */
module Wrappers {

  datatype Option<+T> = None | Some(value: T) {

    /** The wrapped value, or `default` when there is none. */
    function GetOr(default: T): T {
      match this
      case Some(v) => v
      case None => default
    }
  }

  datatype Result<+R, +E> = Success(value: R) | Failure(error: E) {

    predicate IsFailure() {
      Failure?
    }

    function PropagateFailure<U>(): Result<U, E>
      requires Failure?
    {
      Failure(error)
    }

    function Extract(): R
      requires Success?
    {
      value
    }
  }
}
